=== FILE: README.md ===
# English dictionary web: learning engine and data pipeline in Dafny

This project models the client-side logic of the English dictionary web
application and proves properties of it. It covers:

- **SM-2 scheduler** (`Sm2`, `sm2.dfy`). The review step, quality labels and
  the "next review" text buckets. The ease factor is kept in hundredths, so
  2.5 is 250 and the floor 1.3 is 130.
- **Browser-local cache and durable sync queue** (`Cache`, `cache.dfy`).
  Key construction, the one-hour freshness rule, prefix clearing, and the
  queue of pending remote mutations.
- **Learning store** (`Learning`, `learning.dfy`). The signed-in user's
  collection, review progress and statistics as explicit state transitions:
  - optimistic add, remove and review;
  - cache load and save;
  - the sign-in/sign-out watch;
  - loaders;
  - sync with the remote store.
- **Queue drain** (`SyncDrain`, `drain.dfy`) and its effect on the remote
  collection table (`RemoteReplay`, `remote.dfy`).
- **Word lookup** (`WordCache`, `wordcache.dfy`). Lookup goes memory first,
  then the durable store, then the origin. Memory holds at most 200 entries
  and evicts in insertion order. The index is memoised.
- **Index search and random sampling** (`IndexSearch`, `search.dfy`).
- **User settings** (`Settings`, `settings.dfy`). The settings merge and the
  auto-speak decision table.
- **Phonetic lookup** (`Phonetic`, `phonetic.dfy`). The two service
  parsers, first-success fallback, memoisation and batching.
- **The two build scripts**. The light-weight index builder (`BuildIndex`,
  `buildindex.dfy`) and the dictionary processor (`ProcessDictionary`,
  `processdict.dfy`). They share `DictionaryFiles` (`dictfiles.dfy`) and
  `Sorting` (`sorting.dfy`).
- **Shared types** (`Text`, `text.dfy`). `Option`, `Result`, JavaScript
  string truthiness and the string operations the code uses.

Every store function is a pure function from a state record to a state
record. The following are parameters, never effects:

- the clock ("now" and the start of today);
- whether storage writes succeed;
- the outcome of each remote call;
- the outcome of each `fetch`;
- random index choices;
- the word comparator (`localeCompare`).

## Model

| member | source | states |
|---|---|---|
| Sm2.NextReview | src/utils/sm2.js:20-66 | A quality outside 0..5 is an error with no result. Below 3, repetitions become 0, the interval 1, and the ease is unchanged. From 3 up, the ease is the old ease plus the SM-2 delta, floored at 1.3, and repetitions go up by one. The interval is then 1, 6, or the rounded product of the old interval and the new ease. The due date is now plus the interval in days |
| Sm2.RoundHundredths | src/utils/sm2.js:52 | The rounded value is the nearest integer to n/100, with halves rounded up |
| Sm2.EaseDeltas | src/utils/sm2.js:36 | The only ease changes a passing grade can make are +0.10 (q=5), 0 (q=4) and -0.14 (q=3) |
| Sm2.EaseMonotoneInQuality | src/utils/sm2.js:36-41 | A better passing grade never yields a smaller ease factor |
| Sm2.ClockOnlyMovesDueDate | src/utils/sm2.js:57-65 | Two reviews at different times agree on ease, interval and repetitions, and their due dates differ by exactly the time difference |
| Sm2.StepPreservesSchedule | src/utils/sm2.js:31-53 | A review keeps a reachable schedule reachable: the ease stays at least 1.3, and a recalled card's interval stays at least 1. A passing grade from the third review on never shortens the interval |
| Sm2.Replay | src/utils/sm2.js:22-24 | A run of reviews fails exactly when one of its grades is outside 0..5 |
| Sm2.ReplayPreservesSchedule | src/utils/sm2.js:36-53 | However many reviews a card goes through, its ease never drops below 1.3 and a recalled card is never due the same day |
| Sm2.FreshCardPerfectRecalls | src/utils/sm2.js:36-53 | From a fresh card (2.5, 0, 0), three perfect recalls give eases 2.6, 2.7, 2.8 and intervals 1, 6 and 17, the last being round(6 x 2.8) |
| Sm2.QualityLabel | src/utils/sm2.js:73-83 | Grades 0..5 get their fixed labels, and any other value gets the unknown label |
| Sm2.QualityLabelInjective | src/utils/sm2.js:74-82 | Distinct grades get distinct labels, and no grade is labelled unknown |
| Sm2.DiffDays | src/utils/sm2.js:102-103 | The day count is the ceiling of the time difference in days |
| Sm2.FormatNextReview | src/utils/sm2.js:105-119 | Each bucket holds exactly when its day range holds: past, today, tomorrow, 2-6 days, weeks for 7-29 days (floor of d/7), months from 30 (floor of d/30) |
| Sm2.FormatNextReviewMonotone | src/utils/sm2.js:105-119 | A later due date never gets a nearer bucket, and within a bucket the amount shown never decreases |
| Cache.CacheKey | src/utils/cache.js:12-14 | The key starts with the user's prefix, ends with "_" + type, and is exactly those two parts long |
| Cache.GetCache | src/utils/cache.js:19-42 | A falsy user id reads as absent. A value comes back exactly when the entry is at most one hour old. An expired entry is removed, and nothing else in the store changes |
| Cache.SetCache | src/utils/cache.js:47-60 | With a truthy id and a working store, the entry is written with the current time. Otherwise the store is unchanged |
| Cache.ClearCache | src/utils/cache.js:65-74 | With a truthy id and a working store, exactly that key is removed. Otherwise nothing changes |
| Cache.ClearAllUserCache | src/utils/cache.js:79-94 | Exactly the keys under the user's prefix are removed, and all other entries keep their values |
| Cache.SetThenGet | src/utils/cache.js:31-37 | What was set is read back for one hour, the hour itself included |
| Cache.ExpiredIsEvicted | src/utils/cache.js:32-35 | Past the hour, the entry reads as absent and is gone from the store |
| Cache.UserPrefixInjective | src/utils/cache.js:83 | Different user ids have different prefixes |
| Cache.CacheKeyInjective | src/utils/cache.js:12-14 | Two keys of one user for different types differ, and so do two users' keys for the same type |
| Cache.ClearAllThenGet | src/utils/cache.js:83-90 | After clearing a user's cache, every type reads as absent for that user |
| Cache.ClearAllKeepsOthers | src/utils/cache.js:83-90 | Clearing one user's cache leaves another user's entries readable as before (for ids of equal length) |
| Cache.GetSyncQueue | src/utils/cache.js:122-130 | An absent or unreadable queue reads as empty; a stored list reads as itself |
| Cache.AddToSyncQueue | src/utils/cache.js:104-117 | One entry (user, action, time) is appended at the end, and earlier entries are unchanged |
| Cache.ClearSyncQueue | src/utils/cache.js:135-141 | Afterwards the queue reads as empty |
| Cache.SpliceOne | src/utils/cache.js:149 | For an index in range, exactly that element is deleted and later ones shift left. Negative indices count from the end. An index past the end changes nothing |
| Cache.RemoveFromSyncQueue | src/utils/cache.js:146-154 | The stored queue is re-read, spliced at the index and written back |
| Cache.AddThenRemoveLast | src/utils/cache.js:104-154 | Enqueuing and then removing the last position restores the queue |
| Cache.RemoveFromBackKeepsFront | src/utils/cache.js:149 | Removing position i and then an earlier j equals removing j and then i-1: deleting from the back leaves front indices valid |
| SyncDrain.Select | src/stores/learning.js:148-168 | The survivors of a range are never more than the range's entries |
| SyncDrain.SelectMembers | src/stores/learning.js:148-168 | Every survivor is an entry of the range whose bit is set, and every such entry survives |
| SyncDrain.SelectNone | src/stores/learning.js:148-168 | When no entry of the range survives, nothing is kept |
| SyncDrain.SelectSplit | src/stores/learning.js:148-168 | Survivors of a range split at any midpoint concatenate |
| SyncDrain.SelectAll | src/stores/learning.js:148-168 | When every entry survives, the range is kept whole |
| SyncDrain.KeepMask | src/stores/learning.js:148-168 | An entry stays queued exactly when it belongs to another user, its remote call threw, or the storage write fails |
| SyncDrain.SuccessMask | src/stores/learning.js:152-161 | An entry's mutation reaches the remote exactly when it is the user's own and its call succeeds |
| SyncDrain.DrainDown | src/stores/learning.js:148-169 | The downward walk visits only the signed-in user's indices below its start |
| SyncDrain.DrainDownQueue | src/stores/learning.js:148-164 | At each point of the downward walk, the stored queue is the unvisited prefix followed by the visited survivors. Splicing at i never disturbs a lower index |
| SyncDrain.DrainDownDescending | src/stores/learning.js:148 | The downward walk visits indices in strictly decreasing order |
| SyncDrain.DrainDownCovers | src/stores/learning.js:148-152 | Every entry of the user below the start is visited |
| SyncDrain.DrainDownApplied | src/stores/learning.js:154-161 | The mutations reach the remote in reverse queue order |
| SyncDrain.DrainNewestFirst | src/stores/learning.js:145-170 | The drain as written: the stored queue ends as the original minus the removed entries, in order. Only the user's entries are visited, newest first. Successful mutations are applied in reverse queue order |
| SyncDrain.DrainUp | src/stores/learning.js:148-169 | The corrected walk visits only the user's indices from its start upward |
| SyncDrain.SpliceAfterPrefix | src/utils/cache.js:149 | Splicing the first unvisited entry removes exactly it |
| SyncDrain.DrainUpQueue | src/stores/learning.js:148-164 | The upward walk keeps the stored queue equal to the kept visited entries followed by the unvisited suffix |
| SyncDrain.DrainUpQueueStep | src/stores/learning.js:148-164 | One upward step keeps that shape: a removed entry is the first unvisited one, and a kept entry joins the kept prefix |
| SyncDrain.DrainUpAscending | src/stores/learning.js:148 | The upward walk visits indices in increasing order |
| SyncDrain.DrainUpCovers | src/stores/learning.js:148-152 | Every entry of the user at or after the start is visited |
| SyncDrain.DrainUpApplied | src/stores/learning.js:154-161 | The corrected walk applies mutations in queue order |
| SyncDrain.DrainOldestFirst | src/stores/learning.js:145-170 | The corrected drain leaves the same survivors, visits every own entry oldest first, and applies successes in queue order |
| SyncDrain.OthersSurvive | src/stores/learning.js:152 | A queue holding only other users' entries is left unchanged, order included |
| SyncDrain.OthersNeverRemoved | src/stores/learning.js:152 | In a queue of any mix of users, every entry of another user is still queued after the drain |
| RemoteReplay.Apply | src/utils/supabase.js:67-131 | A successful add inserts the (user, word) pair and a successful remove deletes it, leaving the progress table alone. A progress update upserts the review under (user, word) and leaves the collection table alone. An unknown action changes nothing |
| RemoteReplay.LastMutationWins | src/stores/learning.js:154-161 | After a replay, whether a pair is on the remote is decided by the last mutation of that pair, or by the starting state if none touched it |
| RemoteReplay.NewestFirstRestoresRemovedWord | src/stores/learning.js:148-164 | As written: add w then remove w, then a drain where every call succeeds. The queue empties and the local list lacks w, yet w is on the remote |
| RemoteReplay.AddRemoveQueue | src/stores/learning.js:184-234 | Adding and then removing a word from an empty queue leaves exactly those two mutations queued, oldest first |
| RemoteReplay.NewestFirstDrainsAddRemove | src/stores/learning.js:148-164 | A queued add then remove of one word, drained as written with every call succeeding, empties the queue and leaves the word on the remote |
| RemoteReplay.NewestFirstDrainsPair | src/stores/learning.js:148-164 | A user's two-entry queue drained as written with every call succeeding is replayed in reverse and emptied |
| RemoteReplay.OldestFirstReplaysInOrder | src/stores/learning.js:148-164 | The corrected drain, with every call succeeding, applies exactly the user's queue in order and empties it |
| RemoteReplay.OldestFirstKeepsRemovalLast | src/stores/learning.js:184-234 | With the corrected drain, add then remove leaves the word off the remote, agreeing with the local list |
| Learning.CacheKindsDisjoint | src/stores/learning.js:75-76 | The collections key of any user never collides with the progress key of any user |
| Learning.Count | src/stores/learning.js:86-92 | A count is zero exactly when no record passes the filter, and equals the length exactly when all do |
| Learning.CountAppend | src/stores/learning.js:86-92 | Appending a record adds one to a count exactly when it passes the filter |
| Learning.CountReplace | src/stores/learning.js:279-283 | Replacing one record changes a count by the difference of the two records' contributions |
| Learning.CalculateStats | src/stores/learning.js:80-94 | Total is the list length, and every other count is bounded by it |
| Learning.DueWords | src/stores/learning.js:23-26 | The due view holds exactly the records due by now, and its length is the due count |
| Learning.StatsAfterAppend | src/stores/learning.js:80-94 | A new record adds one to the total, and one to each count whose filter it passes |
| Learning.CollectedWords | src/stores/learning.js:28-30 | The word list is the collection's words, position by position |
| Learning.IsCollected | src/stores/learning.js:237-239 | True exactly when some collected item has the word |
| Learning.FindRecord | src/stores/learning.js:266-277 | Gives the first record for the word, or none exactly when no record has it |
| Learning.IsInProgress | src/stores/learning.js:242-244 | True exactly when some progress record has the word |
| Learning.SaveToCache | src/stores/learning.js:71-77 | Signed out, nothing happens. Signed in, both lists are written under the user's two keys |
| Learning.LoadFromCache | src/stores/learning.js:51-68 | Signed out, nothing happens. A fresh cached list replaces the in-memory one. Stats are recomputed only on a progress hit. Expired entries are evicted |
| Learning.SaveThenLoad | src/stores/learning.js:51-77 | Saving and then loading within the hour restores both lists, with stats recomputed |
| Learning.ClearUserData | src/stores/learning.js:342-354 | The lists and stats are emptied. When signed in, every key under the user's prefix is cleared. The sync queue survives unless its key falls under that prefix |
| Learning.ClearThenLoadIsEmpty | src/stores/learning.js:342-354 | After clearing, loading from the cache brings nothing back |
| Learning.AddCollectionOp | src/stores/learning.js:184-211 | Signed out, it fails with the login error and changes nothing else. Signed in, it prepends the word without a duplicate check, writes both lists to the user's cache keys at the current time, enqueues an add, keeps the user and the syncing flag, and succeeds |
| Learning.WithoutWord | src/stores/learning.js:218 | Every item for the word is removed, and every other item is kept |
| Learning.WithoutAbsentWord | src/stores/learning.js:218 | Removing an absent word leaves the list as it is |
| Learning.RemoveCollectionOp | src/stores/learning.js:214-234 | Signed out, it fails and changes nothing. Signed in, it drops the word's items, writes both lists to the user's cache keys at the current time, enqueues a remove, keeps the user and the syncing flag, and succeeds |
| Learning.AddThenRemove | src/stores/learning.js:184-239 | After adding, the word is collected. After adding then removing, it is not |
| Learning.RemoveKeepsOtherWords | src/stores/learning.js:214-239 | Removing a word leaves every other word's collected status unchanged |
| Learning.PriorEase | src/stores/learning.js:266-270 | The existing record's ease, or 2.5 when there is no record or its ease is falsy |
| Learning.PriorInterval | src/stores/learning.js:266-271 | The existing record's interval, or 0 |
| Learning.PriorRepetitions | src/stores/learning.js:266-272 | The existing record's repetitions, or 0 |
| Learning.ApplyReview | src/stores/learning.js:277-291 | An existing record is merged in place and every other record is untouched. A new word gets a record appended |
| Learning.UpdateWordProgress | src/stores/learning.js:258-318 | Signed out, it fails with the login error. A bad grade fails with the progress error and leaves the lists alone. Otherwise one record is written, stats are recomputed, both lists are written to the user's cache keys at the current time, an update is enqueued, and the user and syncing flag are kept. The returned `data` record is not part of the result; ReviewedRecord reads it back from the state |
| Learning.SavedSurvivesReload | src/stores/learning.js:51-77 | Whatever an optimistic update saved is what a load within the hour brings back, with stats recomputed |
| Learning.UpdatesSurviveReload | src/stores/learning.js:184-318 | After an add, a remove or a review, reloading the cache within the hour gives exactly the updated collection or progress list |
| Learning.ReviewTouchesOneRecord | src/stores/learning.js:266-294 | After a successful review the word is in progress. The list grows by one exactly when the word was new. Total is the list length, and at least one word counts as learned today |
| Learning.ReviewedRecord | src/stores/learning.js:269-312 | After a successful review, the word's first record in the progress list carries the new ease, interval, repetitions and due date, and the review time: the record returned as `data` |
| Learning.ReviewTwiceOneRecord | src/stores/learning.js:277-291 | Reviewing a word twice never creates a second record for it |
| Learning.PullCollections | src/stores/learning.js:122-130 | A pull that answered replaces the list with its data or []. A pull that errored or threw leaves it |
| Learning.PullProgress | src/stores/learning.js:133-142 | Same as PullCollections for progress, with stats recomputed on success |
| Learning.Sync | src/stores/learning.js:97-119 | Signed out or already syncing, nothing happens. Otherwise: the queue is drained as written, each list comes from its pull or stays, both lists are saved, and the flag ends cleared |
| Learning.DrainOracle | src/stores/learning.js:154-161 | An entry whose action is none of the three known ones makes no remote call, so it cannot throw and is removed without reaching the remote. Every other entry gets its own call's outcome |
| Learning.SyncOffline | src/stores/learning.js:97-170 | When every call throws and the pulls fail, the lists, the stats and the queue are unchanged |
| Learning.SyncKeepsOtherUsersEntries | src/stores/learning.js:152 | A sync leaves a queue holding only other users' entries as it was |
| Learning.UserChanged | src/stores/learning.js:33-48 | A new id loads the cache and then syncs. Signing out empties the lists and the stats. The same id does nothing |
| Learning.SignOutKeepsCache | src/stores/learning.js:38-47 | Signing out keeps the cache and the queue |
| Learning.LoadAndSync | src/stores/learning.js:173-181 | Signed out, nothing happens. Otherwise each list comes from its pull, else from a fresh cache entry, else stays. The flag ends cleared. Mid-sync, only the cache load happens |
| Learning.SignInLoads | src/stores/learning.js:247-255 | A sign-in with a new id does exactly what the loaders do once the id is set |
| Learning.SaveThenLoadOffline | src/stores/learning.js:326-334 | Lists saved within the hour survive a load while the network is down |
| Learning.LoadStats | src/stores/learning.js:321-323 | Only the stats change, and all four are recomputed from the progress list: total is its length, the due count is the due view's size, and learned-today and mastered counts are those of the list (pinned record by record by StatsAfterAppend) |
| Learning.SyncedStatsCurrent | src/stores/learning.js:133-142 | After a sync whose progress pull answered, recomputing the stats changes nothing |
| Learning.ClearError | src/stores/learning.js:337-339 | The error is cleared and nothing else changes |
| Learning.RefusedThenCleared | src/stores/learning.js:184-262 | An operation refused for being signed out leaves no trace once its error is cleared |
| WordCache.KeyIndex | src/utils/dictionary.js:12 | The first position of the key in insertion order, or none exactly when the key is absent |
| WordCache.Find | src/utils/dictionary.js:92-94 | A value comes back exactly when the key is present, and it is the value stored with it |
| WordCache.KeyIndexSameKeys | src/utils/dictionary.js:12 | A key's position depends only on the order of the keys |
| WordCache.FindAppend | src/utils/dictionary.js:126 | Appending another key does not change a lookup |
| WordCache.MapSet | src/utils/dictionary.js:103-126 | Keys stay distinct and the key reads back its value. Other keys read as before. An existing key keeps its place and a new key goes last |
| WordCache.MemoryPut | src/utils/dictionary.js:103-133 | Memory never exceeds 200 entries and the new key reads back its value. At the cap, the earliest key is dropped |
| WordCache.GetWordDetail | src/utils/dictionary.js:88-140 | A memory hit returns the stored value and changes nothing. Otherwise a durable record with data is returned without asking the origin. Otherwise the origin is asked: a body is returned, put in memory with eviction, and written to the durable store when it accepts writes. A non-ok reply is "not found" for the word as given, and a thrown fetch is a network error. A failure changes no tier |
| WordCache.FetchedThenDurable | src/utils/dictionary.js:114-133 | A word fetched while the durable store accepts writes is answered from that store after the memory is cleared, with the same value and no fetch |
| WordCache.DurableHitSkipsOrigin | src/utils/dictionary.js:98-112 | A stored durable record with data answers without the origin, whatever the origin would say |
| WordCache.LookupThenHit | src/utils/dictionary.js:92-126 | What was just looked up successfully is answered from memory next time, without the origin |
| WordCache.LookupIgnoresCaseAndPadding | src/utils/dictionary.js:89 | Inputs differing only in letter case and surrounding white space give the same lookup |
| WordCache.SameKeySameLookup | src/utils/dictionary.js:89-135 | Only the normalised key decides a lookup's tiers and value |
| WordCache.EvictsEarliest | src/utils/dictionary.js:106-133 | A new entry evicts exactly the earliest inserted key, and only when memory is full |
| WordCache.FindTail | src/utils/dictionary.js:107-108 | Dropping the first entry does not change a lookup of any other key |
| WordCache.LoadIndex | src/utils/dictionary.js:64-83 | A memoised index is returned without a fetch. Otherwise it is fetched: a body is returned and memoised, and a non-ok reply or a thrown fetch is the one load error with nothing memoised |
| WordCache.LoadIndexOnce | src/utils/dictionary.js:65-67 | After one successful load, loading again fetches nothing, whatever the origin would answer |
| WordCache.ClearCache | src/utils/dictionary.js:261-265 | The memoised index and the memory tier are emptied, and the durable store is kept |
| WordCache.ClearForcesReload | src/utils/dictionary.js:261-263 | After clearing, the next index load fetches again |
| IndexSearch.SliceTo | src/utils/dictionary.js:178 | `slice(0, limit)`, including negative limits counted from the end |
| IndexSearch.Search | src/utils/dictionary.js:145-179 | An empty query or an index without words gives []. There are at most `limit` results, every one an entry of the index matching the lowercased query. Exact matches come before prefix matches, which come before substring matches. A substring match never repeats the word of an earlier result |
| IndexSearch.CollectFacts | src/utils/dictionary.js:155-176 | Both passes together give rank-sorted matches. When short of `limit`, they contain every matching word |
| IndexSearch.RankedMatches | src/utils/dictionary.js:157-159 | Exact and prefix matches contain the query |
| IndexSearch.FirstStepShape | src/utils/dictionary.js:157-161 | Putting an exact match in front, or appending a prefix match, keeps exact matches ahead of prefix matches |
| IndexSearch.FirstPassFacts | src/utils/dictionary.js:156-164 | The first pass yields exact then prefix matches. Below `limit`, it has every exact or prefix match |
| IndexSearch.FirstPassKeeps | src/utils/dictionary.js:156-164 | The first pass never drops a collected entry |
| IndexSearch.FirstPassFrom | src/utils/dictionary.js:156-164 | The first pass adds only entries of the index |
| IndexSearch.SecondPassShape | src/utils/dictionary.js:167-176 | The second pass only appends substring matches, keeping the rank order |
| IndexSearch.SecondPassKeeps | src/utils/dictionary.js:168-175 | The second pass never drops a collected word |
| IndexSearch.SecondPassFrom | src/utils/dictionary.js:168-175 | The second pass adds only entries of the index |
| IndexSearch.SecondPassNoRepeat | src/utils/dictionary.js:171-173 | The second pass never appends a word already among the results |
| IndexSearch.SecondPassComplete | src/utils/dictionary.js:168-175 | A second pass that ends below `limit` has every matching word |
| IndexSearch.SearchComplete | src/utils/dictionary.js:145-179 | When fewer than `limit` results come back, no matching word was left out |
| IndexSearch.DrawingStart | src/utils/dictionary.js:191-192 | Sampling starts with the whole list as the pool and nothing selected |
| IndexSearch.DrawingStep | src/utils/dictionary.js:195-197 | Drawing position r moves that entry, with its original position, from the pool to the selection |
| IndexSearch.RandomWordsAsWritten | src/utils/dictionary.js:184-201 | As written: an empty index gives []. Otherwise min(count, ceil(n/2)) entries, from distinct original positions, each the entry at its position |
| IndexSearch.RandomWords | src/utils/dictionary.js:184-201 | Corrected: min(count, n) entries from distinct original positions, and [] for an empty index |
| IndexSearch.FourWordsYieldTwo | src/utils/dictionary.js:194 | From four words, asking for four yields two as written and four as corrected |
| Settings.GetSettings | src/utils/settings.js:28-40 | Nothing stored, an empty string, or a read or parse error gives exactly the defaults. Otherwise stored keys override defaults and other defaults remain |
| Settings.SaveSettings | src/utils/settings.js:46-56 | The current settings are overridden by the update, then stored and returned. On a write failure the current settings come back and the slot is unchanged |
| Settings.GetSetting | src/utils/settings.js:63-66 | The merged value of the key. Every default key has one |
| Settings.SetSetting | src/utils/settings.js:73-77 | On a write failure the slot is unchanged |
| Settings.SetThenGet | src/utils/settings.js:63-77 | What was set reads back, and every other key reads as before |
| Settings.SaveNothingKeeps | src/utils/settings.js:48-51 | Saving an empty update changes no setting |
| Settings.ResetSettings | src/utils/settings.js:82-90 | The defaults are returned and the stored object is removed. On failure the current settings come back |
| Settings.ResetThenGet | src/utils/settings.js:84-85 | After a reset, reading gives the defaults |
| Settings.GetSpeakSettings | src/utils/settings.js:96-106 | Each of the six speech fields is the merged setting it is read from |
| Settings.ShouldAutoSpeak | src/utils/settings.js:113-128 | False when autoSpeak is falsy. Otherwise the flag of the context for wordDetail, study and search, and false for any other context |
| Settings.DefaultAutoSpeak | src/utils/settings.js:9-22 | With nothing stored, only the word-detail page speaks on its own |
| Settings.AutoSpeakOffSilences | src/utils/settings.js:73-116 | Turning autoSpeak off silences every context |
| Phonetic.FindEntry | src/utils/phonetic.js:14-15 | Gives the first entry with text (and audio when asked for), or none exactly when no entry qualifies |
| Phonetic.ParseFreeDictionary | src/utils/phonetic.js:11-20 | Any phonetic returned is non-empty, and a reply without phonetics gives none |
| Phonetic.FreeDictionaryChoice | src/utils/phonetic.js:14-17 | A phonetic comes back exactly when some entry has text. It is the first entry with text and audio, or else the first with text |
| Phonetic.ParseWordsApi | src/utils/phonetic.js:29-31 | A phonetic comes back exactly when `all` or `noun` is non-empty, and it is `all || noun` |
| Phonetic.Parse | src/utils/phonetic.js:11-31 | Either parser returns only non-empty phonetics |
| Phonetic.FetchFromService | src/utils/phonetic.js:102-121 | A failed request or a non-ok response is an error. Otherwise the service's parse of the body |
| Phonetic.FetchFromServices | src/utils/phonetic.js:80-94 | A phonetic comes back exactly when some service yields one, and it is non-empty |
| Phonetic.FirstSuccessWins | src/utils/phonetic.js:81-91 | The phonetic of the earliest service that yields one is returned |
| Phonetic.GetPhonetic | src/utils/phonetic.js:44-73 | An empty or non-string word returns the fallback and leaves the memo. A memoised lowercased key is returned as is. Otherwise the fetched phonetic, else `fallback \|\| null`, is returned and memoised |
| Phonetic.MemoSkipsNetwork | src/utils/phonetic.js:49-54 | A memoised word is answered identically whatever the network would say |
| Phonetic.LookupIsMemoised | src/utils/phonetic.js:60-72 | After one lookup, a later one for the same lowercased word returns the same value with no request, even with a different fallback |
| Phonetic.Prefer | src/utils/phonetic.js:143 | A truthy fetched value wins, and otherwise the item's own phonetic is kept |
| Phonetic.Enrich | src/utils/phonetic.js:139-145 | An item keeps its word and other fields, and its phonetic is the original or a non-empty fetched one |
| Phonetic.BatchFrom | src/utils/phonetic.js:137-154 | The remaining items come out in order, with fields kept |
| Phonetic.GetBatchPhonetics | src/utils/phonetic.js:128-157 | A non-array gives []. Otherwise the same length and order, fields kept, each phonetic the original or a non-empty fetched one; the exact value of every item is given by BatchAnswers |
| Phonetic.FirstBatchAnswers | src/utils/phonetic.js:137-148 | Each item of the first batch gets `getPhonetic(word, phonetic) \|\| phonetic`, looked up against the starting memo |
| Phonetic.EveryBatchAnswers | src/utils/phonetic.js:133-154 | Every item of every batch gets `getPhonetic(word, phonetic) \|\| phonetic`, looked up against the memo left by the batches before it |
| Phonetic.BatchAnswers | src/utils/phonetic.js:128-157 | Each item of `getBatchPhonetics` carries its fetched phonetic, or its own when that is empty |
| Phonetic.OfflineBatchUnchanged | src/utils/phonetic.js:60-143 | With no service answering and an empty memo, a batch of at most five comes back unchanged |
| DictionaryFiles.DeriveWord | scripts/build-index.js:33 | The record's word when it is non-empty, else the file name with its first ".json" removed |
| DictionaryFiles.WordFromFileName | scripts/process-dictionary.js:29 | A record without a word in `<stem>.json` gets the stem as its word |
| DictionaryFiles.GroupKey | scripts/build-index.js:34-35 | The lowercased first letter when it is a-z, else "other" (also for the empty word) |
| DictionaryFiles.GroupKeyNamed | scripts/process-dictionary.js:36-39 | Every group key is one of the 27 group names |
| DictionaryFiles.GroupKeyIgnoresCase | scripts/build-index.js:34 | Words whose first letters differ only in case share a group |
| DictionaryFiles.GroupOrderSorted | scripts/build-index.js:63 | The 27 group names in code-unit order, with "other" between "o" and "p" |
| DictionaryFiles.Bump | scripts/build-index.js:46-49 | The key's count goes up by one from 0 or its old value, and other counts are kept |
| DictionaryFiles.SumOverBump | scripts/build-index.js:46-49 | Counting one more under a listed name adds one to the total |
| Sorting.Insert | scripts/build-index.js:57 | The result is the input plus one element, as a multiset |
| Sorting.InsertSorted | scripts/build-index.js:57 | With a consistent comparator, insertion keeps a list sorted |
| Sorting.Sort | scripts/build-index.js:57 | The result is a permutation of the input |
| Sorting.SortSorted | scripts/process-dictionary.js:73 | With a consistent comparator, the result is sorted by the comparator |
| Sorting.StrLessTransitive | scripts/build-index.js:63 | The default string order is transitive |
| Sorting.StrLessIrreflexive | scripts/build-index.js:63 | No string sorts before itself |
| Sorting.AscendingSorted | scripts/build-index.js:63 | Adjacent order implies order between any two positions |
| Sorting.KeepInOrder | scripts/build-index.js:63 | Exactly the names kept, each one of the known names |
| Sorting.KeepInOrderSorted | scripts/process-dictionary.js:78 | Keeping some names of a sorted list leaves it sorted |
| DictionaryFiles.FilesNamed | scripts/build-index.js:20 | Exactly the directory entries whose name passes the filter, and no more of them than were listed. The index builder keeps `.json` names other than index.json, and the processor keeps `.json` names longer than two characters |
| BuildIndex.Definition | scripts/build-index.js:41 | The concise definition, else the first definition, else "" |
| BuildIndex.Parsed | scripts/build-index.js:27-31 | Exactly the files whose contents parse |
| BuildIndex.ScanWords | scripts/build-index.js:27-44 | One entry per parsed file, in directory order, with derived word, pronunciation and definition |
| BuildIndex.ScanCounts | scripts/build-index.js:46-49 | A group is counted exactly when it has entries, and its count is their number |
| BuildIndex.ScanSum | scripts/build-index.js:44-49 | The counts add up to the number of entries |
| BuildIndex.Build | scripts/build-index.js:20-70 | totalWords is the list length. The words are the scanned entries, permuted. The counts are the scan's. The groups are exactly the counted keys, strictly sorted |
| BuildIndex.CountedKeysNamed | scripts/build-index.js:35-46 | Every counted key is one of the 27 names |
| BuildIndex.BuildFacts | scripts/build-index.js:44-64 | totalWords is the number of parsed listed files and the sum of the group counts. A group is listed exactly when its count is positive. The words are in comparator order |
| BuildIndex.SkippedFile | scripts/build-index.js:20-53 | index.json, a non-JSON name, or an unparseable file contributes nothing |
| BuildIndex.OneWordFile | scripts/build-index.js:27-70 | A single readable file gives one word with its derived fields, counted once in its group |
| ProcessDictionary.Filled | scripts/process-dictionary.js:29-34 | The record's word is the derived word, and every other field is kept |
| ProcessDictionary.Push | scripts/process-dictionary.js:41-45 | The record is appended to its group, creating the group if needed, and other groups are kept |
| ProcessDictionary.Records | scripts/process-dictionary.js:22-36 | Every processed record has a non-empty word |
| ProcessDictionary.InGroup | scripts/process-dictionary.js:39-45 | Every record selected falls in the group |
| ProcessDictionary.ScanGroups | scripts/process-dictionary.js:22-59 | Each group holds exactly its processed records, in directory order, and no group is empty |
| ProcessDictionary.ScanEntries | scripts/process-dictionary.js:48-54 | One index entry per processed record, tagged with its group |
| ProcessDictionary.Sizes | scripts/process-dictionary.js:41-45 | A group's size is its record count |
| ProcessDictionary.GroupsNamed | scripts/process-dictionary.js:39 | Every group is one of the 27 names |
| ProcessDictionary.GroupsPartition | scripts/process-dictionary.js:41-54 | Group sizes add up to the number of index entries: each record is in exactly one group |
| ProcessDictionary.Process | scripts/process-dictionary.js:14-79 | The groups are the scan's. The index words are its entries, permuted, and totalWords is their number. The group list is exactly the group keys, strictly sorted |
| ProcessDictionary.ProcessFacts | scripts/process-dictionary.js:22-79 | Each group has exactly its records. Each entry's firstChar is its word's group and its word is non-empty. totalWords is the number of processed records and the sum of group sizes. The words are in comparator order |
| ProcessDictionary.OneFile | scripts/process-dictionary.js:29-54 | A word-less `<stem>.json` is filed under the stem's group, with the stem written in, and indexed as the stem |
| ProcessDictionary.UnprocessedFile | scripts/process-dictionary.js:14-58 | A file that is not listed, does not parse, or derives an empty word leaves no trace |
| Text.LowerChar | src/utils/dictionary.js:89 | 'A' to 'Z' become the letter 32 code points later, 'a' to 'z'; every other character is kept; no result is upper case |
| Text.ToLower | src/utils/dictionary.js:89 | Same length, and each character lower-cased |
| Text.Trim | src/utils/dictionary.js:89 | Not longer than the input, and neither end is white space |
| Text.FindFrom | scripts/build-index.js:33 | The first occurrence at or after the start, or none exactly when there is no occurrence |
| Text.ReplaceFirst | scripts/build-index.js:33 | Only the first occurrence is replaced, and a string without the pattern is unchanged |
| Text.StartsWithContains | src/utils/dictionary.js:159-172 | A prefix match is also a substring match |
| Text.ToLowerIdempotent | src/utils/phonetic.js:49 | Lower-casing twice is lower-casing once |
| Text.TrimSplit | src/utils/dictionary.js:89 | Any string is leading space, then its trimmed core, then trailing space |
| Text.TrimPadded | src/utils/dictionary.js:89 | Padding with white space does not change the trimmed form |
| Text.NormalizeIgnoresCaseAndPadding | src/utils/dictionary.js:89 | Inputs differing in case and surrounding white space normalise alike |

## Left out

- Timers and concurrency are not modelled: the `setTimeout` background drains after add, remove and review, the preload loops (`preloadCommonWords`, `preloadCommonGroups`), interleavings of `Promise.all`, and races on `isSyncing` and the shared queue across await points. A sync is one atomic transition.
- Floating point is not modelled. The ease factor is an integer in hundredths, so JavaScript may differ at exact .5 rounding boundaries. `speakSpeed` is an opaque value.
- Dates are integer milliseconds. `setDate` calendar arithmetic (daylight-saving days) is approximated as adding whole 24-hour days. The formatted date strings are not modelled.
- Letter case and white space are ASCII only. JavaScript's `toLowerCase` and `trim` are Unicode-aware.
- JSON is not modelled. Storage holds typed values. Non-string `word` or `pronunciation` fields in word files and non-array `phonetics` are not modelled. A missing string field is "".
- The Supabase client, text-to-speech, the router, the user store and the Pinia wrapper are not part of this model. Remote calls are outcomes given per queue index, and pulls are given results.
- Storage failures are one `writable` flag per operation rather than per call.
- The remote progress table keeps the SM-2 fields of the last upsert per (user, word); the server-side `last_reviewed` timestamp the upsert adds is not modelled.
- The remote collection table is a set of (user, word) pairs, so a repeated insert is idempotent. Unique constraints and row ids are not modelled.
- `getSettingsStats`, `getCacheStats`, `clearIndexedDB`, `clearPhoneticCache`, `getPhoneticCacheStats` and `checkServicesStatus` are not modelled. They report or clear state and carry no decision logic.
- `undefined` values in settings are not modelled. A stored key always has a JSON value.
- `encodeURIComponent` throwing on lone surrogates is not modelled.
- Phonetic.GetBatchPhonetics: the lookups of one batch run concurrently. The model stores their results in list order, each computed against the memo as the batch began.
- Learning.UpdateWordProgress: the `data` field of the returned object is not part of the `Step` result; the written record is read back from the resulting state (Learning.ReviewedRecord).
- `localeCompare` is a parameter. Results about order hold for any comparator that is total and transitive.
- Writing the group files and `index.json` to disk is not modelled; the model returns their contents. The version, build time and data-source constants of the light-weight index are left out.
- ProcessDictionary.Listed: the processor's filter admits `index.json` and earlier group files such as `a.json`. The model keeps this as written, so such files are processed like word files.
- Sorting.Sort: the result is a sorted permutation. The relative order of items with equal keys, which `Array.prototype.sort` keeps, is not stated. Strings are sequences of code points, and the default string order is stated on them rather than on UTF-16 code units.
- Cache.CacheKeyInjective: keys are injective only when the users or the types agree. Ids and types that contain "_" can collide across both, so full injectivity does not hold.
- Cache.ClearAllKeepsOthers: stated for another user whose id has the same length. A longer id that extends the prefix (for example "bob" and "bob_x") is cleared along with it, as the code does.
- Learning.Sync: replays the queue newest first, as written. The corrected order is proved separately (see Findings).

## Findings

| source | as written | input that shows it | evidently intended | confidence | as-written member | corrected member |
|---|---|---|---|---|---|---|
| src/stores/learning.js:148-164 | The drain walks the queue from the last index down, so the remote applies a user's queued mutations newest first | Add word w, then remove w, then sync with every call succeeding: the remove runs first and the add last, so w is on the remote while the local list lacks it | Replay mutations in the order they were queued, so the remote agrees with the local list | not executed | RemoteReplay.NewestFirstRestoresRemovedWord | RemoteReplay.OldestFirstKeepsRemovalLast |
| src/utils/dictionary.js:194 | The loop bound `Math.min(count, words.length)` is re-evaluated while `words` shrinks, so the loop stops after min(count, ceil(n/2)) draws | An index of four words and `count = 4` gives two words | min(count, n) words | not executed | IndexSearch.RandomWordsAsWritten | IndexSearch.RandomWords |

`Learning.Sync` keeps the drain as written (`SyncDrain.DrainNewestFirst`). The corrected drain is `SyncDrain.DrainOldestFirst`. It leaves the same survivors in the queue (both postconditions state the same `Select`) and differs only in the order of remote application, which `RemoteReplay.OldestFirstReplaysInOrder` pins down.

=== FILE: buildindex.dfy ===
/** The light-weight index builder: every word file except `index.json`
    contributes its word, pronunciation and a one-line definition; the
    index holds the sorted word list, the number of words per first-letter
    group and the sorted list of groups. The word comparator
    (`localeCompare`) is a parameter. */
module BuildIndex {
  import opened Text
  import opened Sorting
  import opened DictionaryFiles

  datatype BasicInfo = BasicInfo(word: string, pronunciation: string, definition: string)

  datatype LightIndex = LightIndex(totalWords: nat, groups: seq<string>, groupCounts: map<string, nat>, words: seq<BasicInfo>)

  /** The directory filter: a `.json` name other than `index.json`. */
  predicate Listed(name: string) {
    EndsWith(name, ".json") && name != "index.json"
  }

  function ListedFiles(files: seq<SourceFile>): seq<SourceFile> {
    FilesNamed(files, Listed)
  }

  /** `concise_definition || definitions[0].text || ''`. */
  function Definition(record: SourceRecord): (d: string)
    ensures Truthy(record.conciseDefinition) ==> d == record.conciseDefinition
    ensures !Truthy(record.conciseDefinition) && |record.definitions| > 0 ==> d == record.definitions[0]
    ensures !Truthy(record.conciseDefinition) && |record.definitions| == 0 ==> d == ""
  {
    OrElse(record.conciseDefinition, if |record.definitions| > 0 then record.definitions[0] else "")
  }

  function Info(record: SourceRecord, name: string): BasicInfo {
    BasicInfo(DeriveWord(record, name), record.pronunciation, Definition(record))
  }

  /** The word list and the group counts after the loop has read `files`. */
  datatype Tally = Tally(words: seq<BasicInfo>, counts: map<string, nat>)

  /** The loop over the listed files, in directory order; a file that
      cannot be read or parsed is skipped. The empty word is not an error
      here: `charAt(0)` of it is "" and it counts under "other". */
  function Scan(files: seq<SourceFile>): Tally
    decreases |files|
  {
    if |files| == 0 then Tally([], map[])
    else
      var t := Scan(files[..|files| - 1]);
      var f := files[|files| - 1];
      match f.parsed
      case None => t
      case Some(record) =>
        var info := Info(record, f.name);
        Tally(t.words + [info], Bump(t.counts, GroupKey(info.word)))
  }

  /** The files that contribute: those whose contents parse. */
  function Parsed(files: seq<SourceFile>): (r: seq<SourceFile>)
    ensures forall f :: f in r <==> f in files && f.parsed.Some?
    decreases |files|
  {
    if |files| == 0 then []
    else
      var p := Parsed(files[..|files| - 1]);
      assert files == files[..|files| - 1] + [files[|files| - 1]];
      if files[|files| - 1].parsed.Some? then p + [files[|files| - 1]] else p
  }

  /** The number of entries in `words` whose word falls in group `k`. */
  function CountIn(words: seq<BasicInfo>, k: string): nat
    decreases |words|
  {
    if |words| == 0 then 0
    else CountIn(words[..|words| - 1], k) + (if GroupKey(words[|words| - 1].word) == k then 1 else 0)
  }

  /** The loop keeps one entry per parsed file, in order. */
  lemma {:induction false} ScanWords(files: seq<SourceFile>)
    ensures |Scan(files).words| == |Parsed(files)|
    ensures forall i :: 0 <= i < |Parsed(files)| ==>
      Scan(files).words[i] == Info(Parsed(files)[i].parsed.value, Parsed(files)[i].name)
    decreases |files|
  {
    if |files| > 0 {
      var init := files[..|files| - 1];
      var f := files[|files| - 1];
      ScanWords(init);
      assert files == init + [f];
      if f.parsed.Some? {
        assert Parsed(files) == Parsed(init) + [f];
      }
    }
  }

  /** Under each group the loop counts the entries in it; a group appears
      only when it has entries. */
  lemma {:induction false} ScanCounts(files: seq<SourceFile>)
    ensures forall k :: k in Scan(files).counts <==> CountIn(Scan(files).words, k) > 0
    ensures forall k :: k in Scan(files).counts ==> Scan(files).counts[k] == CountIn(Scan(files).words, k)
    decreases |files|
  {
    if |files| > 0 {
      var init := files[..|files| - 1];
      var f := files[|files| - 1];
      ScanCounts(init);
      var t := Scan(init);
      assert files[..|files| - 1] == init;
      if f.parsed.Some? {
        var info := Info(f.parsed.value, f.name);
        var ws := t.words + [info];
        assert ws[..|ws| - 1] == t.words && ws[|ws| - 1] == info;
        assert Scan(files) == Tally(ws, Bump(t.counts, GroupKey(info.word)));
        forall k ensures CountIn(ws, k) == CountIn(t.words, k) + (if GroupKey(info.word) == k then 1 else 0) {
        }
      } else {
        assert Scan(files) == t;
      }
    }
  }

  /** The counts add up to the number of entries. */
  lemma {:induction false} ScanSum(files: seq<SourceFile>)
    ensures SumOver(GroupOrder, Scan(files).counts) == |Scan(files).words|
    decreases |files|
  {
    if |files| == 0 {
      SumOverEmpty(GroupOrder);
    } else {
      var init := files[..|files| - 1];
      var f := files[|files| - 1];
      ScanSum(init);
      if f.parsed.Some? {
        var w := Info(f.parsed.value, f.name).word;
        GroupKeyNamed(w);
        GroupOrderSorted();
        SortedNoDuplicates(GroupOrder);
        SumOverBump(GroupOrder, Scan(init).counts, GroupKey(w));
      }
    }
  }

  /** The comparator on words lifted to entries. */
  function WordOf(b: BasicInfo): string {
    b.word
  }

  /** The script from the directory listing to `index.json`; build time,
      version and data-source constants are left out. */
  function Build(files: seq<SourceFile>, le: (string, string) -> bool): (r: LightIndex)
    ensures r.totalWords == |r.words|
    ensures multiset(r.words) == multiset(Scan(ListedFiles(files)).words)
    ensures r.groupCounts == Scan(ListedFiles(files)).counts
    ensures forall k :: k in r.groups <==> k in r.groupCounts
    ensures StrictlySorted(r.groups)
  {
    var t := Scan(ListedFiles(files));
    GroupOrderSorted();
    KeepInOrderSorted(GroupOrder, t.counts.Keys);
    forall k | k in t.counts ensures k in GroupOrder {
      CountedKeysNamed(t.words, t.counts, ListedFiles(files));
    }
    LightIndex(|t.words|, KeepInOrder(GroupOrder, t.counts.Keys), t.counts, Sort(t.words, WordOf, le))
  }

  /** Every counted group is one of the 27 names. */
  lemma {:induction false} CountedKeysNamed(words: seq<BasicInfo>, counts: map<string, nat>, files: seq<SourceFile>)
    requires words == Scan(files).words && counts == Scan(files).counts
    ensures forall k :: k in counts ==> k in GroupOrder
    decreases |files|
  {
    if |files| > 0 {
      var t := Scan(files[..|files| - 1]);
      CountedKeysNamed(t.words, t.counts, files[..|files| - 1]);
      var f := files[|files| - 1];
      if f.parsed.Some? {
        GroupKeyNamed(Info(f.parsed.value, f.name).word);
      }
    }
  }

  /** The index's promises: its word count is the number of parsed listed
      files and the sum of the group counts; a group is listed exactly when
      its count is positive; with a consistent comparator the words are in
      order. */
  lemma {:induction false} BuildFacts(files: seq<SourceFile>, le: (string, string) -> bool)
    requires TotalPreorder(le)
    ensures var r := Build(files, le);
      && r.totalWords == |Parsed(ListedFiles(files))|
      && r.totalWords == SumOver(GroupOrder, r.groupCounts)
      && (forall k :: k in r.groups <==> k in r.groupCounts && r.groupCounts[k] > 0)
      && SortedBy(r.words, WordOf, le)
  {
    ScanWords(ListedFiles(files));
    ScanCounts(ListedFiles(files));
    ScanSum(ListedFiles(files));
    SortSorted(Scan(ListedFiles(files)).words, WordOf, le);
  }

  /** A file that is `index.json`, not a `.json` file, or unreadable
      contributes nothing. */
  lemma {:induction false} SkippedFile(f: SourceFile, le: (string, string) -> bool)
    requires !Listed(f.name) || f.parsed.None?
    ensures Build([f], le) == LightIndex(0, [], map[], [])
  {
    var files := [f];
    KeepNothing(GroupOrder);
    var e: map<string, nat> := map[];
    assert e.Keys == {};
    assert files[..0] == [] && files[1..] == [];
    if Listed(f.name) {
      assert ListedFiles(files) == files;
      assert Scan(files) == Tally([], map[]);
    } else {
      assert ListedFiles(files) == [];
      assert Scan([]) == Tally([], map[]);
    }
  }

  /** One readable word file on its own: its entry carries the derived word,
      its pronunciation and the definition fallback, counted in the word's
      group. */
  lemma {:induction false} OneWordFile(f: SourceFile, le: (string, string) -> bool)
    requires Listed(f.name) && f.parsed.Some?
    ensures Build([f], le) == LightIndex(1, [GroupKey(DeriveWord(f.parsed.value, f.name))],
                                         map[GroupKey(DeriveWord(f.parsed.value, f.name)) := 1],
                                         [Info(f.parsed.value, f.name)])
  {
    var files := [f];
    assert files[..0] == [] && files[1..] == [];
    assert ListedFiles(files) == files;
    var info := Info(f.parsed.value, f.name);
    var k := GroupKey(info.word);
    var counts := Bump(map[], k);
    assert counts == map[k := 1];
    assert Scan(files) == Tally([info], counts);
    assert Sort([info], WordOf, le) == [info];
    GroupKeyNamed(info.word);
    var keys := KeepInOrder(GroupOrder, {k});
    assert counts.Keys == {k};
    assert k in keys;
    GroupOrderSorted();
    KeepInOrderSorted(GroupOrder, {k});
    SingletonSorted(keys, k);
  }

  /** A strictly sorted list of the elements of {k} is [k]. */
  lemma {:induction false} SingletonSorted(s: seq<string>, k: string)
    requires StrictlySorted(s) && (forall x :: x in s <==> x == k)
    ensures s == [k]
  {
    assert k in s;
    assert s[0] in s;
    if |s| > 1 {
      assert s[1] in s;
      StrLessIrreflexive(k);
    }
  }
}

=== FILE: cache.dfy ===
/** The browser-local cache of a user's lists and the durable queue of
    mutations waiting to reach the remote store. Browser storage is a map
    from key to slot; a slot whose text no longer parses is `Unreadable`.
    Whether a storage write succeeds is a parameter (`writable`): a failed
    write is caught and leaves storage as it was. */
module Cache {
  import opened Text

  const CachePrefix: string := "dict_"
  const CacheVersion: string := "v1"
  /** One hour: an entry exactly this old is still served. */
  const MaxAgeMs: int := 3_600_000

  /** Everything stored for one user starts with this. */
  function UserPrefix(userId: string): string {
    CachePrefix + CacheVersion + "_" + userId + "_"
  }

  /** `getCacheKey(userId, type)`. */
  function CacheKey(userId: string, kind: string): (k: string)
    ensures StartsWith(k, UserPrefix(userId))
    ensures EndsWith(k, "_" + kind)
    ensures |k| == |UserPrefix(userId)| + |kind|
  {
    var k := UserPrefix(userId) + kind;
    assert k[..|UserPrefix(userId)|] == UserPrefix(userId);
    assert k[|k| - |"_" + kind|..] == "_" + kind;
    k
  }

  datatype Slot<T> = Entry(data: T, timestamp: int) | Unreadable
  type Store<T> = map<string, Slot<T>>

  /** What a read returns, with the store as the read leaves it. */
  datatype Read<T> = Read(value: Option<T>, store: Store<T>)

  predicate Fresh<T>(store: Store<T>, key: string, now: int) {
    key in store && store[key].Entry? && now - store[key].timestamp <= MaxAgeMs
  }

  /** `getCache(userId, type)` at time `now`. An expired entry is removed. */
  function GetCache<T>(store: Store<T>, userId: string, kind: string, now: int): (r: Read<T>)
    ensures !Truthy(userId) ==> r == Read(None, store)
    ensures r.value.Some? <==> Truthy(userId) && Fresh(store, CacheKey(userId, kind), now)
    ensures r.value.Some? ==> r.value.value == store[CacheKey(userId, kind)].data
    ensures r.store.Keys <= store.Keys && forall k :: k in r.store ==> r.store[k] == store[k]
    ensures forall k :: k in store && k !in r.store ==>
      && Truthy(userId) && k == CacheKey(userId, kind)
      && store[k].Entry? && now - store[k].timestamp > MaxAgeMs
  {
    if !Truthy(userId) then Read(None, store)
    else
      var key := CacheKey(userId, kind);
      if key !in store then Read(None, store)
      else match store[key]
        case Unreadable => Read(None, store)
        case Entry(data, timestamp) =>
          if now - timestamp > MaxAgeMs then Read(None, store - {key})
          else Read(Some(data), store)
  }

  /** `setCache(userId, type, data)` at time `now`. */
  function SetCache<T>(store: Store<T>, userId: string, kind: string, data: T, now: int, writable: bool)
    : (r: Store<T>)
    ensures !Truthy(userId) || !writable ==> r == store
    ensures Truthy(userId) && writable ==>
      && r.Keys == store.Keys + {CacheKey(userId, kind)}
      && r[CacheKey(userId, kind)] == Entry(data, now)
      && forall k :: k in store && k != CacheKey(userId, kind) ==> r[k] == store[k]
  {
    if !Truthy(userId) || !writable then store
    else store[CacheKey(userId, kind) := Entry(data, now)]
  }

  /** `clearCache(userId, type)`. */
  function ClearCache<T>(store: Store<T>, userId: string, kind: string, writable: bool): (r: Store<T>)
    ensures !Truthy(userId) || !writable ==> r == store
    ensures Truthy(userId) && writable ==> r.Keys == store.Keys - {CacheKey(userId, kind)}
    ensures forall k :: k in r ==> k in store && r[k] == store[k]
  {
    if !Truthy(userId) || !writable then store
    else store - {CacheKey(userId, kind)}
  }

  /** `clearAllUserCache(userId)`: every key under the user's prefix goes,
      every other key stays as it was. */
  function ClearAllUserCache<T>(store: Store<T>, userId: string, writable: bool): (r: Store<T>)
    ensures !Truthy(userId) || !writable ==> r == store
    ensures Truthy(userId) && writable ==>
      forall k :: k in r <==> k in store && !StartsWith(k, UserPrefix(userId))
    ensures forall k :: k in r ==> k in store && r[k] == store[k]
  {
    if !Truthy(userId) || !writable then store
    else map k | k in store && !StartsWith(k, UserPrefix(userId)) :: store[k]
  }

  /** Round trip: what was set is read back for an hour, the hour included. */
  lemma {:induction false} SetThenGet<T>(store: Store<T>, userId: string, kind: string, data: T, setAt: int, now: int)
    requires Truthy(userId)
    requires now - setAt <= MaxAgeMs
    ensures GetCache(SetCache(store, userId, kind, data, setAt, true), userId, kind, now).value == Some(data)
  {
  }

  /** After the hour the entry reads as absent and is dropped from storage. */
  lemma {:induction false} ExpiredIsEvicted<T>(store: Store<T>, userId: string, kind: string, data: T, setAt: int, now: int)
    requires Truthy(userId)
    requires now - setAt > MaxAgeMs
    ensures var r := GetCache(SetCache(store, userId, kind, data, setAt, true), userId, kind, now);
            r.value == None && CacheKey(userId, kind) !in r.store
  {
  }

  lemma {:induction false} UserPrefixInjective(u1: string, u2: string)
    requires UserPrefix(u1) == UserPrefix(u2)
    ensures u1 == u2
  {
    var off := |CachePrefix + CacheVersion + "_"|;
    assert u1 == UserPrefix(u1)[off..|UserPrefix(u1)| - 1];
    assert u2 == UserPrefix(u2)[off..|UserPrefix(u2)| - 1];
  }

  /** A user's keys for different kinds never collide, and neither do two
      users' keys for the same kind. */
  lemma {:induction false} CacheKeyInjective(u1: string, k1: string, u2: string, k2: string)
    requires u1 == u2 || k1 == k2
    requires CacheKey(u1, k1) == CacheKey(u2, k2)
    ensures u1 == u2 && k1 == k2
  {
    var a := CacheKey(u1, k1);
    if k1 == k2 {
      assert UserPrefix(u1) == a[..|a| - |k1|] == UserPrefix(u2);
      UserPrefixInjective(u1, u2);
    }
  }

  lemma {:induction false} PrefixOfEqualLength(a: string, b: string, s: string)
    requires |a| == |b| && StartsWith(s, a) && StartsWith(s, b)
    ensures a == b
  {
  }

  /** Clearing a user's cache empties every kind of entry that user had. */
  lemma {:induction false} ClearAllThenGet<T>(store: Store<T>, userId: string, kind: string, now: int)
    ensures GetCache(ClearAllUserCache(store, userId, true), userId, kind, now).value == None
  {
  }

  /** Clearing one user's cache keeps every entry of another user whose id
      has the same length (user ids are fixed-length UUIDs); in general an
      id that extends another by `_...` would share its prefix. */
  lemma {:induction false} ClearAllKeepsOthers<T>(store: Store<T>, userId: string, other: string, kind: string, now: int)
    requires |other| == |userId| && other != userId
    ensures GetCache(ClearAllUserCache(store, userId, true), other, kind, now).value
         == GetCache(store, other, kind, now).value
  {
    var key := CacheKey(other, kind);
    if StartsWith(key, UserPrefix(userId)) {
      PrefixOfEqualLength(UserPrefix(userId), UserPrefix(other), key);
      UserPrefixInjective(userId, other);
      assert false;
    }
  }

  // ---------------------------------------------------------------------
  // Sync queue: one list under the key `dict_v1_sync_queue`.

  const SyncQueueKey: string := CachePrefix + CacheVersion + "_sync_queue"

  datatype QueueItem<A> = QueueItem(userId: string, action: A, timestamp: int)

  /** The queue's storage slot: absent, unparseable, or a list. */
  datatype QueueSlot<A> = NoQueue | CorruptQueue | Queue(items: seq<QueueItem<A>>)

  /** `getSyncQueue()`: an absent or unreadable queue reads as empty. */
  function GetSyncQueue<A>(slot: QueueSlot<A>): (q: seq<QueueItem<A>>)
    ensures slot.Queue? ==> q == slot.items
    ensures !slot.Queue? ==> q == []
  {
    if slot.Queue? then slot.items else []
  }

  /** `addToSyncQueue(userId, action, data)` at time `now`. */
  function AddToSyncQueue<A>(slot: QueueSlot<A>, userId: string, action: A, now: int, writable: bool)
    : (r: QueueSlot<A>)
    ensures !writable ==> r == slot
    ensures writable ==>
      && r.Queue?
      && |r.items| == |GetSyncQueue(slot)| + 1
      && r.items[..|GetSyncQueue(slot)|] == GetSyncQueue(slot)
      && r.items[|GetSyncQueue(slot)|] == QueueItem(userId, action, now)
  {
    if !writable then slot
    else
      var q := GetSyncQueue(slot) + [QueueItem(userId, action, now)];
      assert q[..|GetSyncQueue(slot)|] == GetSyncQueue(slot);
      Queue(q)
  }

  /** `clearSyncQueue()`. */
  function ClearSyncQueue<A>(slot: QueueSlot<A>, writable: bool): (r: QueueSlot<A>)
    ensures writable ==> GetSyncQueue(r) == []
    ensures !writable ==> r == slot
  {
    if writable then NoQueue else slot
  }

  /** `Array.prototype.splice(index, 1)`: a negative index counts from the end,
      an index past the end removes nothing. */
  function SpliceOne<X>(q: seq<X>, index: int): (r: seq<X>)
    ensures 0 <= index < |q| ==>
      && |r| == |q| - 1
      && (forall j :: 0 <= j < index ==> r[j] == q[j])
      && (forall j :: index <= j < |r| ==> r[j] == q[j + 1])
    ensures index >= |q| ==> r == q
    ensures index < 0 && 0 <= |q| + index ==> r == q[..|q| + index] + q[|q| + index + 1..]
    ensures index < 0 && |q| + index < 0 ==> r == (if |q| == 0 then q else q[1..])
  {
    var start := if index < 0 then (if |q| + index < 0 then 0 else |q| + index)
                 else if index > |q| then |q| else index;
    if start < |q| then q[..start] + q[start + 1..] else q
  }

  /** `removeFromSyncQueue(index)`: re-reads the stored queue, splices, writes back. */
  function RemoveFromSyncQueue<A>(slot: QueueSlot<A>, index: int, writable: bool): (r: QueueSlot<A>)
    ensures !writable ==> r == slot
    ensures writable ==> r == Queue(SpliceOne(GetSyncQueue(slot), index))
  {
    if !writable then slot else Queue(SpliceOne(GetSyncQueue(slot), index))
  }

  /** Enqueuing and then removing the last position restores the queue;
      earlier entries are never disturbed by an enqueue. */
  lemma {:induction false} AddThenRemoveLast<A>(q: seq<QueueItem<A>>, userId: string, action: A, now: int)
    ensures RemoveFromSyncQueue(AddToSyncQueue(Queue(q), userId, action, now, true), |q|, true) == Queue(q)
  {
    var added := q + [QueueItem(userId, action, now)];
    assert added[..|q|] == q;
  }

  /** Removing position `i` and then position `j < i` equals removing them
      in the other order with the second index shifted: removals from the
      back never move the entries in front. */
  lemma {:induction false} RemoveFromBackKeepsFront<X>(q: seq<X>, i: int, j: int)
    requires 0 <= j < i < |q|
    ensures SpliceOne(SpliceOne(q, i), j) == SpliceOne(SpliceOne(q, j), i - 1)
  {
    assert SpliceOne(SpliceOne(q, i), j) == q[..j] + q[j + 1..i] + q[i + 1..];
    assert SpliceOne(SpliceOne(q, j), i - 1) == q[..j] + q[j + 1..i] + q[i + 1..];
  }
}

=== FILE: dictfiles.dfy ===
/** What the two index-building scripts share: the word files they read,
    how a word is derived from a record and its file name, the first-letter
    group a word falls in, and the order `Object.keys(groups).sort()` puts
    the group names in. */
module DictionaryFiles {
  import opened Text
  import opened Sorting

  /** The fields of a word file the scripts read; a missing or non-string
      field is "" and a missing `definitions` array is empty (each element
      stands for that definition's `text`). */
  datatype SourceRecord = SourceRecord(word: string, pronunciation: string, conciseDefinition: string, definitions: seq<string>)

  /** A directory entry: its name, and its parsed contents, None when
      reading or `JSON.parse` throws. */
  datatype SourceFile = SourceFile(name: string, parsed: Option<SourceRecord>)

  /** `fs.readdirSync(dir).filter(keep)`: the directory entries whose name
      passes the filter, in directory order. */
  function FilesNamed(files: seq<SourceFile>, keep: string -> bool): (r: seq<SourceFile>)
    ensures forall f :: f in r <==> f in files && keep(f.name)
    ensures |r| <= |files|
    decreases |files|
  {
    if |files| == 0 then []
    else if keep(files[0].name) then [files[0]] + FilesNamed(files[1..], keep)
    else FilesNamed(files[1..], keep)
  }

  /** `data.word || file.replace('.json', '')`. */
  function DeriveWord(record: SourceRecord, name: string): (w: string)
    ensures Truthy(record.word) ==> w == record.word
    ensures !Truthy(record.word) ==> w == ReplaceFirst(name, ".json", "")
  {
    if Truthy(record.word) then record.word else ReplaceFirst(name, ".json", "")
  }

  /** The word of `a.json` with no `word` field is `a`. */
  lemma {:induction false} WordFromFileName(stem: string, record: SourceRecord)
    requires !Truthy(record.word) && !Contains(stem, ".")
    ensures DeriveWord(record, stem + ".json") == stem
  {
    var name := stem + ".json";
    assert OccursAt(name, ".json", |stem|);
    forall k | 0 <= k < |stem| ensures !OccursAt(name, ".json", k) {
      assert !OccursAt(stem, ".", k);
      assert stem[k..k + 1] != ".";
      assert name[k] == stem[k] != '.';
    }
    var k := FindFrom(name, ".json", 0).value;
    assert k == |stem|;
    assert name[..|stem|] == stem;
  }

  /** The single-letter group names, 'a' to 'o' and 'p' to 'z'. */
  const EarlyLetters: seq<string> := seq(15, i requires 0 <= i < 15 => [(97 + i) as char])
  const LateLetters: seq<string> := seq(11, i requires 0 <= i < 11 => [(112 + i) as char])

  /** Every group name in code-unit order: "other" sorts after "o", being
      longer, and before "p". */
  const GroupOrder: seq<string> := EarlyLetters + ["other"] + LateLetters

  /** `/[a-z]/.test(firstChar) ? firstChar : 'other'` with `firstChar` the
      lowercased first character, which is "" for the empty word. */
  function GroupKey(word: string): (k: string)
    ensures |word| > 0 && IsLowerLetter(LowerChar(word[0])) ==> k == [LowerChar(word[0])]
    ensures !(|word| > 0 && IsLowerLetter(LowerChar(word[0]))) ==> k == "other"
  {
    if |word| > 0 && IsLowerLetter(LowerChar(word[0])) then [LowerChar(word[0])] else "other"
  }

  /** Every group a word can fall in is one of the 27 names. */
  lemma {:induction false} GroupKeyNamed(word: string)
    ensures GroupKey(word) in GroupOrder
  {
    if |word| > 0 && IsLowerLetter(LowerChar(word[0])) {
      var c := LowerChar(word[0]);
      if c <= 'o' {
        assert EarlyLetters[c as int - 97] == [c];
      } else {
        assert GroupOrder[16 + c as int - 112] == LateLetters[c as int - 112];
      }
    }
  }

  /** Words that differ only in the case of their first letter share a group. */
  lemma {:induction false} GroupKeyIgnoresCase(a: string, b: string)
    requires |a| > 0 && |b| > 0 && LowerChar(a[0]) == LowerChar(b[0])
    ensures GroupKey(a) == GroupKey(b)
  {
  }

  lemma {:induction false} GroupOrderSorted()
    ensures StrictlySorted(GroupOrder)
  {
    forall i | 0 < i < |GroupOrder| ensures StrLess(GroupOrder[i - 1], GroupOrder[i]) {
      if i < 15 {
        assert GroupOrder[i - 1] == [(96 + i) as char] && GroupOrder[i] == [(97 + i) as char];
      } else if i == 15 {
        assert GroupOrder[i - 1] == "o" && GroupOrder[i] == "other";
      } else if i == 16 {
        assert GroupOrder[i - 1] == "other" && GroupOrder[i] == "p";
      } else {
        assert GroupOrder[i - 1] == [(95 + i) as char] && GroupOrder[i] == [(96 + i) as char];
      }
    }
    AscendingSorted(GroupOrder);
  }

  predicate NoDuplicates(s: seq<string>) {
    forall i, j :: 0 <= i < j < |s| ==> s[i] != s[j]
  }

  lemma {:induction false} SortedNoDuplicates(s: seq<string>)
    requires StrictlySorted(s)
    ensures NoDuplicates(s)
  {
    forall i, j | 0 <= i < j < |s| ensures s[i] != s[j] {
      StrLessIrreflexive(s[i]);
    }
  }

  /** The sum of the values a map holds under the given names. */
  function SumOver(keys: seq<string>, m: map<string, nat>): nat
    decreases |keys|
  {
    if |keys| == 0 then 0
    else (if keys[0] in m then m[keys[0]] else 0) + SumOver(keys[1..], m)
  }

  lemma {:induction false} SumOverEmpty(keys: seq<string>)
    ensures SumOver(keys, map[]) == 0
    decreases |keys|
  {
    if |keys| > 0 {
      SumOverEmpty(keys[1..]);
    }
  }

  /** `if (!m[k]) m[k] = 0; m[k]++`. */
  function Bump(m: map<string, nat>, k: string): (r: map<string, nat>)
    ensures r.Keys == m.Keys + {k}
    ensures r[k] == (if k in m then m[k] else 0) + 1
    ensures forall j :: j in m && j != k ==> r[j] == m[j]
  {
    m[k := (if k in m then m[k] else 0) + 1]
  }

  lemma {:induction false} SumOverOutside(keys: seq<string>, m: map<string, nat>, k: string, v: nat)
    requires k !in keys
    ensures SumOver(keys, m[k := v]) == SumOver(keys, m)
    decreases |keys|
  {
    if |keys| > 0 {
      assert k !in keys[1..];
      SumOverOutside(keys[1..], m, k, v);
    }
  }

  /** Counting one more under a name that occurs once among the names
      adds one to the sum. */
  lemma {:induction false} SumOverBump(keys: seq<string>, m: map<string, nat>, k: string)
    requires NoDuplicates(keys) && k in keys
    ensures SumOver(keys, Bump(m, k)) == SumOver(keys, m) + 1
    decreases |keys|
  {
    var rest := keys[1..];
    assert NoDuplicates(rest) by {
      forall i, j | 0 <= i < j < |rest| ensures rest[i] != rest[j] {
        assert rest[i] == keys[i + 1] && rest[j] == keys[j + 1];
      }
    }
    if keys[0] == k {
      assert k !in rest by {
        forall i | 0 <= i < |rest| ensures rest[i] != k {
          assert rest[i] == keys[i + 1];
        }
      }
      SumOverOutside(rest, m, k, (if k in m then m[k] else 0) + 1);
    } else {
      SumOverBump(rest, m, k);
    }
  }
}

=== FILE: drain.dfy ===
/** Draining the sync queue against the remote store. The remote call for
    the entry at index `i` of the snapshot has the outcome `oracle(i)`: it
    succeeds, returns an `{error}` value (which the drain does not inspect),
    or throws. An entry leaves the queue exactly when its call does not
    throw and the storage write succeeds. */
module SyncDrain {
  import opened Cache

  datatype Outcome = Succeeded | ReturnedError | Threw

  /** The elements of `q[lo..hi]` whose mask bit is set, in order. */
  function Select<X>(q: seq<X>, mask: seq<bool>, lo: int, hi: int): (r: seq<X>)
    requires |mask| == |q| && 0 <= lo <= hi <= |q|
    ensures |r| <= hi - lo
    decreases hi - lo
  {
    if lo == hi then []
    else Select(q, mask, lo, hi - 1) + (if mask[hi - 1] then [q[hi - 1]] else [])
  }

  /** `x` is a range entry whose bit is set. */
  ghost predicate Kept<X>(q: seq<X>, mask: seq<bool>, lo: int, hi: int, x: X)
    requires |mask| == |q| && 0 <= lo <= hi <= |q|
  {
    exists j :: lo <= j < hi && mask[j] && x == q[j]
  }

  /** The survivors are exactly the range's entries whose bit is set. */
  lemma {:induction false} SelectMembers<X>(q: seq<X>, mask: seq<bool>, lo: int, hi: int)
    requires |mask| == |q| && 0 <= lo <= hi <= |q|
    ensures forall k :: 0 <= k < |Select(q, mask, lo, hi)| ==> Kept(q, mask, lo, hi, Select(q, mask, lo, hi)[k])
    ensures forall j :: lo <= j < hi && mask[j] ==>
              exists k :: 0 <= k < |Select(q, mask, lo, hi)| && Select(q, mask, lo, hi)[k] == q[j]
    decreases hi - lo
  {
    if lo < hi {
      SelectMembers(q, mask, lo, hi - 1);
      var p := Select(q, mask, lo, hi - 1);
      var r := Select(q, mask, lo, hi);
      assert r == p + (if mask[hi - 1] then [q[hi - 1]] else []);
      forall k | 0 <= k < |r| ensures Kept(q, mask, lo, hi, r[k]) {
        if k < |p| {
          assert Kept(q, mask, lo, hi - 1, p[k]);
          var j :| lo <= j < hi - 1 && mask[j] && p[k] == q[j];
          assert r[k] == q[j];
        } else {
          assert mask[hi - 1] && r[k] == q[hi - 1];
        }
      }
      forall j | lo <= j < hi && mask[j] ensures exists k :: 0 <= k < |r| && r[k] == q[j] {
        if j < hi - 1 {
          var k :| 0 <= k < |p| && p[k] == q[j];
          assert r[k] == q[j];
        } else {
          assert r[|p|] == q[j];
        }
      }
    }
  }

  lemma {:induction false} SelectSplit<X>(q: seq<X>, mask: seq<bool>, lo: int, mid: int, hi: int)
    requires |mask| == |q| && 0 <= lo <= mid <= hi <= |q|
    ensures Select(q, mask, lo, hi) == Select(q, mask, lo, mid) + Select(q, mask, mid, hi)
    decreases hi - mid
  {
    if mid < hi {
      SelectSplit(q, mask, lo, mid, hi - 1);
    }
  }

  lemma {:induction false} SelectNone<X>(q: seq<X>, mask: seq<bool>, lo: int, hi: int)
    requires |mask| == |q| && 0 <= lo <= hi <= |q|
    requires forall j :: lo <= j < hi ==> !mask[j]
    ensures Select(q, mask, lo, hi) == []
    decreases hi - lo
  {
    if lo < hi {
      SelectNone(q, mask, lo, hi - 1);
    }
  }

  lemma {:induction false} SelectAll<X>(q: seq<X>, mask: seq<bool>, lo: int, hi: int)
    requires |mask| == |q| && 0 <= lo <= hi <= |q|
    requires forall j :: lo <= j < hi ==> mask[j]
    ensures Select(q, mask, lo, hi) == q[lo..hi]
    decreases hi - lo
  {
    if lo < hi {
      SelectAll(q, mask, lo, hi - 1);
      assert q[lo..hi] == q[lo..hi - 1] + [q[hi - 1]];
    }
  }

  /** Entry `j` survives the drain. */
  function KeepMask<A>(q: seq<QueueItem<A>>, user: string, oracle: int -> Outcome, writable: bool): (m: seq<bool>)
    ensures |m| == |q|
    ensures forall j :: 0 <= j < |q| ==>
      (m[j] <==> !(writable && q[j].userId == user && oracle(j) != Threw))
  {
    seq(|q|, j requires 0 <= j < |q| => !(writable && q[j].userId == user && oracle(j) != Threw))
  }

  /** Entry `j`'s mutation reached the remote store. */
  function SuccessMask<A>(q: seq<QueueItem<A>>, user: string, oracle: int -> Outcome): (m: seq<bool>)
    ensures |m| == |q|
    ensures forall j :: 0 <= j < |q| ==> (m[j] <==> q[j].userId == user && oracle(j) == Succeeded)
  {
    seq(|q|, j requires 0 <= j < |q| => q[j].userId == user && oracle(j) == Succeeded)
  }

  /** The stored queue after a drain, the snapshot indices whose remote call
      was made (in call order), and the entries whose call succeeded (in call order). */
  datatype Drained<A> = Drained(slot: QueueSlot<A>, visited: seq<int>, applied: seq<QueueItem<A>>)

  predicate Descending(v: seq<int>) {
    forall a, b :: 0 <= a < b < |v| ==> v[a] > v[b]
  }

  predicate Ascending(v: seq<int>) {
    forall a, b :: 0 <= a < b < |v| ==> v[a] < v[b]
  }

  function Reverse<X>(s: seq<X>): (r: seq<X>)
    ensures |r| == |s|
    ensures forall k :: 0 <= k < |s| ==> r[k] == s[|s| - 1 - k]
  {
    if |s| == 0 then [] else [s[|s| - 1]] + Reverse(s[..|s| - 1])
  }

  /** The loop of `processSyncQueue` from index `n - 1` down to 0, as written:
      the snapshot `q` is walked from the newest entry to the oldest, and a
      visited entry is spliced out of the stored queue at its index. */
  function DrainDown<A>(q: seq<QueueItem<A>>, user: string, oracle: int -> Outcome, writable: bool,
                        n: nat, slot: QueueSlot<A>): (r: Drained<A>)
    requires n <= |q|
    ensures |r.visited| <= n
    ensures forall k :: 0 <= k < |r.visited| ==> 0 <= r.visited[k] < n && q[r.visited[k]].userId == user
    decreases n
  {
    if n == 0 then
      Drained(slot, [], [])
    else
      var i := n - 1;
      if q[i].userId != user then
        DrainDown(q, user, oracle, writable, i, slot)
      else
        var slot' := if oracle(i) == Threw then slot else RemoveFromSyncQueue(slot, i, writable);
        var rest := DrainDown(q, user, oracle, writable, i, slot');
        Drained(rest.slot, [i] + rest.visited,
                (if oracle(i) == Succeeded then [q[i]] else []) + rest.applied)
  }

  /** While walking down, the stored queue is the unvisited prefix `q[..n]`
      followed by the survivors of the part already walked. */
  lemma {:induction false} DrainDownQueue<A>(q: seq<QueueItem<A>>, user: string, oracle: int -> Outcome,
                                             writable: bool, n: nat, slot: QueueSlot<A>)
    requires n <= |q|
    requires GetSyncQueue(slot) == q[..n] + Select(q, KeepMask(q, user, oracle, writable), n, |q|)
    ensures GetSyncQueue(DrainDown(q, user, oracle, writable, n, slot).slot)
         == Select(q, KeepMask(q, user, oracle, writable), 0, |q|)
    decreases n
  {
    var keep := KeepMask(q, user, oracle, writable);
    if n == 0 {
      assert q[..0] == [];
    } else {
      var i := n - 1;
      SelectSplit(q, keep, i, i + 1, |q|);
      assert q[..n] == q[..i] + [q[i]];
      if q[i].userId != user || oracle(i) == Threw || !writable {
        assert keep[i];
        DrainDownQueue(q, user, oracle, writable, i, slot);
      } else {
        assert !keep[i];
        var slot' := RemoveFromSyncQueue(slot, i, writable);
        assert GetSyncQueue(slot') == q[..i] + Select(q, keep, i, |q|);
        DrainDownQueue(q, user, oracle, writable, i, slot');
      }
    }
  }

  /** Prepending an index larger than all others keeps a sequence descending. */
  lemma {:induction false} DescendingCons(i: int, v: seq<int>)
    requires Descending(v)
    requires forall k :: 0 <= k < |v| ==> v[k] < i
    ensures Descending([i] + v)
  {
    var w := [i] + v;
    forall a, b | 0 <= a < b < |w| ensures w[a] > w[b] {
      assert w[b] == v[b - 1];
      if a > 0 { assert w[a] == v[a - 1]; }
    }
  }

  /** Walking down visits the user's entries newest first. */
  lemma {:induction false} DrainDownDescending<A>(q: seq<QueueItem<A>>, user: string, oracle: int -> Outcome,
                                                  writable: bool, n: nat, slot: QueueSlot<A>)
    requires n <= |q|
    ensures Descending(DrainDown(q, user, oracle, writable, n, slot).visited)
    decreases n
  {
    if n > 0 {
      var i := n - 1;
      var slot' := if q[i].userId != user || oracle(i) == Threw then slot else RemoveFromSyncQueue(slot, i, writable);
      DrainDownDescending(q, user, oracle, writable, i, slot');
      if q[i].userId == user {
        DescendingCons(i, DrainDown(q, user, oracle, writable, i, slot').visited);
      }
    }
  }

  /** Walking down visits every one of the user's entries below `n`. */
  lemma {:induction false} DrainDownCovers<A>(q: seq<QueueItem<A>>, user: string, oracle: int -> Outcome,
                                              writable: bool, n: nat, slot: QueueSlot<A>, j: int)
    requires n <= |q|
    requires 0 <= j < n && q[j].userId == user
    ensures j in DrainDown(q, user, oracle, writable, n, slot).visited
    decreases n
  {
    var i := n - 1;
    if j < i {
      var slot' := if q[i].userId != user || oracle(i) == Threw then slot else RemoveFromSyncQueue(slot, i, writable);
      DrainDownCovers(q, user, oracle, writable, i, slot', j);
    }
  }

  /** Walking down applies the successful entries in reverse queue order. */
  lemma {:induction false} DrainDownApplied<A>(q: seq<QueueItem<A>>, user: string, oracle: int -> Outcome,
                                               writable: bool, n: nat, slot: QueueSlot<A>)
    requires n <= |q|
    ensures DrainDown(q, user, oracle, writable, n, slot).applied
         == Reverse(Select(q, SuccessMask(q, user, oracle), 0, n))
    decreases n
  {
    if n > 0 {
      var i := n - 1;
      var succ := SuccessMask(q, user, oracle);
      var slot' := if q[i].userId != user || oracle(i) == Threw then slot else RemoveFromSyncQueue(slot, i, writable);
      DrainDownApplied(q, user, oracle, writable, i, slot');
      var s := Select(q, succ, 0, i);
      if succ[i] {
        assert (s + [q[i]])[..|s|] == s;
      } else {
        assert s + [] == s;
      }
    }
  }

  /** `processSyncQueue` as written: the own entries are replayed newest first. */
  function DrainNewestFirst<A>(slot: QueueSlot<A>, user: string, oracle: int -> Outcome, writable: bool)
    : (r: Drained<A>)
    ensures var q := GetSyncQueue(slot);
      && GetSyncQueue(r.slot) == Select(q, KeepMask(q, user, oracle, writable), 0, |q|)
      && Descending(r.visited)
      && (forall j :: j in r.visited <==> 0 <= j < |q| && q[j].userId == user)
      && r.applied == Reverse(Select(q, SuccessMask(q, user, oracle), 0, |q|))
  {
    var q := GetSyncQueue(slot);
    assert q[..|q|] + Select(q, KeepMask(q, user, oracle, writable), |q|, |q|) == q;
    DrainDownQueue(q, user, oracle, writable, |q|, slot);
    DrainDownDescending(q, user, oracle, writable, |q|, slot);
    forall j | 0 <= j < |q| && q[j].userId == user
      ensures j in DrainDown(q, user, oracle, writable, |q|, slot).visited
    {
      DrainDownCovers(q, user, oracle, writable, |q|, slot, j);
    }
    DrainDownApplied(q, user, oracle, writable, |q|, slot);
    DrainDown(q, user, oracle, writable, |q|, slot)
  }

  /** The same loop walking the snapshot from the oldest entry to the newest.
      Entry `i` then sits at position `pos` of the stored queue, the number of
      earlier entries that were kept. */
  function DrainUp<A>(q: seq<QueueItem<A>>, user: string, oracle: int -> Outcome, writable: bool,
                      i: nat, pos: nat, slot: QueueSlot<A>): (r: Drained<A>)
    requires i <= |q|
    ensures forall k :: 0 <= k < |r.visited| ==> i <= r.visited[k] < |q| && q[r.visited[k]].userId == user
    decreases |q| - i
  {
    if i == |q| then
      Drained(slot, [], [])
    else if q[i].userId != user then
      DrainUp(q, user, oracle, writable, i + 1, pos + 1, slot)
    else if oracle(i) == Threw || !writable then
      var rest := DrainUp(q, user, oracle, writable, i + 1, pos + 1, slot);
      Drained(rest.slot, [i] + rest.visited,
              (if oracle(i) == Succeeded then [q[i]] else []) + rest.applied)
    else
      var rest := DrainUp(q, user, oracle, writable, i + 1, pos, RemoveFromSyncQueue(slot, pos, writable));
      Drained(rest.slot, [i] + rest.visited,
              (if oracle(i) == Succeeded then [q[i]] else []) + rest.applied)
  }

  /** Splicing out the first unvisited entry, which sits right after the kept ones. */
  lemma {:induction false} SpliceAfterPrefix<X>(done: seq<X>, rest: seq<X>)
    requires |rest| > 0
    ensures SpliceOne(done + rest, |done|) == done + rest[1..]
  {
    var s := done + rest;
    assert s[..|done|] == done;
    assert s[|done| + 1..] == rest[1..];
  }

  lemma {:induction false} DrainUpQueue<A>(q: seq<QueueItem<A>>, user: string, oracle: int -> Outcome,
                                           writable: bool, i: nat, pos: nat, slot: QueueSlot<A>)
    requires i <= |q|
    requires pos == |Select(q, KeepMask(q, user, oracle, writable), 0, i)|
    requires GetSyncQueue(slot) == Select(q, KeepMask(q, user, oracle, writable), 0, i) + q[i..]
    ensures GetSyncQueue(DrainUp(q, user, oracle, writable, i, pos, slot).slot)
         == Select(q, KeepMask(q, user, oracle, writable), 0, |q|)
    decreases |q| - i
  {
    var keep := KeepMask(q, user, oracle, writable);
    var done := Select(q, keep, 0, i);
    if i == |q| {
      assert done + q[i..] == done;
    } else {
      var slot', pos' := UpSlot(q, user, oracle, writable, i, pos, slot), UpPos(q, user, oracle, writable, i, pos);
      DrainUpQueueStep(q, user, oracle, writable, i, pos, slot);
      DrainUpQueue(q, user, oracle, writable, i + 1, pos', slot');
    }
  }

  /** One step of the ascending walk keeps the stored queue equal to the
      kept entries so far followed by the unvisited ones. */
  lemma {:induction false} DrainUpQueueStep<A>(q: seq<QueueItem<A>>, user: string, oracle: int -> Outcome,
                                               writable: bool, i: nat, pos: nat, slot: QueueSlot<A>)
    requires i < |q|
    requires pos == |Select(q, KeepMask(q, user, oracle, writable), 0, i)|
    requires GetSyncQueue(slot) == Select(q, KeepMask(q, user, oracle, writable), 0, i) + q[i..]
    ensures UpPos(q, user, oracle, writable, i, pos) == |Select(q, KeepMask(q, user, oracle, writable), 0, i + 1)|
    ensures GetSyncQueue(UpSlot(q, user, oracle, writable, i, pos, slot))
         == Select(q, KeepMask(q, user, oracle, writable), 0, i + 1) + q[i + 1..]
  {
    var keep := KeepMask(q, user, oracle, writable);
    var done := Select(q, keep, 0, i);
    if keep[i] {
      assert Select(q, keep, 0, i + 1) == done + [q[i]];
      assert done + q[i..] == done + [q[i]] + q[i + 1..];
    } else {
      assert Select(q, keep, 0, i + 1) == done;
      SpliceAfterPrefix(done, q[i..]);
      assert q[i..][1..] == q[i + 1..];
    }
  }

  /** Prepending an index smaller than all others keeps a sequence ascending. */
  lemma {:induction false} AscendingCons(i: int, v: seq<int>)
    requires Ascending(v)
    requires forall k :: 0 <= k < |v| ==> i < v[k]
    ensures Ascending([i] + v)
  {
    var w := [i] + v;
    forall a, b | 0 <= a < b < |w| ensures w[a] < w[b] {
      assert w[b] == v[b - 1];
      if a > 0 { assert w[a] == v[a - 1]; }
    }
  }

  /** The slot the ascending walk hands to the next step, and where the next entry then sits. */
  function UpSlot<A>(q: seq<QueueItem<A>>, user: string, oracle: int -> Outcome, writable: bool,
                     i: nat, pos: nat, slot: QueueSlot<A>): QueueSlot<A>
    requires i < |q|
  {
    if q[i].userId != user || oracle(i) == Threw || !writable then slot else RemoveFromSyncQueue(slot, pos, writable)
  }

  function UpPos<A>(q: seq<QueueItem<A>>, user: string, oracle: int -> Outcome, writable: bool,
                    i: nat, pos: nat): nat
    requires i < |q|
  {
    if q[i].userId != user || oracle(i) == Threw || !writable then pos + 1 else pos
  }

  lemma {:induction false} DrainUpAscending<A>(q: seq<QueueItem<A>>, user: string, oracle: int -> Outcome,
                                               writable: bool, i: nat, pos: nat, slot: QueueSlot<A>)
    requires i <= |q|
    ensures Ascending(DrainUp(q, user, oracle, writable, i, pos, slot).visited)
    decreases |q| - i
  {
    if i < |q| {
      var slot', pos' := UpSlot(q, user, oracle, writable, i, pos, slot), UpPos(q, user, oracle, writable, i, pos);
      DrainUpAscending(q, user, oracle, writable, i + 1, pos', slot');
      if q[i].userId == user {
        AscendingCons(i, DrainUp(q, user, oracle, writable, i + 1, pos', slot').visited);
      }
    }
  }

  lemma {:induction false} DrainUpCovers<A>(q: seq<QueueItem<A>>, user: string, oracle: int -> Outcome,
                                            writable: bool, i: nat, pos: nat, slot: QueueSlot<A>, j: int)
    requires i <= j < |q| && q[j].userId == user
    ensures j in DrainUp(q, user, oracle, writable, i, pos, slot).visited
    decreases |q| - i
  {
    if i < j {
      var slot', pos' := UpSlot(q, user, oracle, writable, i, pos, slot), UpPos(q, user, oracle, writable, i, pos);
      DrainUpCovers(q, user, oracle, writable, i + 1, pos', slot', j);
    }
  }

  lemma {:induction false} DrainUpApplied<A>(q: seq<QueueItem<A>>, user: string, oracle: int -> Outcome,
                                             writable: bool, i: nat, pos: nat, slot: QueueSlot<A>)
    requires i <= |q|
    ensures DrainUp(q, user, oracle, writable, i, pos, slot).applied == Select(q, SuccessMask(q, user, oracle), i, |q|)
    decreases |q| - i
  {
    if i < |q| {
      var succ := SuccessMask(q, user, oracle);
      SelectSplit(q, succ, i, i + 1, |q|);
      var slot', pos' := UpSlot(q, user, oracle, writable, i, pos, slot), UpPos(q, user, oracle, writable, i, pos);
      DrainUpApplied(q, user, oracle, writable, i + 1, pos', slot');
    }
  }

  /** The drain replaying entries oldest first, with the same survivors. */
  function DrainOldestFirst<A>(slot: QueueSlot<A>, user: string, oracle: int -> Outcome, writable: bool)
    : (r: Drained<A>)
    ensures var q := GetSyncQueue(slot);
      && GetSyncQueue(r.slot) == Select(q, KeepMask(q, user, oracle, writable), 0, |q|)
      && Ascending(r.visited)
      && (forall j :: j in r.visited <==> 0 <= j < |q| && q[j].userId == user)
      && r.applied == Select(q, SuccessMask(q, user, oracle), 0, |q|)
  {
    var q := GetSyncQueue(slot);
    assert q[0..] == q;
    DrainUpQueue(q, user, oracle, writable, 0, 0, slot);
    DrainUpAscending(q, user, oracle, writable, 0, 0, slot);
    DrainUpApplied(q, user, oracle, writable, 0, 0, slot);
    forall j | 0 <= j < |q| && q[j].userId == user
      ensures j in DrainUp(q, user, oracle, writable, 0, 0, slot).visited
    {
      DrainUpCovers(q, user, oracle, writable, 0, 0, slot, j);
    }
    DrainUp(q, user, oracle, writable, 0, 0, slot)
  }

  /** In any queue, an entry of another user is still queued after a drain. */
  lemma {:induction false} OthersNeverRemoved<A>(q: seq<QueueItem<A>>, user: string, oracle: int -> Outcome,
                                                 writable: bool, j: int)
    requires 0 <= j < |q| && q[j].userId != user
    ensures exists k :: 0 <= k < |Select(q, KeepMask(q, user, oracle, writable), 0, |q|)|
                        && Select(q, KeepMask(q, user, oracle, writable), 0, |q|)[k] == q[j]
  {
    SelectMembers(q, KeepMask(q, user, oracle, writable), 0, |q|);
  }

  /** A queue holding only other users' entries survives a drain unchanged. */
  lemma {:induction false} OthersSurvive<A>(q: seq<QueueItem<A>>, user: string, oracle: int -> Outcome, writable: bool)
    requires forall j :: 0 <= j < |q| ==> q[j].userId != user
    ensures Select(q, KeepMask(q, user, oracle, writable), 0, |q|) == q
  {
    SelectAll(q, KeepMask(q, user, oracle, writable), 0, |q|);
    assert q[0..|q|] == q;
  }
}

=== FILE: learning.dfy ===
/** The learning store: the signed-in user's collection and review progress,
    kept optimistically in memory, mirrored into the browser cache, and
    reconciled with the remote store through the sync queue.

    Every store function is a state transition on `State`. The clock, the
    start of the local day and whether storage writes succeed come in as
    `Env`; the outcomes of remote calls come in as `Remote`. Two cache kinds
    are used, `collections` and `progress`; their keys never collide
    (`CacheKindsDisjoint`), so the one browser store is kept as two maps. */
module Learning {
  import opened Text
  import opened Sm2
  import opened Cache
  import opened SyncDrain

  datatype CollectionItem = CollectionItem(word: string, createdAt: int)

  /** One `user_progress` row; `lastReviewed` is null until the first review. */
  datatype ProgressRecord = ProgressRecord(word: string, userId: string, easeFactor: int, interval: int,
                                           repetitions: int, lastReviewed: Option<int>, nextReview: int)

  datatype Stats = Stats(totalWords: nat, learnedToday: nat, dueWords: nat, masteredWords: nat)

  const ZeroStats: Stats := Stats(0, 0, 0, 0)

  /** A queued mutation: the action name together with its payload. */
  datatype Action = AddCollection(word: string) | RemoveCollection(word: string)
                  | UpdateProgress(word: string, review: Review) | OtherAction(name: string)

  const CollectionsKind: string := "collections"
  const ProgressKind: string := "progress"
  const LoginRequired: string := "请先登录"
  const ProgressFailed: string := "更新学习进度失败: "
  const QualityMessage: string := "质量评分必须在 0-5 之间"
  /** Reviews this many times or more count as mastered. */
  const MasteredRepetitions: int := 5

  datatype Env = Env(now: int, todayStart: int, writable: bool)

  /** What one pull returns: `{data}` (possibly null), `{error}`, or a throw. */
  datatype Pull<T> = Data(data: Option<T>) | PullError | PullThrow

  /** The remote store as seen by one sync: the outcome of the call made for
      each snapshot index of the queue, and the two pulls. */
  datatype Remote = Remote(calls: int -> Outcome, collectionsPull: Pull<seq<CollectionItem>>,
                           progressPull: Pull<seq<ProgressRecord>>)

  datatype State = State(
    user: Option<string>,
    collections: seq<CollectionItem>,
    progress: seq<ProgressRecord>,
    stats: Stats,
    isSyncing: bool,
    error: Option<string>,
    collectionsCache: Store<seq<CollectionItem>>,
    progressCache: Store<seq<ProgressRecord>>,
    queue: QueueSlot<Action>)

  /** The result of an operation that reports `{ success }`. */
  datatype Step = Step(state: State, success: bool)

  lemma {:induction false} CacheKindsDisjoint(u1: string, u2: string)
    ensures CacheKey(u1, CollectionsKind) != CacheKey(u2, ProgressKind)
  {
    var a := CacheKey(u1, CollectionsKind);
    var b := CacheKey(u2, ProgressKind);
    assert a[|a| - 12..][10] == a[|a| - 2] == 'n';
    assert b[|b| - 9..][7] == b[|b| - 2] == 's';
  }

  // ---------------------------------------------------------------------
  // Statistics

  /** The three filters `calculateStats` counts with. */
  datatype Tally = LearnedSince(start: int) | DueBy(now: int) | Mastered

  predicate Counts(t: Tally, p: ProgressRecord) {
    match t
    case LearnedSince(start) => p.lastReviewed.Some? && p.lastReviewed.value >= start
    case DueBy(now) => p.nextReview <= now
    case Mastered => p.repetitions >= MasteredRepetitions
  }

  /** Number of records the filter keeps. */
  function Count(ps: seq<ProgressRecord>, t: Tally): (n: nat)
    ensures n <= |ps|
    ensures n == 0 <==> forall i :: 0 <= i < |ps| ==> !Counts(t, ps[i])
    ensures n == |ps| <==> forall i :: 0 <= i < |ps| ==> Counts(t, ps[i])
    decreases |ps|
  {
    if |ps| == 0 then 0
    else
      var rest := Count(ps[1..], t);
      assert forall i :: 1 <= i < |ps| ==> ps[i] == ps[1..][i - 1];
      (if Counts(t, ps[0]) then 1 else 0) + rest
  }

  lemma {:induction false} CountAppend(ps: seq<ProgressRecord>, p: ProgressRecord, t: Tally)
    ensures Count(ps + [p], t) == Count(ps, t) + (if Counts(t, p) then 1 else 0)
    decreases |ps|
  {
    if |ps| > 0 {
      assert (ps + [p])[1..] == ps[1..] + [p];
      CountAppend(ps[1..], p, t);
    }
  }

  /** Replacing one record changes a count by at most the two records' own contributions. */
  lemma {:induction false} CountReplace(ps: seq<ProgressRecord>, k: nat, p: ProgressRecord, t: Tally)
    requires k < |ps|
    ensures Count(ps[k := p], t) + (if Counts(t, ps[k]) then 1 else 0)
         == Count(ps, t) + (if Counts(t, p) then 1 else 0)
    decreases |ps|
  {
    if k > 0 {
      assert ps[k := p][1..] == ps[1..][k - 1 := p];
      CountReplace(ps[1..], k - 1, p, t);
    } else {
      assert ps[k := p][1..] == ps[1..];
    }
  }

  /** `calculateStats()` at time `now`, with `todayStart` the local midnight. */
  function CalculateStats(ps: seq<ProgressRecord>, env: Env): (r: Stats)
    ensures r.totalWords == |ps|
    ensures r.learnedToday <= |ps| && r.dueWords <= |ps| && r.masteredWords <= |ps|
  {
    Stats(|ps|, Count(ps, LearnedSince(env.todayStart)), Count(ps, DueBy(env.now)), Count(ps, Mastered))
  }

  /** The `dueWords` view: the records due by `now`, in list order. */
  function DueWords(ps: seq<ProgressRecord>, now: int): (r: seq<ProgressRecord>)
    ensures forall x :: x in r <==> x in ps && x.nextReview <= now
    ensures |r| == Count(ps, DueBy(now))
    decreases |ps|
  {
    if |ps| == 0 then []
    else
      var rest := DueWords(ps[1..], now);
      assert forall x :: x in ps <==> x == ps[0] || x in ps[1..];
      if ps[0].nextReview <= now then [ps[0]] + rest else rest
  }

  /** A new record adds one word to the total, and one to each count whose filter it passes. */
  lemma {:induction false} StatsAfterAppend(ps: seq<ProgressRecord>, p: ProgressRecord, env: Env)
    ensures var a := CalculateStats(ps, env);
            var b := CalculateStats(ps + [p], env);
            && b.totalWords == a.totalWords + 1
            && b.learnedToday == a.learnedToday + (if Counts(LearnedSince(env.todayStart), p) then 1 else 0)
            && b.dueWords == a.dueWords + (if Counts(DueBy(env.now), p) then 1 else 0)
            && b.masteredWords == a.masteredWords + (if Counts(Mastered, p) then 1 else 0)
  {
    CountAppend(ps, p, LearnedSince(env.todayStart));
    CountAppend(ps, p, DueBy(env.now));
    CountAppend(ps, p, Mastered);
  }

  // ---------------------------------------------------------------------
  // Local views

  function CollectedWords(items: seq<CollectionItem>): (r: seq<string>)
    ensures |r| == |items|
    ensures forall i :: 0 <= i < |items| ==> r[i] == items[i].word
  {
    seq(|items|, i requires 0 <= i < |items| => items[i].word)
  }

  /** `isCollected(word)`. */
  function IsCollected(s: State, word: string): (r: bool)
    ensures r <==> exists i :: 0 <= i < |s.collections| && s.collections[i].word == word
  {
    var ws := CollectedWords(s.collections);
    assert forall i :: 0 <= i < |s.collections| ==> ws[i] == s.collections[i].word;
    word in ws
  }

  /** Position of the first record for `word`, as `findIndex` finds it. */
  function FindRecord(ps: seq<ProgressRecord>, word: string): (r: Option<nat>)
    ensures r.Some? ==>
      && r.value < |ps| && ps[r.value].word == word
      && forall j :: 0 <= j < r.value ==> ps[j].word != word
    ensures r.None? <==> forall j :: 0 <= j < |ps| ==> ps[j].word != word
    decreases |ps|
  {
    if |ps| == 0 then None
    else if ps[0].word == word then Some(0)
    else match FindRecord(ps[1..], word)
      case None => None
      case Some(k) => Some(k + 1)
  }

  /** `isInProgress(word)`. */
  function IsInProgress(s: State, word: string): (r: bool)
    ensures r <==> exists i :: 0 <= i < |s.progress| && s.progress[i].word == word
  {
    FindRecord(s.progress, word).Some?
  }

  // ---------------------------------------------------------------------
  // Cache glue

  /** `saveToCache()`: both lists written under the user's keys. */
  function SaveToCache(s: State, env: Env): (r: State)
    ensures s.user.None? ==> r == s
    ensures s.user.Some? ==>
      && r == s.(collectionsCache := SetCache(s.collectionsCache, s.user.value, CollectionsKind, s.collections, env.now, env.writable),
                 progressCache := SetCache(s.progressCache, s.user.value, ProgressKind, s.progress, env.now, env.writable))
  {
    if s.user.None? then s
    else
      var u := s.user.value;
      s.(collectionsCache := SetCache(s.collectionsCache, u, CollectionsKind, s.collections, env.now, env.writable),
         progressCache := SetCache(s.progressCache, u, ProgressKind, s.progress, env.now, env.writable))
  }

  /** `loadFromCache()`: a fresh entry replaces the in-memory list (an empty
      list is a hit too); stats are recomputed only when progress was found. */
  function LoadFromCache(s: State, env: Env): (r: State)
    ensures s.user.None? ==> r == s
    ensures r.user == s.user && r.isSyncing == s.isSyncing && r.error == s.error && r.queue == s.queue
    ensures s.user.Some? ==>
      var c := GetCache(s.collectionsCache, s.user.value, CollectionsKind, env.now);
      var p := GetCache(s.progressCache, s.user.value, ProgressKind, env.now);
      && r.collections == c.value.GetOr(s.collections)
      && r.progress == p.value.GetOr(s.progress)
      && r.stats == (if p.value.Some? then CalculateStats(p.value.value, env) else s.stats)
      && r.collectionsCache == c.store && r.progressCache == p.store
  {
    if s.user.None? then s
    else
      var u := s.user.value;
      var c := GetCache(s.collectionsCache, u, CollectionsKind, env.now);
      var p := GetCache(s.progressCache, u, ProgressKind, env.now);
      var s1 := s.(collectionsCache := c.store, progressCache := p.store, collections := c.value.GetOr(s.collections));
      match p.value
      case Some(ps) => s1.(progress := ps, stats := CalculateStats(ps, env))
      case None => s1
  }

  /** Saving and then loading at most an hour later restores both lists. */
  lemma {:induction false} SaveThenLoad(s: State, env: Env, later: Env)
    requires s.user.Some? && Truthy(s.user.value) && env.writable
    requires env.now <= later.now <= env.now + MaxAgeMs
    ensures var r := LoadFromCache(SaveToCache(s, env), later);
            r.collections == s.collections && r.progress == s.progress
            && r.stats == CalculateStats(s.progress, later)
  {
  }

  /** `clearUserData()`: the lists and stats are emptied and, when signed in,
      every cache key under the user's prefix is removed. */
  function ClearUserData(s: State, env: Env): (r: State)
    ensures r.collections == [] && r.progress == [] && r.stats == ZeroStats
    ensures r.user == s.user && r.isSyncing == s.isSyncing && r.error == s.error
    ensures s.user.None? ==>
      && r.collectionsCache == s.collectionsCache && r.progressCache == s.progressCache
      && r.queue == s.queue
    ensures s.user.Some? ==>
      && r.collectionsCache == ClearAllUserCache(s.collectionsCache, s.user.value, env.writable)
      && r.progressCache == ClearAllUserCache(s.progressCache, s.user.value, env.writable)
    ensures s.user.Some? && !StartsWith(SyncQueueKey, UserPrefix(s.user.value)) ==> r.queue == s.queue
  {
    var s1 := s.(collections := [], progress := [], stats := ZeroStats);
    if s.user.None? then s1
    else
      var u := s.user.value;
      // The queue key is itself under the prefix of a user named `sync`.
      var q := if Truthy(u) && env.writable && StartsWith(SyncQueueKey, UserPrefix(u)) then NoQueue else s.queue;
      s1.(collectionsCache := ClearAllUserCache(s.collectionsCache, u, env.writable),
          progressCache := ClearAllUserCache(s.progressCache, u, env.writable),
          queue := q)
  }

  /** After clearing, nothing of the user's is loaded back from the cache. */
  lemma {:induction false} ClearThenLoadIsEmpty(s: State, env: Env)
    requires s.user.Some? && env.writable
    ensures var r := LoadFromCache(ClearUserData(s, env), env);
            r.collections == [] && r.progress == [] && r.stats == ZeroStats
  {
    var u := s.user.value;
    ClearAllThenGet(s.collectionsCache, u, CollectionsKind, env.now);
    ClearAllThenGet(s.progressCache, u, ProgressKind, env.now);
  }

  // ---------------------------------------------------------------------
  // Optimistic updates

  /** What every optimistic update leaves behind besides its list change:
      the signed-in user and the syncing flag are untouched, and both lists
      as they now stand are written to the cache at the current time. */
  predicate Saved(s: State, r: State, env: Env)
    requires s.user.Some?
  {
    && r.user == s.user && r.isSyncing == s.isSyncing
    && r.collectionsCache == SetCache(s.collectionsCache, s.user.value, CollectionsKind, r.collections, env.now, env.writable)
    && r.progressCache == SetCache(s.progressCache, s.user.value, ProgressKind, r.progress, env.now, env.writable)
  }

  /** `addCollection(word)`: prepends the word (a repeated word is prepended
      again), saves, and enqueues the mutation. */
  function AddCollectionOp(s: State, word: string, env: Env): (r: Step)
    ensures s.user.None? ==> r == Step(s.(error := Some(LoginRequired)), false)
    ensures s.user.Some? ==>
      && r.success
      && r.state.collections == [CollectionItem(word, env.now)] + s.collections
      && r.state.progress == s.progress && r.state.stats == s.stats && r.state.error == s.error
      && r.state.queue == AddToSyncQueue(s.queue, s.user.value, AddCollection(word), env.now, env.writable)
    ensures s.user.Some? ==> Saved(s, r.state, env)
  {
    if s.user.None? then Step(s.(error := Some(LoginRequired)), false)
    else
      var s1 := SaveToCache(s.(collections := [CollectionItem(word, env.now)] + s.collections), env);
      Step(s1.(queue := AddToSyncQueue(s1.queue, s.user.value, AddCollection(word), env.now, env.writable)), true)
  }

  /** Every item for `word` removed, all other items kept in order. */
  function WithoutWord(items: seq<CollectionItem>, word: string): (r: seq<CollectionItem>)
    ensures forall x :: x in r <==> x in items && x.word != word
    ensures |r| <= |items|
    decreases |items|
  {
    if |items| == 0 then []
    else
      var rest := WithoutWord(items[1..], word);
      assert forall x :: x in items <==> x == items[0] || x in items[1..];
      if items[0].word == word then rest else [items[0]] + rest
  }

  /** A list without the word is left as it is. */
  lemma {:induction false} WithoutAbsentWord(items: seq<CollectionItem>, word: string)
    requires forall i :: 0 <= i < |items| ==> items[i].word != word
    ensures WithoutWord(items, word) == items
    decreases |items|
  {
    if |items| > 0 {
      WithoutAbsentWord(items[1..], word);
    }
  }

  /** `removeCollection(word)`; signed out, it fails without an error message. */
  function RemoveCollectionOp(s: State, word: string, env: Env): (r: Step)
    ensures s.user.None? ==> r == Step(s, false)
    ensures s.user.Some? ==>
      && r.success
      && r.state.collections == WithoutWord(s.collections, word)
      && r.state.progress == s.progress && r.state.stats == s.stats && r.state.error == s.error
      && r.state.queue == AddToSyncQueue(s.queue, s.user.value, RemoveCollection(word), env.now, env.writable)
    ensures s.user.Some? ==> Saved(s, r.state, env)
  {
    if s.user.None? then Step(s, false)
    else
      var s1 := SaveToCache(s.(collections := WithoutWord(s.collections, word)), env);
      Step(s1.(queue := AddToSyncQueue(s1.queue, s.user.value, RemoveCollection(word), env.now, env.writable)), true)
  }

  /** Adding makes the word collected; removing it afterwards un-collects it,
      however many times it had been added before. */
  lemma {:induction false} AddThenRemove(s: State, word: string, env1: Env, env2: Env)
    requires s.user.Some?
    ensures IsCollected(AddCollectionOp(s, word, env1).state, word)
    ensures !IsCollected(RemoveCollectionOp(AddCollectionOp(s, word, env1).state, word, env2).state, word)
  {
    var a := AddCollectionOp(s, word, env1).state;
    assert a.collections[0].word == word;
  }

  /** Removing a word leaves every other word's collected status unchanged. */
  lemma {:induction false} RemoveKeepsOtherWords(s: State, word: string, other: string, env: Env)
    requires s.user.Some? && other != word
    ensures IsCollected(RemoveCollectionOp(s, word, env).state, other) == IsCollected(s, other)
  {
    var b := RemoveCollectionOp(s, word, env).state;
    if IsCollected(s, other) {
      var i :| 0 <= i < |s.collections| && s.collections[i].word == other;
      assert s.collections[i] in s.collections;
      var j :| 0 <= j < |b.collections| && b.collections[j] == s.collections[i];
    }
    if IsCollected(b, other) {
      var i :| 0 <= i < |b.collections| && b.collections[i].word == other;
      assert b.collections[i] in b.collections;
      var j :| 0 <= j < |s.collections| && s.collections[j] == b.collections[i];
    }
  }

  /** The record `updateWordProgress` would write: the SM-2 fields and
      `last_reviewed` merged into `prior`. */
  function Merge(prior: ProgressRecord, v: Review, now: int): ProgressRecord {
    prior.(easeFactor := v.easeFactor, interval := v.interval, repetitions := v.repetitions,
         nextReview := v.nextReview, lastReviewed := Some(now))
  }

  /** The scheduler's inputs for a word: the existing record's numbers, with
      a zero or missing ease factor read as 2.5. */
  function PriorEase(ps: seq<ProgressRecord>, word: string): (ef: int)
    ensures FindRecord(ps, word).Some? && ps[FindRecord(ps, word).value].easeFactor != 0 ==>
      ef == ps[FindRecord(ps, word).value].easeFactor
    ensures FindRecord(ps, word).None? || ps[FindRecord(ps, word).value].easeFactor == 0 ==> ef == DefaultEase
  {
    match FindRecord(ps, word)
    case Some(k) => if ps[k].easeFactor != 0 then ps[k].easeFactor else DefaultEase
    case None => DefaultEase
  }

  function PriorInterval(ps: seq<ProgressRecord>, word: string): (iv: int)
    ensures FindRecord(ps, word).Some? ==> iv == ps[FindRecord(ps, word).value].interval
    ensures FindRecord(ps, word).None? ==> iv == 0
  {
    match FindRecord(ps, word)
    case Some(k) => ps[k].interval
    case None => 0
  }

  function PriorRepetitions(ps: seq<ProgressRecord>, word: string): (n: int)
    ensures FindRecord(ps, word).Some? ==> n == ps[FindRecord(ps, word).value].repetitions
    ensures FindRecord(ps, word).None? ==> n == 0
  {
    match FindRecord(ps, word)
    case Some(k) => ps[k].repetitions
    case None => 0
  }

  /** The review `updateWordProgress(word, quality)` computes. */
  function ReviewFor(s: State, word: string, quality: int, env: Env): Result<Review, Sm2Error> {
    NextReview(PriorEase(s.progress, word), PriorInterval(s.progress, word),
               PriorRepetitions(s.progress, word), quality, env.now)
  }

  /** The progress list after a successful review of `word`. */
  function ApplyReview(ps: seq<ProgressRecord>, word: string, userId: string, v: Review, now: int)
    : (r: seq<ProgressRecord>)
    ensures FindRecord(ps, word).Some? ==>
      var k := FindRecord(ps, word).value;
      |r| == |ps| && r[k] == Merge(ps[k], v, now) && forall j :: 0 <= j < |ps| && j != k ==> r[j] == ps[j]
    ensures FindRecord(ps, word).None? ==>
      r == ps + [ProgressRecord(word, userId, v.easeFactor, v.interval, v.repetitions, Some(now), v.nextReview)]
  {
    match FindRecord(ps, word)
    case Some(k) => ps[k := Merge(ps[k], v, now)]
    case None => ps + [ProgressRecord(word, userId, v.easeFactor, v.interval, v.repetitions, Some(now), v.nextReview)]
  }

  /** `updateWordProgress(word, quality)`. A rejected quality sets the error
      message and changes nothing else. */
  function UpdateWordProgress(s: State, word: string, quality: int, env: Env): (r: Step)
    ensures s.user.None? ==> r == Step(s.(error := Some(LoginRequired)), false)
    ensures s.user.Some? && (quality < 0 || quality > 5) ==>
      r == Step(s.(error := Some(ProgressFailed + QualityMessage)), false)
    ensures s.user.Some? && 0 <= quality <= 5 ==>
      var v := ReviewFor(s, word, quality, env).value;
      && r.success
      && r.state.progress == ApplyReview(s.progress, word, s.user.value, v, env.now)
      && r.state.stats == CalculateStats(r.state.progress, env)
      && r.state.collections == s.collections && r.state.error == s.error
      && r.state.queue == AddToSyncQueue(s.queue, s.user.value, UpdateProgress(word, v), env.now, env.writable)
    ensures s.user.Some? && 0 <= quality <= 5 ==> Saved(s, r.state, env)
  {
    if s.user.None? then Step(s.(error := Some(LoginRequired)), false)
    else
      match ReviewFor(s, word, quality, env)
      case Err(_) => Step(s.(error := Some(ProgressFailed + QualityMessage)), false)
      case Ok(v) =>
        var ps := ApplyReview(s.progress, word, s.user.value, v, env.now);
        var s1 := SaveToCache(s.(progress := ps, stats := CalculateStats(ps, env)), env);
        Step(s1.(queue := AddToSyncQueue(s1.queue, s.user.value, UpdateProgress(word, v), env.now, env.writable)), true)
  }

  /** A successful review leaves exactly one record for a new word, touches
      only the first record for a known one, and counts it as learned today. */
  lemma {:induction false} ReviewTouchesOneRecord(s: State, word: string, quality: int, env: Env)
    requires s.user.Some? && 0 <= quality <= 5
    requires env.todayStart <= env.now
    ensures var r := UpdateWordProgress(s, word, quality, env).state;
            && IsInProgress(r, word)
            && |r.progress| == |s.progress| + (if IsInProgress(s, word) then 0 else 1)
            && r.stats.totalWords == |r.progress|
            && r.stats.learnedToday >= 1
  {
    var r := UpdateWordProgress(s, word, quality, env).state;
    var v := ReviewFor(s, word, quality, env).value;
    var today := LearnedSince(env.todayStart);
    match FindRecord(s.progress, word)
    case Some(k) =>
      assert r.progress[k].word == word;
      assert Counts(today, r.progress[k]);
      CountReplace(s.progress, k, Merge(s.progress[k], v, env.now), today);
      assert r.progress == s.progress[k := Merge(s.progress[k], v, env.now)];
    case None =>
      var p := ProgressRecord(word, s.user.value, v.easeFactor, v.interval, v.repetitions, Some(env.now), v.nextReview);
      assert r.progress[|s.progress|].word == word;
      CountAppend(s.progress, p, today);
  }

  /** The record a successful review returns as `data` is the word's first
      record in the resulting progress list, carrying the new schedule and
      today's review time. */
  lemma {:induction false} ReviewedRecord(s: State, word: string, quality: int, env: Env)
    requires s.user.Some? && 0 <= quality <= 5
    ensures var r := UpdateWordProgress(s, word, quality, env).state;
            var v := ReviewFor(s, word, quality, env).value;
            && FindRecord(r.progress, word).Some?
            && var rec := r.progress[FindRecord(r.progress, word).value];
            && rec.easeFactor == v.easeFactor && rec.interval == v.interval
            && rec.repetitions == v.repetitions && rec.nextReview == v.nextReview
            && rec.lastReviewed == Some(env.now)
  {
    var r := UpdateWordProgress(s, word, quality, env).state;
    var v := ReviewFor(s, word, quality, env).value;
    match FindRecord(s.progress, word)
    case Some(k) =>
      assert r.progress[k].word == word;
      assert forall j :: 0 <= j < k ==> r.progress[j] == s.progress[j];
      assert FindRecord(r.progress, word) == Some(k);
    case None =>
      var n := |s.progress|;
      assert r.progress[n].word == word;
      assert forall j :: 0 <= j < n ==> r.progress[j] == s.progress[j];
      assert FindRecord(r.progress, word) == Some(n);
  }

  /** Reviewing twice never creates a second record for the word. */
  lemma {:induction false} ReviewTwiceOneRecord(s: State, word: string, q1: int, q2: int, env1: Env, env2: Env)
    requires s.user.Some? && 0 <= q1 <= 5 && 0 <= q2 <= 5
    ensures var a := UpdateWordProgress(s, word, q1, env1).state;
            |UpdateWordProgress(a, word, q2, env2).state.progress| == |a.progress|
  {
    var a := UpdateWordProgress(s, word, q1, env1).state;
    ReviewTouchesOneRecord(s, word, q1, Env(env1.now, env1.now, env1.writable));
    assert UpdateWordProgress(s, word, q1, Env(env1.now, env1.now, env1.writable)).state.progress == a.progress;
    assert FindRecord(a.progress, word).Some?;
  }

  /** An optimistic update survives a reload: loading the cache within the
      hour brings back exactly the lists the update left in memory. */
  lemma {:induction false} SavedSurvivesReload(s: State, r: State, env: Env, later: Env)
    requires s.user.Some? && Truthy(s.user.value) && env.writable
    requires env.now <= later.now <= env.now + MaxAgeMs
    requires Saved(s, r, env)
    ensures var b := LoadFromCache(r, later);
            b.collections == r.collections && b.progress == r.progress
            && b.stats == CalculateStats(r.progress, later)
  {
    SetThenGet(s.collectionsCache, s.user.value, CollectionsKind, r.collections, env.now, later.now);
    SetThenGet(s.progressCache, s.user.value, ProgressKind, r.progress, env.now, later.now);
  }

  /** Adding, removing and reviewing each leave a cache that reloads to the
      updated lists. */
  lemma {:induction false} UpdatesSurviveReload(s: State, word: string, quality: int, env: Env, later: Env)
    requires s.user.Some? && Truthy(s.user.value) && env.writable
    requires env.now <= later.now <= env.now + MaxAgeMs
    ensures var a := AddCollectionOp(s, word, env).state;
            LoadFromCache(a, later).collections == [CollectionItem(word, env.now)] + s.collections
    ensures var a := RemoveCollectionOp(s, word, env).state;
            LoadFromCache(a, later).collections == WithoutWord(s.collections, word)
    ensures 0 <= quality <= 5 ==>
            var a := UpdateWordProgress(s, word, quality, env).state;
            LoadFromCache(a, later).progress
              == ApplyReview(s.progress, word, s.user.value, ReviewFor(s, word, quality, env).value, env.now)
  {
    SavedSurvivesReload(s, AddCollectionOp(s, word, env).state, env, later);
    SavedSurvivesReload(s, RemoveCollectionOp(s, word, env).state, env, later);
    if 0 <= quality <= 5 {
      SavedSurvivesReload(s, UpdateWordProgress(s, word, quality, env).state, env, later);
    }
  }

  // ---------------------------------------------------------------------
  // Sync

  /** The outcome the drain sees at snapshot index `j`: an entry with an
      unknown action makes no remote call, and so never throws. */
  function DrainOracle(q: seq<QueueItem<Action>>, calls: int -> Outcome): (f: int -> Outcome)
    ensures forall j :: 0 <= j < |q| && q[j].action.OtherAction? ==> f(j) == ReturnedError
    ensures forall j :: !(0 <= j < |q| && q[j].action.OtherAction?) ==> f(j) == calls(j)
  {
    j => if 0 <= j < |q| && q[j].action.OtherAction? then ReturnedError else calls(j)
  }

  /** `syncCollections()` and `syncProgress()`: a successful pull replaces
      the list with `data || []`; an error or a throw leaves it. */
  function PullCollections(s: State, pull: Pull<seq<CollectionItem>>): (r: State)
    ensures pull.Data? ==> r == s.(collections := pull.data.GetOr([]))
    ensures !pull.Data? ==> r == s
  {
    if pull.Data? then s.(collections := pull.data.GetOr([])) else s
  }

  function PullProgress(s: State, pull: Pull<seq<ProgressRecord>>, env: Env): (r: State)
    ensures pull.Data? ==> r == s.(progress := pull.data.GetOr([]), stats := CalculateStats(pull.data.GetOr([]), env))
    ensures !pull.Data? ==> r == s
  {
    if pull.Data? then s.(progress := pull.data.GetOr([]), stats := CalculateStats(pull.data.GetOr([]), env))
    else s
  }

  /** `syncWithServer()`: drain the queue (newest entry first, as written),
      pull both lists, save them to the cache, and clear the flag. */
  function Sync(s: State, env: Env, remote: Remote): (r: State)
    ensures s.user.None? || s.isSyncing ==> r == s
    ensures s.user.Some? && !s.isSyncing ==>
      var q := GetSyncQueue(s.queue);
      var oracle := DrainOracle(q, remote.calls);
      && !r.isSyncing
      && r.user == s.user && r.error == s.error
      && GetSyncQueue(r.queue) == Select(q, KeepMask(q, s.user.value, oracle, env.writable), 0, |q|)
      && r.collections == (if remote.collectionsPull.Data? then remote.collectionsPull.data.GetOr([]) else s.collections)
      && r.progress == (if remote.progressPull.Data? then remote.progressPull.data.GetOr([]) else s.progress)
      && r.stats == (if remote.progressPull.Data? then CalculateStats(r.progress, env) else s.stats)
      && r.collectionsCache == SetCache(s.collectionsCache, s.user.value, CollectionsKind, r.collections, env.now, env.writable)
      && r.progressCache == SetCache(s.progressCache, s.user.value, ProgressKind, r.progress, env.now, env.writable)
  {
    if s.user.None? || s.isSyncing then s
    else
      var u := s.user.value;
      var q := GetSyncQueue(s.queue);
      var drained := DrainNewestFirst(s.queue, u, DrainOracle(q, remote.calls), env.writable);
      var s1 := s.(isSyncing := true, queue := drained.slot);
      var s2 := PullProgress(PullCollections(s1, remote.collectionsPull), remote.progressPull, env);
      SaveToCache(s2, env).(isSyncing := false)
  }

  /** A sync whose calls all throw and whose pulls all fail changes only the cache timestamps. */
  lemma {:induction false} SyncOffline(s: State, env: Env, calls: int -> Outcome)
    requires s.user.Some? && !s.isSyncing
    requires forall j :: calls(j) == Threw
    requires forall j :: 0 <= j < |GetSyncQueue(s.queue)| ==> !GetSyncQueue(s.queue)[j].action.OtherAction?
    ensures var r := Sync(s, env, Remote(calls, PullThrow, PullError));
            r.collections == s.collections && r.progress == s.progress && r.stats == s.stats
            && GetSyncQueue(r.queue) == GetSyncQueue(s.queue)
  {
    var q := GetSyncQueue(s.queue);
    var keep := KeepMask(q, s.user.value, DrainOracle(q, calls), env.writable);
    SelectAll(q, keep, 0, |q|);
    assert q[0..|q|] == q;
  }

  /** A sync leaves every queued entry of other users where it was. */
  lemma {:induction false} SyncKeepsOtherUsersEntries(s: State, env: Env, remote: Remote)
    requires s.user.Some? && !s.isSyncing
    requires forall j :: 0 <= j < |GetSyncQueue(s.queue)| ==> GetSyncQueue(s.queue)[j].userId != s.user.value
    ensures GetSyncQueue(Sync(s, env, remote).queue) == GetSyncQueue(s.queue)
  {
    var q := GetSyncQueue(s.queue);
    OthersSurvive(q, s.user.value, DrainOracle(q, remote.calls), env.writable);
  }

  // ---------------------------------------------------------------------
  // The user watch

  /** The watch on the signed-in user: a new id loads the cache and syncs;
      signing out empties the lists and stats (the cache and the queue stay);
      the same id again does nothing. */
  function UserChanged(s: State, newUser: Option<string>, env: Env, remote: Remote): (r: State)
    ensures r.user == newUser
    ensures newUser.Some? && s.user != newUser ==>
      r == Sync(LoadFromCache(s.(user := newUser), env), env, remote)
    ensures newUser.None? ==>
      r == s.(user := None, collections := [], progress := [], stats := ZeroStats)
    ensures newUser.Some? && s.user == newUser ==> r == s
  {
    if newUser.Some? && s.user != newUser then
      Sync(LoadFromCache(s.(user := newUser), env), env, remote)
    else if newUser.None? then
      s.(user := None, collections := [], progress := [], stats := ZeroStats)
    else s
  }

  /** Signing out keeps the cache and the queue, so signing back in before
      the hour is up restores the lists saved under the user's keys. */
  lemma {:induction false} SignOutKeepsCache(s: State, env: Env, remote: Remote)
    requires s.user.Some?
    ensures var r := UserChanged(s, None, env, remote);
            r.collectionsCache == s.collectionsCache && r.progressCache == s.progressCache && r.queue == s.queue
            && r.collections == [] && r.progress == [] && r.stats == ZeroStats
  {
  }

  // ---------------------------------------------------------------------
  // Loaders and the error flag

  /** `loadCollections()`, `loadProgress()` and `loadDueWords()`: nothing
      when signed out; otherwise the cached lists first, then a sync. A
      list comes from its pull when the pull answered, else from a fresh
      cache entry, else it stays what it was. */
  function LoadAndSync(s: State, env: Env, remote: Remote): (r: State)
    ensures s.user.None? ==> r == s
    ensures s.user.Some? ==> r.user == s.user && r.error == s.error
    ensures s.user.Some? && !s.isSyncing ==>
      var c := GetCache(s.collectionsCache, s.user.value, CollectionsKind, env.now);
      var p := GetCache(s.progressCache, s.user.value, ProgressKind, env.now);
      && !r.isSyncing
      && r.collections == (if remote.collectionsPull.Data? then remote.collectionsPull.data.GetOr([])
                           else c.value.GetOr(s.collections))
      && r.progress == (if remote.progressPull.Data? then remote.progressPull.data.GetOr([])
                        else p.value.GetOr(s.progress))
    ensures s.user.Some? && s.isSyncing ==> r == LoadFromCache(s, env)
  {
    if s.user.None? then s
    else Sync(LoadFromCache(s, env), env, remote)
  }

  /** Loading is what a sign-in does: a new user id loads and syncs exactly
      as the loaders do once the id is set. */
  lemma {:induction false} SignInLoads(s: State, u: string, env: Env, remote: Remote)
    requires s.user != Some(u)
    ensures UserChanged(s, Some(u), env, remote) == LoadAndSync(s.(user := Some(u)), env, remote)
  {
  }

  /** Saved lists survive a load while the network is down, for an hour. */
  lemma {:induction false} SaveThenLoadOffline(s: State, env: Env, later: Env, calls: int -> Outcome)
    requires s.user.Some? && Truthy(s.user.value) && env.writable && !s.isSyncing
    requires later.now <= env.now + MaxAgeMs && env.now <= later.now
    ensures var r := LoadAndSync(SaveToCache(s, env), later, Remote(calls, PullThrow, PullError));
            r.collections == s.collections && r.progress == s.progress
  {
  }

  /** `loadStats()`: the statistics recomputed from the progress list. */
  function LoadStats(s: State, env: Env): (r: State)
    ensures r.stats.totalWords == |s.progress|
    ensures r.stats.dueWords == |DueWords(s.progress, env.now)|
    ensures r.stats == CalculateStats(s.progress, env)
    ensures r.(stats := s.stats) == s
  {
    s.(stats := CalculateStats(s.progress, env))
  }

  /** After a sync whose progress pull answered, the statistics are
      already current: recomputing them changes nothing. */
  lemma {:induction false} SyncedStatsCurrent(s: State, env: Env, remote: Remote)
    requires remote.progressPull.Data?
    requires s.user.Some? && !s.isSyncing
    ensures LoadStats(Sync(s, env, remote), env) == Sync(s, env, remote)
  {
  }

  /** `clearError()`. */
  function ClearError(s: State): (r: State)
    ensures r.error.None?
    ensures r.(error := s.error) == s
  {
    s.(error := None)
  }

  /** A refused operation leaves nothing behind once its error is cleared. */
  lemma {:induction false} RefusedThenCleared(s: State, word: string, quality: int, env: Env)
    requires s.user.None?
    ensures ClearError(AddCollectionOp(s, word, env).state) == ClearError(s)
    ensures ClearError(RemoveCollectionOp(s, word, env).state) == ClearError(s)
    ensures ClearError(UpdateWordProgress(s, word, quality, env).state) == ClearError(s)
  {
  }
}

=== FILE: phonetic.dfy ===
/** Phonetic lookup: two online services tried in order, each with its own
    reading of the JSON it receives, a per-session memo keyed by the
    lowercased word, and a batch lookup over a list of words. The network
    is an oracle from (service, word) to a reply. */
module Phonetic {
  import opened Text

  /** One element of `data[0].phonetics` in a Free Dictionary reply; a
      missing `text` or `audio` is the empty string. */
  datatype PhoneticEntry = PhoneticEntry(text: string, audio: string)

  /** `data.pronunciation` in a WordsAPI reply; a missing field is "". */
  datatype Pronunciation = Pronunciation(all: string, noun: string)

  /** The parts of a JSON reply the two parsers look at: `data[0].phonetics`
      (None when `data`, `data[0]` or the array is missing) and
      `data.pronunciation` (None when missing). */
  datatype Body = Body(phonetics: Option<seq<PhoneticEntry>>, pronunciation: Option<Pronunciation>)

  /** What one request yields: `fetch` or `response.json()` throwing, a
      response that is not ok, or a parsed body. */
  datatype Reply = Failed | NotOk(status: int) | Received(body: Body)

  datatype Service = FreeDictionary | WordsApi

  /** The services in the order they are tried. */
  const Services: seq<Service> := [FreeDictionary, WordsApi]

  predicate HasText(p: PhoneticEntry) {
    Truthy(p.text)
  }

  predicate HasTextAndAudio(p: PhoneticEntry) {
    Truthy(p.text) && Truthy(p.audio)
  }

  /** `Array.prototype.find` for the two tests the Free Dictionary parser uses. */
  function FindEntry(ps: seq<PhoneticEntry>, needAudio: bool): (r: Option<nat>)
    ensures r.Some? ==> r.value < |ps| && HasText(ps[r.value])
    ensures r.Some? ==> (needAudio ==> HasTextAndAudio(ps[r.value]))
    ensures r.Some? ==> forall j :: 0 <= j < r.value ==>
      !(if needAudio then HasTextAndAudio(ps[j]) else HasText(ps[j]))
    ensures r.None? ==> forall j :: 0 <= j < |ps| ==>
      !(if needAudio then HasTextAndAudio(ps[j]) else HasText(ps[j]))
  {
    if |ps| == 0 then None
    else if (if needAudio then HasTextAndAudio(ps[0]) else HasText(ps[0])) then Some(0)
    else
      match FindEntry(ps[1..], needAudio)
      case None => None
      case Some(k) => Some(k + 1)
  }

  /** The Free Dictionary `parse`: the first phonetic with text and audio,
      else the first with text, else the first entry; its text, or null. */
  function ParseFreeDictionary(body: Body): (r: Option<string>)
    ensures r.Some? ==> Truthy(r.value)
    ensures body.phonetics.None? ==> r.None?
  {
    match body.phonetics
    case None => None
    case Some(ps) =>
      var chosen :=
        match FindEntry(ps, true)
        case Some(i) => Some(ps[i])
        case None =>
          match FindEntry(ps, false)
          case Some(i) => Some(ps[i])
          case None => if |ps| > 0 then Some(ps[0]) else None;
      if chosen.Some? && Truthy(chosen.value.text) then Some(chosen.value.text) else None
  }

  /** The Free Dictionary parser yields a phonetic exactly when some entry
      has text, and then the text of the first entry that also has audio,
      or of the first entry with text when none has audio. */
  lemma {:induction false} FreeDictionaryChoice(ps: seq<PhoneticEntry>, pr: Option<Pronunciation>)
    ensures var r := ParseFreeDictionary(Body(Some(ps), pr));
      && (r.Some? <==> exists i :: 0 <= i < |ps| && HasText(ps[i]))
      && (forall i :: 0 <= i < |ps| && HasTextAndAudio(ps[i]) && (forall j :: 0 <= j < i ==> !HasTextAndAudio(ps[j]))
            ==> r == Some(ps[i].text))
      && ((forall j :: 0 <= j < |ps| ==> !HasTextAndAudio(ps[j])) ==>
            forall i :: 0 <= i < |ps| && HasText(ps[i]) && (forall j :: 0 <= j < i ==> !HasText(ps[j]))
              ==> r == Some(ps[i].text))
  {
    var r := ParseFreeDictionary(Body(Some(ps), pr));
    match FindEntry(ps, true)
    case Some(k) =>
      forall i | 0 <= i < |ps| && HasTextAndAudio(ps[i]) && (forall j :: 0 <= j < i ==> !HasTextAndAudio(ps[j]))
        ensures r == Some(ps[i].text)
      {
      }
    case None =>
      match FindEntry(ps, false)
      case Some(k) =>
        forall i | 0 <= i < |ps| && HasText(ps[i]) && (forall j :: 0 <= j < i ==> !HasText(ps[j]))
          ensures r == Some(ps[i].text)
        {
        }
      case None =>
  }

  /** The WordsAPI `parse`: `pronunciation.all || pronunciation.noun || null`. */
  function ParseWordsApi(body: Body): (r: Option<string>)
    ensures r.Some? <==>
      (body.pronunciation.Some? && (Truthy(body.pronunciation.value.all) || Truthy(body.pronunciation.value.noun)))
    ensures r.Some? ==> r.value == OrElse(body.pronunciation.value.all, body.pronunciation.value.noun)
  {
    match body.pronunciation
    case None => None
    case Some(p) =>
      if Truthy(p.all) then Some(p.all)
      else if Truthy(p.noun) then Some(p.noun)
      else None
  }

  function Parse(s: Service, body: Body): (r: Option<string>)
    ensures r.Some? ==> Truthy(r.value)
  {
    match s
    case FreeDictionary => ParseFreeDictionary(body)
    case WordsApi => ParseWordsApi(body)
  }

  /** `fetchPhoneticFromService`: a failed request or a response that is
      not ok throws (`Err`); otherwise the service's parser decides. */
  function FetchFromService(s: Service, word: string, fetch: (Service, string) -> Reply): (r: Result<Option<string>, int>)
    ensures r.Err? <==> !fetch(s, word).Received?
    ensures r.Ok? ==> r.value == Parse(s, fetch(s, word).body)
  {
    match fetch(s, word)
    case Received(body) => Ok(Parse(s, body))
    case _ => Err(0)
  }

  /** The service yields a phonetic (it neither throws nor parses to null). */
  predicate Yields(s: Service, word: string, fetch: (Service, string) -> Reply) {
    FetchFromService(s, word, fetch).Ok? && FetchFromService(s, word, fetch).value.Some?
  }

  /** `fetchPhoneticFromServices`: the first service that yields a phonetic
      wins; a service that throws is skipped like one that yields null. */
  function FetchFromServices(services: seq<Service>, word: string, fetch: (Service, string) -> Reply): (r: Option<string>)
    ensures r.Some? ==> Truthy(r.value)
    ensures r.Some? <==> exists i :: 0 <= i < |services| && Yields(services[i], word, fetch)
  {
    if |services| == 0 then None
    else
      var here := FetchFromService(services[0], word, fetch);
      if here.Ok? && here.value.Some? then here.value
      else
        var rest := FetchFromServices(services[1..], word, fetch);
        assert forall i :: 1 <= i < |services| ==> services[i] == services[1..][i - 1];
        rest
  }

  /** First success wins: the phonetic of the earliest service that yields one. */
  lemma {:induction false} FirstSuccessWins(services: seq<Service>, word: string, fetch: (Service, string) -> Reply, i: nat)
    requires i < |services| && Yields(services[i], word, fetch)
    requires forall j :: 0 <= j < i ==> !Yields(services[j], word, fetch)
    ensures FetchFromServices(services, word, fetch) == FetchFromService(services[i], word, fetch).value
    decreases i
  {
    if i > 0 {
      assert !Yields(services[0], word, fetch);
      assert services[1..][i - 1] == services[i];
      FirstSuccessWins(services[1..], word, fetch, i - 1);
    }
  }

  /** The memo: lowercased word to the phonetic (or null) returned for it. */
  type Memo = map<string, Option<string>>

  datatype Looked = Looked(result: Option<string>, memo: Memo)

  /** `getPhonetic(word, fallback)`. `word` is None when it is not a string.
      Note that the memo key is lowercased but not trimmed. */
  function GetPhonetic(word: Option<string>, fallback: Option<string>, memo: Memo,
                       fetch: (Service, string) -> Reply): (r: Looked)
    ensures word.None? || word == Some("") ==> r == Looked(fallback, memo)
    ensures word.Some? && word != Some("") ==>
      var key := ToLower(word.value);
      && r.memo.Keys == memo.Keys + {key}
      && r.memo[key] == r.result
      && (forall k :: k in memo && k != key ==> r.memo[k] == memo[k])
      && (key in memo ==> r == Looked(memo[key], memo))
      && (key !in memo ==>
            r.result == (match FetchFromServices(Services, word.value, fetch)
                         case Some(p) => Some(p)
                         case None => if fallback.Some? && Truthy(fallback.value) then fallback else None))
  {
    if word.None? || word.value == "" then Looked(fallback, memo)
    else
      var key := ToLower(word.value);
      if key in memo then Looked(memo[key], memo)
      else
        match FetchFromServices(Services, word.value, fetch)
        case Some(p) => Looked(Some(p), memo[key := Some(p)])
        case None =>
          var result := if fallback.Some? && Truthy(fallback.value) then fallback else None;
          Looked(result, memo[key := result])
  }

  /** A memoised word is answered without any request: whatever the
      network would say, the answer and the memo are the same. */
  lemma {:induction false} MemoSkipsNetwork(word: string, fallback: Option<string>, memo: Memo,
                                            fetch1: (Service, string) -> Reply, fetch2: (Service, string) -> Reply)
    requires word != "" && ToLower(word) in memo
    ensures GetPhonetic(Some(word), fallback, memo, fetch1) == GetPhonetic(Some(word), fallback, memo, fetch2)
  {
  }

  /** Once a word has been looked up, a later call for the same word in
      any letter case returns the same answer, even with another fallback
      and another network, and leaves the memo as it was. This includes
      the case where the answer was the first call's fallback. */
  lemma {:induction false} LookupIsMemoised(word: string, other: string, f1: Option<string>, f2: Option<string>, memo: Memo,
                                            fetch1: (Service, string) -> Reply, fetch2: (Service, string) -> Reply)
    requires word != "" && other != "" && ToLower(other) == ToLower(word)
    ensures var first := GetPhonetic(Some(word), f1, memo, fetch1);
      GetPhonetic(Some(other), f2, first.memo, fetch2) == first
  {
  }

  /** An item of the list given to `getBatchPhonetics`; `fields` stands for
      every other property, which is copied unchanged. */
  datatype Item<X> = Item(word: Option<string>, phonetic: Option<string>, fields: X)

  const BatchSize: nat := 5

  /** `phonetic || item.phonetic`. */
  function Prefer(fetched: Option<string>, original: Option<string>): (r: Option<string>)
    ensures r == original || (r == fetched && r.Some? && Truthy(r.value))
    ensures fetched.Some? && Truthy(fetched.value) ==> r == fetched
  {
    if fetched.Some? && Truthy(fetched.value) then fetched else original
  }

  /** One item of a batch, looked up against the memo as it was when the
      batch started: the lookups of a batch run concurrently, and each
      reads the memo before any of them writes. */
  function Enrich<X>(item: Item<X>, memo: Memo, fetch: (Service, string) -> Reply): (r: Item<X>)
    ensures r.word == item.word && r.fields == item.fields
    ensures r.phonetic == item.phonetic || (r.phonetic.Some? && Truthy(r.phonetic.value))
  {
    item.(phonetic := Prefer(GetPhonetic(item.word, item.phonetic, memo, fetch).result, item.phonetic))
  }

  /** The memo once the lookups of `batch`, all started against `start`,
      have stored their answers in list order. */
  function StoreAll<X>(batch: seq<Item<X>>, start: Memo, memo: Memo, fetch: (Service, string) -> Reply): Memo
    decreases |batch|
  {
    if |batch| == 0 then memo
    else
      var looked := GetPhonetic(batch[0].word, batch[0].phonetic, start, fetch);
      var item := batch[0];
      var memo' := if item.word.None? || item.word == Some("") then memo
                   else memo[ToLower(item.word.value) := looked.result];
      StoreAll(batch[1..], start, memo', fetch)
  }

  /** Where the batch starting at `i` ends: five items on, or the end of the list. */
  function BatchEnd<X>(items: seq<Item<X>>, i: nat): (end: nat)
    requires i < |items|
    ensures i < end <= |items| && end - i <= BatchSize
  {
    if i + BatchSize < |items| then i + BatchSize else |items|
  }

  /** The memo the lookup of item `k` starts against, when the batches run
      from `i` with `memo`: each earlier batch has stored its answers. */
  function MemoAt<X>(items: seq<Item<X>>, i: nat, memo: Memo, fetch: (Service, string) -> Reply, k: nat): Memo
    requires i <= k < |items|
    decreases |items| - i
  {
    var end := BatchEnd(items, i);
    if k < end then memo else MemoAt(items, end, StoreAll(items[i..end], memo, memo, fetch), fetch, k)
  }

  function BatchFrom<X>(items: seq<Item<X>>, i: nat, memo: Memo, fetch: (Service, string) -> Reply): (r: seq<Item<X>>)
    requires i <= |items|
    ensures |r| == |items| - i
    ensures forall k :: 0 <= k < |r| ==>
      r[k].word == items[i + k].word && r[k].fields == items[i + k].fields
    ensures forall k :: 0 <= k < |r| ==>
      r[k].phonetic == items[i + k].phonetic || (r[k].phonetic.Some? && Truthy(r[k].phonetic.value))
    decreases |items| - i
  {
    if i == |items| then []
    else
      var end := BatchEnd(items, i);
      var batch := items[i..end];
      var here := seq(|batch|, k requires 0 <= k < |batch| => Enrich(batch[k], memo, fetch));
      var rest := BatchFrom(items, end, StoreAll(batch, memo, memo, fetch), fetch);
      assert forall k :: |here| <= k < |here| + |rest| ==> (here + rest)[k] == rest[k - |here|];
      here + rest
  }

  /** `getBatchPhonetics(words)`: None stands for an argument that is not an array. */
  function GetBatchPhonetics<X>(words: Option<seq<Item<X>>>, memo: Memo, fetch: (Service, string) -> Reply): (r: seq<Item<X>>)
    ensures words.None? ==> r == []
    ensures words.Some? ==> |r| == |words.value|
    ensures words.Some? ==> forall k :: 0 <= k < |r| ==>
      && r[k].word == words.value[k].word
      && r[k].fields == words.value[k].fields
      && (r[k].phonetic == words.value[k].phonetic || (r[k].phonetic.Some? && Truthy(r[k].phonetic.value)))
  {
    match words
    case None => []
    case Some(ws) => BatchFrom(ws, 0, memo, fetch)
  }

  /** The first batch is answered from the memo as given: each of its items
      carries what a single lookup of that item would give, or its own
      phonetic when that answer is empty. */
  lemma {:induction false} FirstBatchAnswers<X>(ws: seq<Item<X>>, memo: Memo, fetch: (Service, string) -> Reply, k: nat)
    requires k < |ws| && k < BatchSize
    ensures GetBatchPhonetics(Some(ws), memo, fetch)[k].phonetic
      == Prefer(GetPhonetic(ws[k].word, ws[k].phonetic, memo, fetch).result, ws[k].phonetic)
  {
    var end := if BatchSize < |ws| then BatchSize else |ws|;
    var batch := ws[0..end];
    var here := seq(|batch|, j requires 0 <= j < |batch| => Enrich(batch[j], memo, fetch));
    assert BatchFrom(ws, 0, memo, fetch) == here + BatchFrom(ws, end, StoreAll(batch, memo, memo, fetch), fetch);
    assert here[k] == Enrich(ws[k], memo, fetch);
  }

  /** Every item, in whatever batch, carries what a single lookup of it
      against the memo its batch began with would give, or its own phonetic
      when that answer is empty. */
  lemma {:induction false} EveryBatchAnswers<X>(items: seq<Item<X>>, i: nat, memo: Memo,
                                                fetch: (Service, string) -> Reply, k: nat)
    requires i <= k < |items|
    ensures BatchFrom(items, i, memo, fetch)[k - i].phonetic
      == Prefer(GetPhonetic(items[k].word, items[k].phonetic, MemoAt(items, i, memo, fetch, k), fetch).result,
                items[k].phonetic)
    decreases |items| - i
  {
    var end := BatchEnd(items, i);
    var batch := items[i..end];
    var here := seq(|batch|, j requires 0 <= j < |batch| => Enrich(batch[j], memo, fetch));
    var memo' := StoreAll(batch, memo, memo, fetch);
    var rest := BatchFrom(items, end, memo', fetch);
    assert BatchFrom(items, i, memo, fetch) == here + rest;
    if k < end {
      assert here[k - i] == Enrich(items[k], memo, fetch);
    } else {
      EveryBatchAnswers(items, end, memo', fetch, k);
      assert (here + rest)[k - i] == rest[k - end];
    }
  }

  /** `getBatchPhonetics` answers every item: `fetched || original`, the
      lookup made against the memo as the item's batch began. */
  lemma {:induction false} BatchAnswers<X>(ws: seq<Item<X>>, memo: Memo, fetch: (Service, string) -> Reply, k: nat)
    requires k < |ws|
    ensures GetBatchPhonetics(Some(ws), memo, fetch)[k].phonetic
      == Prefer(GetPhonetic(ws[k].word, ws[k].phonetic, MemoAt(ws, 0, memo, fetch, k), fetch).result, ws[k].phonetic)
  {
    EveryBatchAnswers(ws, 0, memo, fetch, k);
  }

  /** When no service answers and the memo starts empty, a list of at most
      one batch comes back exactly as it went in. */
  lemma {:induction false} OfflineBatchUnchanged<X>(ws: seq<Item<X>>, fetch: (Service, string) -> Reply)
    requires |ws| <= BatchSize
    requires forall s, w :: !fetch(s, w).Received?
    ensures GetBatchPhonetics(Some(ws), map[], fetch) == ws
  {
    var r := GetBatchPhonetics(Some(ws), map[], fetch);
    forall k | 0 <= k < |ws|
      ensures r[k] == ws[k]
    {
      FirstBatchAnswers(ws, map[], fetch, k);
      var w := ws[k].word;
      if w.Some? && w.value != "" {
        assert !Yields(Services[0], w.value, fetch);
        assert !Yields(Services[1], w.value, fetch);
        assert FetchFromServices(Services, w.value, fetch).None?;
      }
    }
  }
}

=== FILE: processdict.dfy ===
/** The dictionary processor: every `.json` name longer than two
    characters is read, the record gets its word filled in from the file
    name when it has none, and it is filed under its first-letter group;
    the index lists every processed word with its group, sorted by the
    word comparator (`localeCompare`, a parameter), and the sorted group
    names. Writing the group files is left to the caller of the model. */
module ProcessDictionary {
  import opened Text
  import opened Sorting
  import opened DictionaryFiles

  datatype IndexEntry = IndexEntry(word: string, pronunciation: string, conciseDefinition: string, firstChar: string)

  datatype WordIndex = WordIndex(totalWords: nat, words: seq<IndexEntry>, groups: seq<string>)

  /** The group files' contents, and the index. */
  datatype Output = Output(groups: map<string, seq<SourceRecord>>, index: WordIndex)

  /** The directory filter. Unlike the light-weight builder it admits
      `index.json`. */
  predicate Listed(name: string) {
    EndsWith(name, ".json") && |name| > 2
  }

  function ListedFiles(files: seq<SourceFile>): seq<SourceFile> {
    FilesNamed(files, Listed)
  }

  /** The record as filed: `data.word` written when it was falsy. */
  function Filled(record: SourceRecord, name: string): (r: SourceRecord)
    ensures r.word == DeriveWord(record, name)
    ensures r.pronunciation == record.pronunciation && r.conciseDefinition == record.conciseDefinition
    ensures r.definitions == record.definitions
    ensures Truthy(record.word) ==> r == record
  {
    if Truthy(record.word) then record else record.(word := DeriveWord(record, name))
  }

  /** A file is processed when it parses and its derived word is not
      empty: `word[0].toLowerCase()` throws on the empty word, and the
      catch drops the file. */
  predicate Processed(f: SourceFile) {
    f.parsed.Some? && DeriveWord(f.parsed.value, f.name) != ""
  }

  /** The groups and the index entries after the loop has read `files`. */
  datatype Tally = Tally(groups: map<string, seq<SourceRecord>>, entries: seq<IndexEntry>)

  /** `groups[key].push(data)`, creating the group when missing. */
  function Push(groups: map<string, seq<SourceRecord>>, key: string, record: SourceRecord): (r: map<string, seq<SourceRecord>>)
    ensures r.Keys == groups.Keys + {key}
    ensures r[key] == (if key in groups then groups[key] else []) + [record]
    ensures forall k :: k in groups && k != key ==> r[k] == groups[k]
  {
    groups[key := (if key in groups then groups[key] else []) + [record]]
  }

  function Entry(record: SourceRecord, key: string): IndexEntry {
    IndexEntry(record.word, record.pronunciation, record.conciseDefinition, key)
  }

  function Scan(files: seq<SourceFile>): Tally
    decreases |files|
  {
    if |files| == 0 then Tally(map[], [])
    else
      var t := Scan(files[..|files| - 1]);
      var f := files[|files| - 1];
      if !Processed(f) then t
      else
        var record := Filled(f.parsed.value, f.name);
        var key := GroupKey(record.word);
        Tally(Push(t.groups, key, record), t.entries + [Entry(record, key)])
  }

  /** The processed records, in directory order. */
  function Records(files: seq<SourceFile>): (r: seq<SourceRecord>)
    ensures forall i :: 0 <= i < |r| ==> r[i].word != ""
    decreases |files|
  {
    if |files| == 0 then []
    else
      var p := Records(files[..|files| - 1]);
      var f := files[|files| - 1];
      if Processed(f) then p + [Filled(f.parsed.value, f.name)] else p
  }

  /** The records of `rs` whose word falls in group `k`, in order. */
  function InGroup(rs: seq<SourceRecord>, k: string): (r: seq<SourceRecord>)
    ensures forall i :: 0 <= i < |r| ==> GroupKey(r[i].word) == k
    decreases |rs|
  {
    if |rs| == 0 then []
    else
      var p := InGroup(rs[..|rs| - 1], k);
      if GroupKey(rs[|rs| - 1].word) == k then p + [rs[|rs| - 1]] else p
  }

  /** The loop files every processed record, in order, in the group of
      its word, and nowhere else; a group exists only when it has records;
      there is one index entry per processed record, tagged with its group. */
  lemma {:induction false} ScanGroups(files: seq<SourceFile>)
    ensures forall k :: k in Scan(files).groups <==> |InGroup(Records(files), k)| > 0
    ensures forall k :: k in Scan(files).groups ==> Scan(files).groups[k] == InGroup(Records(files), k)
    decreases |files|
  {
    if |files| > 0 {
      var init := files[..|files| - 1];
      var f := files[|files| - 1];
      ScanGroups(init);
      if Processed(f) {
        var record := Filled(f.parsed.value, f.name);
        var rs := Records(init) + [record];
        assert rs[..|rs| - 1] == Records(init) && rs[|rs| - 1] == record;
        assert Records(files) == rs;
      }
    }
  }

  lemma {:induction false} ScanEntries(files: seq<SourceFile>)
    ensures |Scan(files).entries| == |Records(files)|
    ensures forall i :: 0 <= i < |Records(files)| ==>
      Scan(files).entries[i] == Entry(Records(files)[i], GroupKey(Records(files)[i].word))
    decreases |files|
  {
    if |files| > 0 {
      ScanEntries(files[..|files| - 1]);
    }
  }

  /** The sizes of the groups. */
  function Sizes(groups: map<string, seq<SourceRecord>>): (r: map<string, nat>)
    ensures r.Keys == groups.Keys
    ensures forall k :: k in groups ==> r[k] == |groups[k]|
  {
    map k | k in groups :: |groups[k]|
  }

  lemma {:induction false} SizesPush(groups: map<string, seq<SourceRecord>>, key: string, record: SourceRecord)
    ensures Sizes(Push(groups, key, record)) == Bump(Sizes(groups), key)
  {
  }

  /** Every group is one of the 27 names. */
  lemma {:induction false} GroupsNamed(files: seq<SourceFile>)
    ensures forall k :: k in Scan(files).groups ==> k in GroupOrder
    decreases |files|
  {
    if |files| > 0 {
      var f := files[|files| - 1];
      GroupsNamed(files[..|files| - 1]);
      if Processed(f) {
        GroupKeyNamed(Filled(f.parsed.value, f.name).word);
      }
    }
  }

  /** Every processed record is in exactly one group: the group sizes add
      up to the number of index entries. */
  lemma {:induction false} GroupsPartition(files: seq<SourceFile>)
    ensures SumOver(GroupOrder, Sizes(Scan(files).groups)) == |Scan(files).entries|
    decreases |files|
  {
    if |files| == 0 {
      SumOverEmpty(GroupOrder);
      assert Sizes(map[]) == map[];
    } else {
      var init := files[..|files| - 1];
      var f := files[|files| - 1];
      GroupsPartition(init);
      if Processed(f) {
        var t := Scan(init);
        var record := Filled(f.parsed.value, f.name);
        var key := GroupKey(record.word);
        GroupKeyNamed(record.word);
        GroupOrderSorted();
        SortedNoDuplicates(GroupOrder);
        SumOverBump(GroupOrder, Sizes(t.groups), key);
        SizesPush(t.groups, key, record);
      }
    }
  }

  function EntryWord(e: IndexEntry): string {
    e.word
  }

  /** The script from the directory listing to its output. The filter on
      truthy string words before sorting keeps every entry, since an empty
      word never reaches the index. */
  function Process(files: seq<SourceFile>, le: (string, string) -> bool): (r: Output)
    ensures r.groups == Scan(ListedFiles(files)).groups
    ensures multiset(r.index.words) == multiset(Scan(ListedFiles(files)).entries)
    ensures r.index.totalWords == |r.index.words|
    ensures forall k :: k in r.index.groups <==> k in r.groups
    ensures StrictlySorted(r.index.groups)
  {
    var t := Scan(ListedFiles(files));
    GroupOrderSorted();
    KeepInOrderSorted(GroupOrder, t.groups.Keys);
    GroupsNamed(ListedFiles(files));
    var words := Sort(t.entries, EntryWord, le);
    Output(t.groups, WordIndex(|words|, words, KeepInOrder(GroupOrder, t.groups.Keys)))
  }

  /** The output's promises: each group holds exactly the processed
      records of that group, in directory order, and no group is empty;
      every index entry carries its word's group as `firstChar`; the word
      count is the number of processed records and the sum of the group
      sizes; with a consistent comparator the entries are in order. */
  lemma {:induction false} ProcessFacts(files: seq<SourceFile>, le: (string, string) -> bool)
    requires TotalPreorder(le)
    ensures var r := Process(files, le);
      var rs := Records(ListedFiles(files));
      && (forall k :: k in r.groups <==> |InGroup(rs, k)| > 0)
      && (forall k :: k in r.groups ==> r.groups[k] == InGroup(rs, k))
      && (forall e :: e in r.index.words ==> e.firstChar == GroupKey(e.word) && e.word != "")
      && r.index.totalWords == |rs|
      && r.index.totalWords == SumOver(GroupOrder, Sizes(r.groups))
      && SortedBy(r.index.words, EntryWord, le)
  {
    var listed := ListedFiles(files);
    ScanGroups(listed);
    ScanEntries(listed);
    GroupsPartition(listed);
    SortSorted(Scan(listed).entries, EntryWord, le);
    var r := Process(files, le);
    forall e | e in r.index.words ensures e.firstChar == GroupKey(e.word) && e.word != "" {
      assert e in multiset(Scan(listed).entries);
      var i :| 0 <= i < |Scan(listed).entries| && Scan(listed).entries[i] == e;
    }
  }

  /** A record without a word, in a file `<stem>.json`, is filed under
      the stem, with the stem written into it. */
  lemma {:induction false} OneFile(stem: string, record: SourceRecord, le: (string, string) -> bool)
    requires !Truthy(record.word) && !Contains(stem, ".") && stem != ""
    ensures Process([SourceFile(stem + ".json", Some(record))], le).groups
      == map[GroupKey(stem) := [record.(word := stem)]]
    ensures Process([SourceFile(stem + ".json", Some(record))], le).index.words
      == [IndexEntry(stem, record.pronunciation, record.conciseDefinition, GroupKey(stem))]
  {
    var f := SourceFile(stem + ".json", Some(record));
    var files := [f];
    WordFromFileName(stem, record);
    assert EndsWith(f.name, ".json") by {
      assert f.name[|f.name| - 5..] == ".json";
    }
    assert files[..0] == [] && files[1..] == [];
    assert ListedFiles(files) == files;
    var filled := record.(word := stem);
    assert Filled(record, f.name) == filled;
    var k := GroupKey(stem);
    var e := Entry(filled, k);
    var m0: map<string, seq<SourceRecord>> := map[];
    var none: seq<SourceRecord> := [];
    assert none + [filled] == [filled];
    assert Push(m0, k, filled) == map[k := [filled]];
    assert Scan(files) == Tally(Push(m0, k, filled), [e]);
    assert Sort([e], EntryWord, le) == [e];
  }

  /** A file that is not listed, does not parse, or whose derived word is
      empty (`.json` holding no word) leaves no trace. */
  lemma {:induction false} UnprocessedFile(f: SourceFile, le: (string, string) -> bool)
    requires !Listed(f.name) || !Processed(f)
    ensures Process([f], le) == Output(map[], WordIndex(0, [], []))
  {
    var files := [f];
    assert files[..0] == [] && files[1..] == [];
    KeepNothing(GroupOrder);
    var e: map<string, seq<SourceRecord>> := map[];
    assert e.Keys == {};
    if Listed(f.name) {
      assert ListedFiles(files) == files;
      assert Scan(files) == Tally(map[], []);
    } else {
      assert ListedFiles(files) == [];
      assert Scan([]) == Tally(map[], []);
    }
  }
}

=== FILE: remote.dfy ===
/** What the drain does to the remote store. The `user_collections` table is
    a set of (user, word) pairs and `user_progress` a map from (user, word)
    to the last review written; the mutations a drain manages to apply reach
    the store in the order the drain makes its calls. */
module RemoteReplay {
  import opened Text
  import opened Sm2
  import opened Cache
  import opened SyncDrain
  import opened Learning

  datatype RemoteStore = RemoteStore(collected: set<(string, string)>, reviews: map<(string, string), Review>)

  /** One successful remote call: insert, delete, or upsert. An unknown
      action makes no call. */
  function Apply(r: RemoteStore, item: QueueItem<Action>): (r': RemoteStore)
    ensures item.action.AddCollection? ==> r'.collected == r.collected + {(item.userId, item.action.word)}
    ensures item.action.RemoveCollection? ==> r'.collected == r.collected - {(item.userId, item.action.word)}
    ensures !item.action.AddCollection? && !item.action.RemoveCollection? ==> r'.collected == r.collected
    ensures item.action.UpdateProgress? ==>
      r'.reviews == r.reviews[(item.userId, item.action.word) := item.action.review]
    ensures !item.action.UpdateProgress? ==> r'.reviews == r.reviews
  {
    match item.action
    case AddCollection(w) => r.(collected := r.collected + {(item.userId, w)})
    case RemoveCollection(w) => r.(collected := r.collected - {(item.userId, w)})
    case UpdateProgress(w, v) => r.(reviews := r.reviews[(item.userId, w) := v])
    case OtherAction(_) => r
  }

  function ApplyAll(r: RemoteStore, items: seq<QueueItem<Action>>): RemoteStore
    decreases |items|
  {
    if |items| == 0 then r else ApplyAll(Apply(r, items[0]), items[1..])
  }

  /** The item adds or removes `w` for `u`. */
  predicate Touches(item: QueueItem<Action>, u: string, w: string) {
    item.userId == u && (item.action == AddCollection(w) || item.action == RemoveCollection(w))
  }

  /** Whether (u, w) is on the remote after a replay is decided by the last
      item of the replay that adds or removes w for u; with no such item the
      pair keeps its earlier state. */
  lemma {:induction false} LastMutationWins(r: RemoteStore, items: seq<QueueItem<Action>>, u: string, w: string)
    ensures (forall k :: 0 <= k < |items| ==> !Touches(items[k], u, w)) ==>
      ((u, w) in ApplyAll(r, items).collected <==> (u, w) in r.collected)
    ensures forall k ::
      (0 <= k < |items| && Touches(items[k], u, w) && forall j :: k < j < |items| ==> !Touches(items[j], u, w)) ==>
      ((u, w) in ApplyAll(r, items).collected <==> items[k].action.AddCollection?)
    decreases |items|
  {
    if |items| > 0 {
      var rest := items[1..];
      LastMutationWins(Apply(r, items[0]), rest, u, w);
      assert forall j :: 1 <= j < |items| ==> items[j] == rest[j - 1];
      forall k | 0 <= k < |items| && Touches(items[k], u, w) && (forall j :: k < j < |items| ==> !Touches(items[j], u, w))
        ensures (u, w) in ApplyAll(r, items).collected <==> items[k].action.AddCollection?
      {
        if k > 0 {
          assert Touches(rest[k - 1], u, w);
          assert forall j :: k - 1 < j < |rest| ==> !Touches(rest[j], u, w);
        } else {
          assert forall j :: 0 <= j < |rest| ==> !Touches(rest[j], u, w);
        }
      }
    }
  }

  /** Every remote call succeeds. */
  function AllSucceed(j: int): Outcome {
    Succeeded
  }

  /** Collecting a word and removing it again from an empty queue leaves
      exactly those two mutations queued, oldest first. */
  lemma {:induction false} AddRemoveQueue(s: State, w: string, env1: Env, env2: Env)
    requires s.user.Some? && s.queue == NoQueue && env1.writable && env2.writable
    ensures GetSyncQueue(RemoveCollectionOp(AddCollectionOp(s, w, env1).state, w, env2).state.queue)
         == [QueueItem(s.user.value, AddCollection(w), env1.now), QueueItem(s.user.value, RemoveCollection(w), env2.now)]
  {
    var a := AddCollectionOp(s, w, env1).state;
    assert GetSyncQueue(a.queue) == [QueueItem(s.user.value, AddCollection(w), env1.now)];
  }

  /** The code as written: after collecting a word and removing it again,
      a drain in which every call succeeds replays the removal first and
      the insertion last, so the word is back on the remote while the
      local list no longer has it. */
  lemma {:induction false} NewestFirstRestoresRemovedWord(s: State, w: string, env1: Env, env2: Env, r: RemoteStore)
    requires s.user.Some? && s.queue == NoQueue && env1.writable && env2.writable
    ensures var a := RemoveCollectionOp(AddCollectionOp(s, w, env1).state, w, env2).state;
            var d := DrainNewestFirst(a.queue, s.user.value, AllSucceed, true);
            && !IsCollected(a, w)
            && GetSyncQueue(d.slot) == []
            && (s.user.value, w) in ApplyAll(r, d.applied).collected
  {
    AddThenRemove(s, w, env1, env2);
    AddRemoveQueue(s, w, env1, env2);
    var a := RemoveCollectionOp(AddCollectionOp(s, w, env1).state, w, env2).state;
    NewestFirstDrainsAddRemove(a.queue, s.user.value, w, env1.now, env2.now, r);
  }

  /** Draining a queued insertion followed by a removal of the same word,
      newest first, with every call succeeding: the queue empties and the
      insertion, replayed last, leaves the word on the remote. */
  lemma {:induction false} NewestFirstDrainsAddRemove(slot: QueueSlot<Action>, u: string, w: string, t1: int, t2: int,
                                                      r: RemoteStore)
    requires GetSyncQueue(slot) == [QueueItem(u, AddCollection(w), t1), QueueItem(u, RemoveCollection(w), t2)]
    ensures var d := DrainNewestFirst(slot, u, AllSucceed, true);
            GetSyncQueue(d.slot) == [] && (u, w) in ApplyAll(r, d.applied).collected
  {
    var q := GetSyncQueue(slot);
    NewestFirstDrainsPair(slot, u);
    var d := DrainNewestFirst(slot, u, AllSucceed, true);
    assert d.applied == [q[1], q[0]];
    LastMutationWins(r, d.applied, u, w);
    assert Touches(d.applied[1], u, w);
  }

  /** A two-entry queue of one user, drained newest first with every call
      succeeding, is replayed in reverse and emptied. */
  lemma {:induction false} NewestFirstDrainsPair(slot: QueueSlot<Action>, u: string)
    requires |GetSyncQueue(slot)| == 2
    requires GetSyncQueue(slot)[0].userId == u && GetSyncQueue(slot)[1].userId == u
    ensures var d := DrainNewestFirst(slot, u, AllSucceed, true);
            && GetSyncQueue(d.slot) == []
            && d.applied == [GetSyncQueue(slot)[1], GetSyncQueue(slot)[0]]
  {
    var q := GetSyncQueue(slot);
    var succ := SuccessMask(q, u, AllSucceed);
    assert succ[0] && succ[1];
    SelectAll(q, succ, 0, 2);
    assert q[0..2] == q;
    assert Reverse(q) == [q[1], q[0]];
    var keep := KeepMask(q, u, AllSucceed, true);
    assert !keep[0] && !keep[1];
    SelectNone(q, keep, 0, 2);
  }

  /** The corrected drain replays a user's queue in the order it was
      enqueued: when every call succeeds, exactly the queued mutations reach
      the remote, oldest first, and the queue ends up empty. */
  lemma {:induction false} OldestFirstReplaysInOrder(slot: QueueSlot<Action>, u: string)
    requires forall j :: 0 <= j < |GetSyncQueue(slot)| ==> GetSyncQueue(slot)[j].userId == u
    ensures var d := DrainOldestFirst(slot, u, AllSucceed, true);
            d.applied == GetSyncQueue(slot) && GetSyncQueue(d.slot) == []
  {
    var q := GetSyncQueue(slot);
    SelectAll(q, SuccessMask(q, u, AllSucceed), 0, |q|);
    assert q[0..|q|] == q;
    var keep := KeepMask(q, u, AllSucceed, true);
    SelectNone(q, keep, 0, |q|);
  }

  /** With the corrected drain, the same add-then-remove leaves the word off
      the remote, agreeing with the local list. */
  lemma {:induction false} OldestFirstKeepsRemovalLast(s: State, w: string, env1: Env, env2: Env, r: RemoteStore)
    requires s.user.Some? && s.queue == NoQueue && env1.writable && env2.writable
    ensures var a := RemoveCollectionOp(AddCollectionOp(s, w, env1).state, w, env2).state;
            var d := DrainOldestFirst(a.queue, s.user.value, AllSucceed, true);
            && !IsCollected(a, w)
            && (s.user.value, w) !in ApplyAll(r, d.applied).collected
  {
    var u := s.user.value;
    AddThenRemove(s, w, env1, env2);
    var a := RemoveCollectionOp(AddCollectionOp(s, w, env1).state, w, env2).state;
    var q := [QueueItem(u, AddCollection(w), env1.now), QueueItem(u, RemoveCollection(w), env2.now)];
    assert GetSyncQueue(a.queue) == q;
    OldestFirstReplaysInOrder(a.queue, u);
    var d := DrainOldestFirst(a.queue, u, AllSucceed, true);
    LastMutationWins(r, d.applied, u, w);
    assert Touches(d.applied[1], u, w);
  }
}

=== FILE: search.dfy ===
/** Searching and sampling the loaded word index (`searchWords`,
    `getRandomWords`). An index entry is its word together with whatever
    other fields the index file carries for it. */
module IndexSearch {
  import opened Text

  datatype IndexWord = IndexWord(word: string, fields: map<string, string>)

  /** The parsed `index.json`; `words` is `None` when the file has no word list. */
  datatype Index = Index(words: Option<seq<IndexWord>>)

  /** How an entry matches the lower-cased query. */
  function Rank(item: IndexWord, ql: string): nat {
    if ToLower(item.word) == ql then 0
    else if StartsWith(ToLower(item.word), ql) then 1
    else 2
  }

  predicate Matches(item: IndexWord, ql: string) {
    Contains(ToLower(item.word), ql)
  }

  predicate HasWord(results: seq<IndexWord>, w: string) {
    exists r :: r in results && r.word == w
  }

  predicate RankSorted(results: seq<IndexWord>, ql: string) {
    forall a, b :: 0 <= a < b < |results| ==> Rank(results[a], ql) <= Rank(results[b], ql)
  }

  /** No entry that ranks as a plain substring match repeats the word of an
      earlier entry: only the second pass adds such entries, and it skips
      words already collected. */
  predicate NoRepeatedLateMatch(results: seq<IndexWord>, ql: string) {
    forall a, b :: 0 <= a < b < |results| ==> results[a].word != results[b].word || Rank(results[b], ql) < 2
  }

  /** Exact matches then prefix matches, the shape the first pass keeps. */
  predicate FirstPassShape(acc: seq<IndexWord>, ql: string) {
    RankSorted(acc, ql) && forall k :: 0 <= k < |acc| ==> Rank(acc[k], ql) <= 1
  }

  /** The first loop of `searchWords`: an exact match is put in front, a
      prefix match at the back, and the loop stops as soon as `limit`
      results are collected. */
  function FirstPass(words: seq<IndexWord>, ql: string, limit: int, acc: seq<IndexWord>): (r: seq<IndexWord>)
    decreases |words|
  {
    if |words| == 0 then acc
    else
      var item := words[0];
      var lw := ToLower(item.word);
      var acc' := if lw == ql then [item] + acc
                  else if StartsWith(lw, ql) then acc + [item]
                  else acc;
      if |acc'| >= limit then acc' else FirstPass(words[1..], ql, limit, acc')
  }

  /** The second loop: entries containing the query whose word is not
      already among the results are appended until `limit` is reached. */
  function SecondPass(words: seq<IndexWord>, ql: string, limit: int, acc: seq<IndexWord>): (r: seq<IndexWord>)
    decreases |words|
  {
    if |words| == 0 || |acc| >= limit then acc
    else
      var item := words[0];
      var acc' := if !HasWord(acc, item.word) && Matches(item, ql) then acc + [item] else acc;
      SecondPass(words[1..], ql, limit, acc')
  }

  /** `Array.prototype.slice(0, limit)`. */
  function SliceTo<X>(s: seq<X>, limit: int): (r: seq<X>)
    ensures limit >= 0 ==> r == s[..if limit < |s| then limit else |s|]
    ensures limit < 0 ==> r == s[..if |s| + limit < 0 then 0 else |s| + limit]
  {
    if limit >= 0 then s[..if limit < |s| then limit else |s|]
    else s[..if |s| + limit < 0 then 0 else |s| + limit]
  }

  /** `searchWords(query, limit)` over a loaded index. */
  function Search(index: Index, query: string, limit: int): (r: seq<IndexWord>)
    ensures query == [] || index.words.None? ==> r == []
    ensures |r| <= if limit < 0 then 0 else limit
    ensures forall k :: 0 <= k < |r| ==> Matches(r[k], Normalize(query))
    ensures RankSorted(r, Normalize(query))
    ensures index.words.Some? ==> forall k :: 0 <= k < |r| ==> r[k] in index.words.value
    ensures NoRepeatedLateMatch(r, Normalize(query))
  {
    if query == [] || index.words.None? then []
    else
      var words := index.words.value;
      var ql := Normalize(query);
      var r2 := Collect(words, ql, limit);
      CollectFacts(words, ql, limit);
      var r := SliceTo(r2, limit);
      assert forall k :: 0 <= k < |r| ==> r[k] == r2[k];
      r
  }

  /** Both loops of `searchWords`, before the final slice. */
  function Collect(words: seq<IndexWord>, ql: string, limit: int): seq<IndexWord> {
    var r1 := FirstPass(words, ql, limit, []);
    if |r1| < limit then SecondPass(words, ql, limit, r1) else r1
  }

  lemma {:induction false} CollectFacts(words: seq<IndexWord>, ql: string, limit: int)
    ensures var r := Collect(words, ql, limit);
      && RankSorted(r, ql)
      && (forall k :: 0 <= k < |r| ==> Matches(r[k], ql))
      && (|r| < limit ==> forall k :: 0 <= k < |words| && Matches(words[k], ql) ==> HasWord(r, words[k].word))
      && (forall x :: x in r ==> x in words)
      && NoRepeatedLateMatch(r, ql)
  {
    var r1 := FirstPass(words, ql, limit, []);
    FirstPassFacts(words, ql, limit, []);
    FirstPassFrom(words, ql, limit, []);
    SecondPassFrom(words, ql, limit, r1);
    SecondPassNoRepeat(words, ql, limit, r1);
    forall k | 0 <= k < |r1| ensures Matches(r1[k], ql) {
      RankedMatches(r1[k], ql);
    }
    if |r1| < limit {
      SecondPassShape(words, ql, limit, r1, words);
      SecondPassComplete(words, ql, limit, r1);
    }
  }

  lemma {:induction false} RankedMatches(item: IndexWord, ql: string)
    requires Rank(item, ql) <= 1
    ensures Matches(item, ql)
  {
    StartsWithContains(ToLower(item.word), ql);
  }

  /** One step of the first loop keeps exact matches ahead of prefix matches. */
  lemma {:induction false} FirstStepShape(acc: seq<IndexWord>, item: IndexWord, ql: string)
    requires FirstPassShape(acc, ql)
    ensures Rank(item, ql) == 0 ==> FirstPassShape([item] + acc, ql)
    ensures Rank(item, ql) == 1 ==> FirstPassShape(acc + [item], ql)
  {
    if Rank(item, ql) == 0 {
      var a := [item] + acc;
      assert forall k :: 1 <= k < |a| ==> a[k] == acc[k - 1];
    } else if Rank(item, ql) == 1 {
      var a := acc + [item];
      assert forall k :: 0 <= k < |acc| ==> a[k] == acc[k];
    }
  }

  /** What the first pass guarantees: its results are exact matches then
      prefix matches, and if it stopped below `limit` it has every exact
      or prefix match. */
  lemma {:induction false} FirstPassFacts(words: seq<IndexWord>, ql: string, limit: int, acc: seq<IndexWord>)
    requires FirstPassShape(acc, ql)
    ensures var r := FirstPass(words, ql, limit, acc);
      && FirstPassShape(r, ql)
      && (|r| < limit ==> forall k :: 0 <= k < |words| && Rank(words[k], ql) <= 1 ==> words[k] in r)
    decreases |words|
  {
    if |words| > 0 {
      var item := words[0];
      var lw := ToLower(item.word);
      var acc' := if lw == ql then [item] + acc
                  else if StartsWith(lw, ql) then acc + [item]
                  else acc;
      FirstStepShape(acc, item, ql);
      assert item in acc' || Rank(item, ql) == 2;
      if |acc'| < limit {
        FirstPassFacts(words[1..], ql, limit, acc');
        FirstPassKeeps(words[1..], ql, limit, acc');
        assert forall k :: 1 <= k < |words| ==> words[k] == words[1..][k - 1];
      }
    }
  }

  /** The first pass never drops what it has collected. */
  lemma {:induction false} FirstPassKeeps(words: seq<IndexWord>, ql: string, limit: int, acc: seq<IndexWord>)
    ensures forall x :: x in acc ==> x in FirstPass(words, ql, limit, acc)
    decreases |words|
  {
    if |words| > 0 {
      var item := words[0];
      var lw := ToLower(item.word);
      var acc' := if lw == ql then [item] + acc
                  else if StartsWith(lw, ql) then acc + [item]
                  else acc;
      assert forall x :: x in acc ==> x in acc';
      if |acc'| < limit {
        FirstPassKeeps(words[1..], ql, limit, acc');
      }
    }
  }

  /** The second pass only appends matches, and each ranks after every
      exact or prefix match already collected. */
  lemma {:induction false} SecondPassShape(words: seq<IndexWord>, ql: string, limit: int, acc: seq<IndexWord>,
                                           all: seq<IndexWord>)
    requires RankSorted(acc, ql)
    requires forall k :: 0 <= k < |acc| ==> Matches(acc[k], ql)
    requires forall k :: 0 <= k < |all| && Rank(all[k], ql) <= 1 ==> all[k] in acc
    requires forall x :: x in words ==> x in all
    ensures RankSorted(SecondPass(words, ql, limit, acc), ql)
    ensures forall k :: 0 <= k < |SecondPass(words, ql, limit, acc)| ==>
      Matches(SecondPass(words, ql, limit, acc)[k], ql)
    decreases |words|
  {
    if |words| > 0 && |acc| < limit {
      var item := words[0];
      var acc' := if !HasWord(acc, item.word) && Matches(item, ql) then acc + [item] else acc;
      if !HasWord(acc, item.word) && Matches(item, ql) {
        assert item in all;
        if Rank(item, ql) <= 1 {
          assert false;
        }
        assert forall k :: 0 <= k < |acc| ==> acc'[k] == acc[k];
        assert item in acc';
      }
      assert forall x :: x in words[1..] ==> x in words;
      SecondPassShape(words[1..], ql, limit, acc', all);
    }
  }

  /** The first pass collects only entries of the index. */
  lemma {:induction false} FirstPassFrom(words: seq<IndexWord>, ql: string, limit: int, acc: seq<IndexWord>)
    ensures forall x :: x in FirstPass(words, ql, limit, acc) ==> x in acc || x in words
    decreases |words|
  {
    if |words| > 0 {
      var item := words[0];
      var lw := ToLower(item.word);
      var acc' := if lw == ql then [item] + acc
                  else if StartsWith(lw, ql) then acc + [item]
                  else acc;
      if |acc'| < limit {
        FirstPassFrom(words[1..], ql, limit, acc');
        assert forall x :: x in words[1..] ==> x in words;
      }
    }
  }

  /** The second pass appends only entries of the index. */
  lemma {:induction false} SecondPassFrom(words: seq<IndexWord>, ql: string, limit: int, acc: seq<IndexWord>)
    ensures forall x :: x in SecondPass(words, ql, limit, acc) ==> x in acc || x in words
    decreases |words|
  {
    if |words| > 0 && |acc| < limit {
      var item := words[0];
      var acc' := if !HasWord(acc, item.word) && Matches(item, ql) then acc + [item] else acc;
      SecondPassFrom(words[1..], ql, limit, acc');
      assert forall x :: x in words[1..] ==> x in words;
    }
  }

  /** The second pass never appends a word that is already among the results. */
  lemma {:induction false} SecondPassNoRepeat(words: seq<IndexWord>, ql: string, limit: int, acc: seq<IndexWord>)
    requires NoRepeatedLateMatch(acc, ql)
    ensures NoRepeatedLateMatch(SecondPass(words, ql, limit, acc), ql)
    decreases |words|
  {
    if |words| > 0 && |acc| < limit {
      var item := words[0];
      if !HasWord(acc, item.word) && Matches(item, ql) {
        var acc' := acc + [item];
        forall a, b | 0 <= a < b < |acc'| ensures acc'[a].word != acc'[b].word || Rank(acc'[b], ql) < 2 {
          if b == |acc| {
            assert acc'[a] in acc;
          } else {
            assert acc'[a] == acc[a] && acc'[b] == acc[b];
          }
        }
        SecondPassNoRepeat(words[1..], ql, limit, acc');
      } else {
        SecondPassNoRepeat(words[1..], ql, limit, acc);
      }
    }
  }

  /** The second pass never drops a collected word. */
  lemma {:induction false} SecondPassKeeps(words: seq<IndexWord>, ql: string, limit: int, acc: seq<IndexWord>)
    ensures forall w :: HasWord(acc, w) ==> HasWord(SecondPass(words, ql, limit, acc), w)
    decreases |words|
  {
    if |words| > 0 && |acc| < limit {
      var item := words[0];
      var acc' := if !HasWord(acc, item.word) && Matches(item, ql) then acc + [item] else acc;
      SecondPassKeeps(words[1..], ql, limit, acc');
      forall w | HasWord(acc, w) ensures HasWord(acc', w) {
        var x :| x in acc && x.word == w;
        assert x in acc';
      }
    }
  }

  /** A second pass that ends below `limit` has every matching word. */
  lemma {:induction false} SecondPassComplete(words: seq<IndexWord>, ql: string, limit: int, acc: seq<IndexWord>)
    ensures |SecondPass(words, ql, limit, acc)| < limit ==>
      forall k :: 0 <= k < |words| && Matches(words[k], ql) ==> HasWord(SecondPass(words, ql, limit, acc), words[k].word)
    decreases |words|
  {
    if |words| > 0 && |acc| < limit {
      var item := words[0];
      var acc' := if !HasWord(acc, item.word) && Matches(item, ql) then acc + [item] else acc;
      SecondPassComplete(words[1..], ql, limit, acc');
      SecondPassKeeps(words[1..], ql, limit, acc');
      assert forall k :: 1 <= k < |words| ==> words[k] == words[1..][k - 1];
      if Matches(item, ql) && !HasWord(acc, item.word) {
        assert item in acc';
      }
      if HasWord(acc, item.word) {
        var x :| x in acc && x.word == item.word;
        assert x in acc';
      }
    }
  }

  /** When fewer than `limit` results come back, no matching word was left out. */
  lemma {:induction false} SearchComplete(index: Index, query: string, limit: int)
    requires query != [] && index.words.Some?
    ensures var r := Search(index, query, limit);
            |r| < limit ==>
            forall k :: 0 <= k < |index.words.value| && Matches(index.words.value[k], Normalize(query)) ==>
              HasWord(r, index.words.value[k].word)
  {
    var words := index.words.value;
    var ql := Normalize(query);
    CollectFacts(words, ql, limit);
    var r2 := Collect(words, ql, limit);
    if |r2| < limit {
      assert SliceTo(r2, limit) == r2;
    }
  }

  // ---------------------------------------------------------------------
  // Random sampling

  function Min(a: int, b: int): int {
    if a < b then a else b
  }

  /** The sampling state: `pool` is what is left to draw from, `ids[k]` the
      original position of `pool[k]`, and `selected[k]` was drawn from
      position `positions[k]`; no position is drawn twice or both drawn and left. */
  predicate Drawing(words: seq<IndexWord>, pool: seq<IndexWord>, ids: seq<nat>,
                    selected: seq<IndexWord>, positions: seq<nat>)
  {
    && |pool| == |ids| && |selected| == |positions| && |pool| + |selected| == |words|
    && (forall k :: 0 <= k < |pool| ==> ids[k] < |words| && pool[k] == words[ids[k]])
    && (forall k :: 0 <= k < |selected| ==> positions[k] < |words| && selected[k] == words[positions[k]])
    && (forall a, b :: 0 <= a < b < |ids| ==> ids[a] != ids[b])
    && (forall a, b :: 0 <= a < b < |positions| ==> positions[a] != positions[b])
    && (forall a, b :: 0 <= a < |ids| && 0 <= b < |positions| ==> ids[a] != positions[b])
  }

  function Identity(n: nat): (r: seq<nat>)
    ensures |r| == n && forall k :: 0 <= k < n ==> r[k] == k
  {
    seq(n, k requires 0 <= k < n => k)
  }

  lemma {:induction false} DrawingStart(words: seq<IndexWord>)
    ensures Drawing(words, words, Identity(|words|), [], [])
  {
  }

  /** Drawing the entry at `r` moves it, with its position, from the pool to the selection. */
  lemma {:induction false} DrawingStep(words: seq<IndexWord>, pool: seq<IndexWord>, ids: seq<nat>,
                                       selected: seq<IndexWord>, positions: seq<nat>, r: nat)
    requires Drawing(words, pool, ids, selected, positions)
    requires r < |pool|
    ensures Drawing(words, pool[..r] + pool[r + 1..], ids[..r] + ids[r + 1..],
                    selected + [pool[r]], positions + [ids[r]])
  {
    var ids' := ids[..r] + ids[r + 1..];
    var pool' := pool[..r] + pool[r + 1..];
    assert forall k :: 0 <= k < |ids'| ==> ids'[k] == ids[if k < r then k else k + 1];
    assert forall k :: 0 <= k < |pool'| ==> pool'[k] == pool[if k < r then k else k + 1];
    var positions' := positions + [ids[r]];
    assert forall k :: 0 <= k < |positions| ==> positions'[k] == positions[k];
  }

  /** `getRandomWords(count)` as written. The loop bound `Math.min(count,
      words.length)` is re-evaluated against the shrinking pool, so only
      `min(count, ceil(n / 2))` words are drawn. `rand(i, m)` is the index
      drawn on iteration `i` from a pool of `m` words. Alongside the words
      it returns the index position each was drawn from. */
  method RandomWordsAsWritten(index: Index, count: int, rand: (nat, nat) -> nat)
    returns (selected: seq<IndexWord>, positions: seq<nat>)
    requires forall i: nat, m: nat :: 0 < m ==> rand(i, m) < m
    ensures index.words.None? || index.words.value == [] ==> selected == []
    ensures index.words.Some? ==>
      var n := |index.words.value|;
      |selected| == (if count <= 0 then 0 else Min(count, (n + 1) / 2))
    ensures |positions| == |selected|
    ensures index.words.Some? ==> forall k :: 0 <= k < |selected| ==>
      positions[k] < |index.words.value| && selected[k] == index.words.value[positions[k]]
    ensures forall a, b :: 0 <= a < b < |positions| ==> positions[a] != positions[b]
  {
    selected, positions := [], [];
    if index.words.None? || index.words.value == [] {
      return;
    }
    var words := index.words.value;
    var pool, ids := words, Identity(|words|);
    DrawingStart(words);
    var i := 0;
    while i < Min(count, |pool|)
      invariant Drawing(words, pool, ids, selected, positions)
      invariant |selected| == i
      invariant (i <= count || i == 0) && 2 * i <= |words| + 1
      decreases |pool|
    {
      var r := rand(i, |pool|);
      DrawingStep(words, pool, ids, selected, positions, r);
      selected, positions := selected + [pool[r]], positions + [ids[r]];
      pool, ids := pool[..r] + pool[r + 1..], ids[..r] + ids[r + 1..];
      i := i + 1;
    }
  }

  /** The sampling the loop evidently means: `min(count, n)` draws without
      replacement, the bound fixed before the pool starts shrinking. */
  method RandomWords(index: Index, count: int, rand: (nat, nat) -> nat)
    returns (selected: seq<IndexWord>, positions: seq<nat>)
    requires forall i: nat, m: nat :: 0 < m ==> rand(i, m) < m
    ensures index.words.None? || index.words.value == [] ==> selected == []
    ensures index.words.Some? ==>
      |selected| == (if count <= 0 then 0 else Min(count, |index.words.value|))
    ensures |positions| == |selected|
    ensures index.words.Some? ==> forall k :: 0 <= k < |selected| ==>
      positions[k] < |index.words.value| && selected[k] == index.words.value[positions[k]]
    ensures forall a, b :: 0 <= a < b < |positions| ==> positions[a] != positions[b]
  {
    selected, positions := [], [];
    if index.words.None? || index.words.value == [] {
      return;
    }
    var words := index.words.value;
    var target := if count <= 0 then 0 else Min(count, |words|);
    var pool, ids := words, Identity(|words|);
    DrawingStart(words);
    var i := 0;
    while i < target
      invariant Drawing(words, pool, ids, selected, positions)
      invariant |selected| == i <= target
    {
      var r := rand(i, |pool|);
      DrawingStep(words, pool, ids, selected, positions, r);
      selected, positions := selected + [pool[r]], positions + [ids[r]];
      pool, ids := pool[..r] + pool[r + 1..], ids[..r] + ids[r + 1..];
      i := i + 1;
    }
  }

  /** The discrepancy: from four words, asking for four yields two. */
  method FourWordsYieldTwo() returns (asWritten: nat, corrected: nat)
    ensures asWritten == 2 && corrected == 4
  {
    var w := IndexWord("a", map[]);
    var index := Index(Some([w, w, w, w]));
    var first: (nat, nat) -> nat := (i: nat, m: nat) => 0;
    var s1, p1 := RandomWordsAsWritten(index, 4, first);
    var s2, p2 := RandomWords(index, 4, first);
    asWritten, corrected := |s1|, |s2|;
  }
}

=== FILE: settings.dfy ===
/** User preferences: twelve defaults, overridden key by key by whatever
    object is stored under one browser-storage key. A value is any JSON
    value; a key missing from an object reads as `undefined` (`None`). */
module Settings {
  import opened Text

  datatype Value = Bool(b: bool) | Num(x: real) | Str(s: string) | Null | Compound

  /** JavaScript truthiness of a JSON value (`NaN` is not modelled). */
  predicate TruthyValue(v: Value) {
    match v
    case Bool(b) => b
    case Num(x) => x != 0.0
    case Str(s) => s != []
    case Null => false
    case Compound => true
  }

  type Settings = map<string, Value>

  const SettingsKey: string := "english-dictionary-settings"

  const Defaults: Settings := map[
    "autoSpeak" := Bool(true),
    "speakSpeed" := Num(0.8),
    "speakLanguage" := Str("en-US"),
    "speakOnWordDetail" := Bool(true),
    "speakOnStudy" := Bool(false),
    "speakOnSearch" := Bool(false),
    "darkMode" := Bool(false),
    "showPhonetic" := Bool(true),
    "showExamples" := Bool(true),
    "showSynonyms" := Bool(true),
    "cacheEnabled" := Bool(true),
    "syncEnabled" := Bool(true)
  ]

  /** The storage slot: nothing (or an empty string), a read or parse
      failure, or the object the stored text parses to. */
  datatype Slot = NoSettings | Unreadable | Parsed(stored: Settings)

  /** `getSettings()`. */
  function GetSettings(slot: Slot): (r: Settings)
    ensures !slot.Parsed? ==> r == Defaults
    ensures slot.Parsed? ==>
      && r.Keys == Defaults.Keys + slot.stored.Keys
      && (forall k :: k in slot.stored ==> r[k] == slot.stored[k])
      && (forall k :: k in Defaults && k !in slot.stored ==> r[k] == Defaults[k])
  {
    if slot.Parsed? then Defaults + slot.stored else Defaults
  }

  /** What saving or resetting returns, and the slot it leaves. */
  datatype Saved = Saved(settings: Settings, slot: Slot)

  /** `saveSettings(settings)`: the current settings overridden by the
      argument are written and returned; a failed write returns the
      current settings. */
  function SaveSettings(slot: Slot, update: Settings, writable: bool): (r: Saved)
    ensures writable ==> r.slot == Parsed(r.settings)
    ensures writable ==>
      && r.settings.Keys == GetSettings(slot).Keys + update.Keys
      && (forall k :: k in update ==> r.settings[k] == update[k])
      && (forall k :: k in GetSettings(slot) && k !in update ==> r.settings[k] == GetSettings(slot)[k])
    ensures !writable ==> r == Saved(GetSettings(slot), slot)
  {
    if writable then
      var s := GetSettings(slot) + update;
      Saved(s, Parsed(s))
    else Saved(GetSettings(slot), slot)
  }

  /** `getSetting(key)`. */
  function GetSetting(slot: Slot, key: string): (r: Option<Value>)
    ensures key in Defaults ==> r.Some?
    ensures r.Some? <==> key in GetSettings(slot)
    ensures r.Some? ==> r.value == GetSettings(slot)[key]
  {
    var s := GetSettings(slot);
    if key in s then Some(s[key]) else None
  }

  /** `setSetting(key, value)`: the slot it leaves. */
  function SetSetting(slot: Slot, key: string, value: Value, writable: bool): (r: Slot)
    ensures !writable ==> r == slot
  {
    var s := GetSettings(slot);
    SaveSettings(slot, s[key := value], writable).slot
  }

  /** Round trip: what was set is read back, and every other key reads as before. */
  lemma {:induction false} SetThenGet(slot: Slot, key: string, value: Value, other: string)
    requires other != key
    ensures GetSetting(SetSetting(slot, key, value, true), key) == Some(value)
    ensures GetSetting(SetSetting(slot, key, value, true), other) == GetSetting(slot, other)
  {
  }

  /** Saving an empty update changes no setting. */
  lemma {:induction false} SaveNothingKeeps(slot: Slot)
    ensures GetSettings(SaveSettings(slot, map[], true).slot) == GetSettings(slot)
  {
    assert GetSettings(slot) + map[] == GetSettings(slot);
    assert Defaults + (GetSettings(slot) + map[]) == GetSettings(slot);
  }

  /** `resetSettings()`: the defaults, and the stored object removed. */
  function ResetSettings(slot: Slot, writable: bool): (r: Saved)
    ensures writable ==> r == Saved(Defaults, NoSettings)
    ensures !writable ==> r == Saved(GetSettings(slot), slot)
  {
    if writable then Saved(Defaults, NoSettings) else Saved(GetSettings(slot), slot)
  }

  lemma {:induction false} ResetThenGet(slot: Slot)
    ensures GetSettings(ResetSettings(slot, true).slot) == Defaults
  {
  }

  datatype SpeakSettings = SpeakSettings(autoSpeak: Value, speed: Value, language: Value,
                                         onWordDetail: Value, onStudy: Value, onSearch: Value)

  /** `getSpeakSettings()`: the six speech fields of the merged settings. */
  function GetSpeakSettings(slot: Slot): (r: SpeakSettings)
    ensures r.autoSpeak == GetSetting(slot, "autoSpeak").value
    ensures r.speed == GetSetting(slot, "speakSpeed").value
    ensures r.language == GetSetting(slot, "speakLanguage").value
    ensures r.onWordDetail == GetSetting(slot, "speakOnWordDetail").value
    ensures r.onStudy == GetSetting(slot, "speakOnStudy").value
    ensures r.onSearch == GetSetting(slot, "speakOnSearch").value
  {
    var s := GetSettings(slot);
    SpeakSettings(s["autoSpeak"], s["speakSpeed"], s["speakLanguage"],
                  s["speakOnWordDetail"], s["speakOnStudy"], s["speakOnSearch"])
  }

  /** `shouldAutoSpeak(context)`: the value returned, which is the stored
      per-context value itself, not necessarily a boolean. */
  function ShouldAutoSpeak(slot: Slot, context: string): (r: Value)
    ensures !TruthyValue(GetSetting(slot, "autoSpeak").value) ==> r == Bool(false)
    ensures TruthyValue(GetSetting(slot, "autoSpeak").value) ==>
      && (context == "wordDetail" ==> r == GetSetting(slot, "speakOnWordDetail").value)
      && (context == "study" ==> r == GetSetting(slot, "speakOnStudy").value)
      && (context == "search" ==> r == GetSetting(slot, "speakOnSearch").value)
      && (context !in {"wordDetail", "study", "search"} ==> r == Bool(false))
  {
    var s := GetSpeakSettings(slot);
    if !TruthyValue(s.autoSpeak) then Bool(false)
    else if context == "wordDetail" then s.onWordDetail
    else if context == "study" then s.onStudy
    else if context == "search" then s.onSearch
    else Bool(false)
  }

  /** With nothing stored, only the word-detail page speaks on its own. */
  lemma {:induction false} DefaultAutoSpeak(context: string)
    ensures ShouldAutoSpeak(NoSettings, context) == Bool(context == "wordDetail")
  {
  }

  /** Turning `autoSpeak` off silences every context. */
  lemma {:induction false} AutoSpeakOffSilences(slot: Slot, context: string)
    ensures ShouldAutoSpeak(SetSetting(slot, "autoSpeak", Bool(false), true), context) == Bool(false)
  {
  }
}

=== FILE: sm2.dfy ===
/** The SM-2 spaced-repetition scheduler. The ease factor is kept in
    hundredths (2.5 is 250, the floor 1.3 is 130), so every change the
    scheduler can make to it (+0.10, 0, -0.14) is exact. Times are
    milliseconds since the epoch. */
module Sm2 {
  import opened Text

  const DefaultEase: int := 250
  const MinEase: int := 130
  const DayMs: int := 86_400_000

  /** The scheduler's output record (`ease_factor`, `interval`,
      `repetitions`, `next_review`). */
  datatype Review = Review(easeFactor: int, interval: int, repetitions: int, nextReview: int)

  datatype Sm2Error = QualityOutOfRange

  /** `0.1 - (5 - q) * (0.08 + (5 - q) * 0.02)`, in hundredths. */
  function EaseDelta(quality: int): int {
    var d := 5 - quality;
    10 - d * (8 + d * 2)
  }

  /** `Math.round(n / 100)`: the nearest integer, halves rounded up. */
  function RoundHundredths(n: int): (r: int)
    ensures 100 * r - 50 <= n < 100 * r + 50
  {
    (n + 50) / 100
  }

  /** `calculateNextReview(easeFactor, interval, repetitions, quality)`
      evaluated at time `now`. */
  function NextReview(easeFactor: int, interval: int, repetitions: int, quality: int, now: int)
    : (r: Result<Review, Sm2Error>)
    ensures r.Err? <==> quality < 0 || quality > 5
    ensures r.Ok? && quality < 3 ==>
      r.value.repetitions == 0 && r.value.interval == 1 && r.value.easeFactor == easeFactor
    ensures r.Ok? && quality >= 3 ==>
      && r.value.easeFactor >= MinEase
      && (easeFactor + EaseDelta(quality) >= MinEase ==> r.value.easeFactor == easeFactor + EaseDelta(quality))
      && (easeFactor + EaseDelta(quality) < MinEase ==> r.value.easeFactor == MinEase)
      && r.value.repetitions == repetitions + 1
    ensures r.Ok? && quality >= 3 ==>
      && (repetitions == 0 ==> r.value.interval == 1)
      && (repetitions == 1 ==> r.value.interval == 6)
      && (repetitions != 0 && repetitions != 1 ==>
            100 * r.value.interval - 50 <= interval * r.value.easeFactor < 100 * r.value.interval + 50)
    ensures r.Ok? ==> r.value.nextReview == now + r.value.interval * DayMs
  {
    if quality < 0 || quality > 5 then
      Err(QualityOutOfRange)
    else
      var ef := if quality < 3 then easeFactor
                else if easeFactor + EaseDelta(quality) < MinEase then MinEase
                else easeFactor + EaseDelta(quality);
      var reps := if quality < 3 then 0 else repetitions + 1;
      var iv := if quality < 3 then 1
                else if reps == 1 then 1
                else if reps == 2 then 6
                else RoundHundredths(interval * ef);
      Ok(Review(ef, iv, reps, now + iv * DayMs))
  }

  /** The three changes a successful review can make to the ease factor. */
  lemma EaseDeltas()
    ensures EaseDelta(5) == 10 && EaseDelta(4) == 0 && EaseDelta(3) == -14
  {
  }

  /** A better recall never yields a smaller ease factor. */
  lemma {:induction false} EaseMonotoneInQuality(easeFactor: int, interval: int, repetitions: int, q1: int, q2: int, now: int)
    requires 3 <= q1 <= q2 <= 5
    ensures NextReview(easeFactor, interval, repetitions, q1, now).value.easeFactor
         <= NextReview(easeFactor, interval, repetitions, q2, now).value.easeFactor
  {
    assert EaseDelta(q1) <= EaseDelta(q2) by {
      assert q1 == 3 || q1 == 4 || q1 == 5;
      assert q2 == 3 || q2 == 4 || q2 == 5;
    }
  }

  /** A review result is a function of the four numbers and the clock
      alone, and the clock only moves `next_review`. */
  lemma {:induction false} ClockOnlyMovesDueDate(easeFactor: int, interval: int, repetitions: int, quality: int, now1: int, now2: int)
    requires 0 <= quality <= 5
    ensures var a := NextReview(easeFactor, interval, repetitions, quality, now1).value;
            var b := NextReview(easeFactor, interval, repetitions, quality, now2).value;
            a.easeFactor == b.easeFactor && a.interval == b.interval && a.repetitions == b.repetitions
            && a.nextReview - now1 == b.nextReview - now2
  {
  }

  /** A schedule reachable from a fresh card: ease at least 1.3, and every
      card that has been recalled at least once is due at least a day later. */
  predicate ValidSchedule(easeFactor: int, interval: int, repetitions: int) {
    easeFactor >= MinEase && interval >= 0 && repetitions >= 0 && (repetitions >= 1 ==> interval >= 1)
  }

  lemma {:induction false} StepPreservesSchedule(easeFactor: int, interval: int, repetitions: int, quality: int, now: int)
    requires ValidSchedule(easeFactor, interval, repetitions)
    requires 0 <= quality <= 5
    ensures var r := NextReview(easeFactor, interval, repetitions, quality, now).value;
            ValidSchedule(r.easeFactor, r.interval, r.repetitions)
            && (quality >= 3 && repetitions >= 2 ==> r.interval >= interval)
  {
    var r := NextReview(easeFactor, interval, repetitions, quality, now).value;
    if quality >= 3 && repetitions >= 2 {
      assert interval * r.easeFactor >= interval * MinEase by {
        assert r.easeFactor >= MinEase;
        assert interval >= 1;
      }
      assert r.interval >= interval;
    }
  }

  /** The schedule after a run of reviews, or the first rejected quality. */
  function Replay(easeFactor: int, interval: int, repetitions: int, qualities: seq<int>)
    : (r: Result<(int, int, int), Sm2Error>)
    ensures r.Err? <==> exists i :: 0 <= i < |qualities| && (qualities[i] < 0 || qualities[i] > 5)
    decreases |qualities|
  {
    if |qualities| == 0 then Ok((easeFactor, interval, repetitions))
    else
      match NextReview(easeFactor, interval, repetitions, qualities[0], 0)
      case Err(e) => Err(e)
      case Ok(v) =>
        var rest := Replay(v.easeFactor, v.interval, v.repetitions, qualities[1..]);
        assert forall i :: 1 <= i < |qualities| ==> qualities[i] == qualities[1..][i - 1];
        rest
  }

  /** Whatever reviews a card goes through, its ease factor never drops
      below 1.3 and a recalled card is never due the same day. */
  lemma {:induction false} ReplayPreservesSchedule(easeFactor: int, interval: int, repetitions: int, qualities: seq<int>)
    requires ValidSchedule(easeFactor, interval, repetitions)
    ensures Replay(easeFactor, interval, repetitions, qualities).Ok? ==>
      var (e, i, n) := Replay(easeFactor, interval, repetitions, qualities).value;
      ValidSchedule(e, i, n)
    decreases |qualities|
  {
    if |qualities| > 0 && 0 <= qualities[0] <= 5 {
      var v := NextReview(easeFactor, interval, repetitions, qualities[0], 0).value;
      StepPreservesSchedule(easeFactor, interval, repetitions, qualities[0], 0);
      ReplayPreservesSchedule(v.easeFactor, v.interval, v.repetitions, qualities[1..]);
    }
  }

  /** From a fresh card, three effortless recalls give intervals 1, 6 and
      round(6 * 2.8) = 17 days, and ease factors 2.6, 2.7 and 2.8. */
  lemma FreshCardPerfectRecalls(now: int)
    ensures var a := NextReview(DefaultEase, 0, 0, 5, now).value;
            a == Review(260, 1, 1, now + DayMs)
            && var b := NextReview(a.easeFactor, a.interval, a.repetitions, 5, now).value;
            b == Review(270, 6, 2, now + 6 * DayMs)
            && var c := NextReview(b.easeFactor, b.interval, b.repetitions, 5, now).value;
            c == Review(280, 17, 3, now + 17 * DayMs)
  {
  }

  /** `getQualityLabel`: the fixed label of a grade, '未知' for anything else. */
  function QualityLabel(quality: int): (r: string)
    ensures 0 <= quality <= 5 ==> r == QualityLabels[quality]
    ensures !(0 <= quality <= 5) ==> r == UnknownLabel
  {
    if 0 <= quality <= 5 then QualityLabels[quality] else UnknownLabel
  }

  const QualityLabels: seq<string> :=
    ["完全不记得", "有点印象", "想起来了", "有点困难", "稍有犹豫", "非常轻松"]

  const UnknownLabel: string := "未知"

  /** Distinct grades get distinct labels, and no grade is labelled unknown. */
  lemma QualityLabelInjective(q1: int, q2: int)
    requires 0 <= q1 <= 5 && 0 <= q2 <= 5 && q1 != q2
    ensures QualityLabel(q1) != QualityLabel(q2)
    ensures QualityLabel(q1) != UnknownLabel
  {
    assert QualityLabels[0][0] != QualityLabels[1][0];
  }

  /** How `formatNextReview` describes a due date that is `diffDays` away. */
  datatype DueText = NeedsReview | Today | Tomorrow | InDays(days: int) | InWeeks(weeks: int) | InMonths(months: int)

  /** `Math.ceil((review - now) / one day)`. */
  function DiffDays(review: int, now: int): (r: int)
    ensures (r - 1) * DayMs < review - now <= r * DayMs
  {
    -((now - review) / DayMs)
  }

  function FormatNextReview(diffDays: int): (r: DueText)
    ensures r == NeedsReview <==> diffDays < 0
    ensures r == Today <==> diffDays == 0
    ensures r == Tomorrow <==> diffDays == 1
    ensures r.InDays? <==> 2 <= diffDays < 7
    ensures r.InDays? ==> r.days == diffDays
    ensures r.InWeeks? <==> 7 <= diffDays < 30
    ensures r.InWeeks? ==> 1 <= r.weeks <= 4 && 7 * r.weeks <= diffDays < 7 * r.weeks + 7
    ensures r.InMonths? <==> 30 <= diffDays
    ensures r.InMonths? ==> 1 <= r.months && 30 * r.months <= diffDays < 30 * r.months + 30
  {
    if diffDays < 0 then NeedsReview
    else if diffDays == 0 then Today
    else if diffDays == 1 then Tomorrow
    else if diffDays < 7 then InDays(diffDays)
    else if diffDays < 30 then InWeeks(diffDays / 7)
    else InMonths(diffDays / 30)
  }

  function Bucket(t: DueText): nat {
    match t
    case NeedsReview => 0
    case Today => 1
    case Tomorrow => 2
    case InDays(_) => 3
    case InWeeks(_) => 4
    case InMonths(_) => 5
  }

  function Amount(t: DueText): int {
    match t
    case InDays(n) => n
    case InWeeks(n) => n
    case InMonths(n) => n
    case _ => 0
  }

  /** A later due date never gets a nearer description: the bucket order is
      due, today, tomorrow, days, weeks, months, and within one bucket the
      count does not decrease. */
  lemma {:induction false} FormatNextReviewMonotone(d1: int, d2: int)
    requires d1 <= d2
    ensures Bucket(FormatNextReview(d1)) <= Bucket(FormatNextReview(d2))
    ensures Bucket(FormatNextReview(d1)) == Bucket(FormatNextReview(d2)) ==>
      Amount(FormatNextReview(d1)) <= Amount(FormatNextReview(d2))
  {
  }
}

=== FILE: sorting.dfy ===
/** Sorting as the build scripts use it: `Array.prototype.sort` with a
    comparator (here a "comes no later than" relation on a key, standing for
    `localeCompare`), and the default `sort()` on strings, which compares
    UTF-16 code units; here a string is a sequence of code points, and the
    two orders agree on text without surrogate pairs. */
module Sorting {

  /** The relation is total and transitive: what a consistent comparator gives. */
  ghost predicate TotalPreorder<K(!new)>(le: (K, K) -> bool) {
    && (forall a, b :: le(a, b) || le(b, a))
    && (forall a, b, c :: le(a, b) && le(b, c) ==> le(a, c))
  }

  predicate SortedBy<T, K>(s: seq<T>, key: T -> K, le: (K, K) -> bool) {
    forall i, j :: 0 <= i < j < |s| ==> le(key(s[i]), key(s[j]))
  }

  /** `x` placed after every leading element that comes no later than it. */
  function Insert<T, K>(x: T, s: seq<T>, key: T -> K, le: (K, K) -> bool): (r: seq<T>)
    ensures multiset(r) == multiset(s) + multiset{x}
    ensures |r| == |s| + 1
    decreases |s|
  {
    if |s| == 0 then [x]
    else
      assert s == [s[0]] + s[1..];
      if le(key(s[0]), key(x)) then [s[0]] + Insert(x, s[1..], key, le)
      else [x] + s
  }

  lemma {:induction false} InsertSorted<T, K(!new)>(x: T, s: seq<T>, key: T -> K, le: (K, K) -> bool)
    requires TotalPreorder(le) && SortedBy(s, key, le)
    ensures SortedBy(Insert(x, s, key, le), key, le)
    decreases |s|
  {
    if |s| > 0 {
      var r := Insert(x, s, key, le);
      if le(key(s[0]), key(x)) {
        var tail := Insert(x, s[1..], key, le);
        assert SortedBy(s[1..], key, le) by {
          forall i, j | 0 <= i < j < |s| - 1 ensures le(key(s[1..][i]), key(s[1..][j])) {
            assert s[1..][i] == s[i + 1] && s[1..][j] == s[j + 1];
          }
        }
        InsertSorted(x, s[1..], key, le);
        forall j | 0 <= j < |tail| ensures le(key(s[0]), key(tail[j])) {
          assert tail[j] in multiset(tail);
          if tail[j] != x {
            assert tail[j] in multiset(s[1..]);
            var k :| 0 <= k < |s[1..]| && s[1..][k] == tail[j];
            assert s[k + 1] == tail[j];
          }
        }
        assert r == [s[0]] + tail;
      } else {
        assert le(key(x), key(s[0]));
        forall j | 0 <= j < |s| ensures le(key(x), key(s[j])) {
          if j > 0 {
            assert le(key(s[0]), key(s[j]));
          }
        }
        assert r == [x] + s;
      }
    }
  }

  /** `items.sort(cmp)` as an insertion sort: every element is inserted
      into the sorted prefix after the elements that come no later than it.
      The result is a sorted permutation; the relative order of equal keys
      is not part of the contract. */
  function Sort<T, K>(s: seq<T>, key: T -> K, le: (K, K) -> bool): (r: seq<T>)
    ensures multiset(r) == multiset(s)
    ensures |r| == |s|
    decreases |s|
  {
    if |s| == 0 then []
    else
      assert s == s[..|s| - 1] + [s[|s| - 1]];
      Insert(s[|s| - 1], Sort(s[..|s| - 1], key, le), key, le)
  }

  /** With a consistent comparator the result is ordered. */
  lemma {:induction false} SortSorted<T, K(!new)>(s: seq<T>, key: T -> K, le: (K, K) -> bool)
    requires TotalPreorder(le)
    ensures SortedBy(Sort(s, key, le), key, le)
    decreases |s|
  {
    if |s| > 0 {
      SortSorted(s[..|s| - 1], key, le);
      InsertSorted(s[|s| - 1], Sort(s[..|s| - 1], key, le), key, le);
    }
  }

  /** The order of the default `sort()`: characters compared one by one, a
      proper prefix first (the comparison JavaScript makes on UTF-16 code
      units, applied here to code points). */
  predicate StrLess(a: string, b: string)
    decreases |a|
  {
    |b| > 0 && (|a| == 0 || a[0] < b[0] || (a[0] == b[0] && StrLess(a[1..], b[1..])))
  }

  lemma {:induction false} StrLessTransitive(a: string, b: string, c: string)
    requires StrLess(a, b) && StrLess(b, c)
    ensures StrLess(a, c)
    decreases |a|
  {
    if |a| > 0 && a[0] == b[0] && b[0] == c[0] {
      StrLessTransitive(a[1..], b[1..], c[1..]);
    }
  }

  lemma {:induction false} StrLessIrreflexive(a: string)
    ensures !StrLess(a, a)
    decreases |a|
  {
    if |a| > 0 {
      StrLessIrreflexive(a[1..]);
    }
  }

  /** Each element before the next. */
  predicate Ascending(s: seq<string>) {
    forall i :: 0 < i < |s| ==> StrLess(s[i - 1], s[i])
  }

  predicate StrictlySorted(s: seq<string>) {
    forall i, j :: 0 <= i < j < |s| ==> StrLess(s[i], s[j])
  }

  lemma {:induction false} AscendingSorted(s: seq<string>)
    requires Ascending(s)
    ensures StrictlySorted(s)
    decreases |s|
  {
    if |s| > 1 {
      var init := s[..|s| - 1];
      assert Ascending(init) by {
        forall i | 0 < i < |init| ensures StrLess(init[i - 1], init[i]) {
          assert init[i - 1] == s[i - 1] && init[i] == s[i];
        }
      }
      AscendingSorted(init);
      forall i, j | 0 <= i < j < |s| ensures StrLess(s[i], s[j]) {
        if j < |s| - 1 {
          assert init[i] == s[i] && init[j] == s[j];
        } else if i < j - 1 {
          assert init[i] == s[i] && init[j - 1] == s[j - 1];
          StrLessTransitive(s[i], s[j - 1], s[j]);
        }
      }
    }
  }

  /** The elements of `order` that `keep` holds, in the order of `order`. */
  function KeepInOrder(order: seq<string>, keep: set<string>): (r: seq<string>)
    ensures forall k :: k in r <==> k in order && k in keep
    ensures forall i :: 0 <= i < |r| ==> r[i] in order
    decreases |order|
  {
    if |order| == 0 then []
    else if order[0] in keep then [order[0]] + KeepInOrder(order[1..], keep)
    else KeepInOrder(order[1..], keep)
  }

  lemma {:induction false} KeepNothing(order: seq<string>)
    ensures KeepInOrder(order, {}) == []
    decreases |order|
  {
    if |order| > 0 {
      KeepNothing(order[1..]);
    }
  }

  /** Keeping some elements of a strictly sorted list leaves it strictly sorted. */
  lemma {:induction false} KeepInOrderSorted(order: seq<string>, keep: set<string>)
    requires StrictlySorted(order)
    ensures StrictlySorted(KeepInOrder(order, keep))
    decreases |order|
  {
    if |order| > 0 {
      var rest := order[1..];
      assert StrictlySorted(rest) by {
        forall i, j | 0 <= i < j < |rest| ensures StrLess(rest[i], rest[j]) {
          assert rest[i] == order[i + 1] && rest[j] == order[j + 1];
        }
      }
      KeepInOrderSorted(rest, keep);
      var tail := KeepInOrder(rest, keep);
      if order[0] in keep {
        forall j | 0 <= j < |tail| ensures StrLess(order[0], tail[j]) {
          assert tail[j] in rest;
          var k :| 0 <= k < |rest| && rest[k] == tail[j];
          assert order[k + 1] == tail[j];
        }
      }
    }
  }
}

=== FILE: text.dfy ===
/** Shared result types and the string operations the JavaScript code relies on
    (`toLowerCase`, `trim`, `startsWith`, `endsWith`, `includes`, `replace`),
    restricted to ASCII case folding and ASCII white space. */
module Text {

  datatype Option<+T> = None | Some(value: T) {
    function GetOr(default: T): T {
      match this
      case Some(v) => v
      case None => default
    }
  }

  datatype Result<+T, +E> = Ok(value: T) | Err(error: E)

  /** JavaScript truthiness of a string: only the empty string is falsy. */
  predicate Truthy(s: string) {
    |s| > 0
  }

  /** `a || b` on two strings. */
  function OrElse(a: string, b: string): string {
    if Truthy(a) then a else b
  }

  predicate IsUpper(c: char) {
    'A' <= c <= 'Z'
  }

  predicate IsLowerLetter(c: char) {
    'a' <= c <= 'z'
  }

  function LowerChar(c: char): (r: char)
    ensures !IsUpper(r)
    ensures !IsUpper(c) ==> r == c
    ensures IsUpper(c) ==> r as int == c as int + 32 && IsLowerLetter(r)
  {
    if IsUpper(c) then (c as int + 32) as char else c
  }

  function ToLower(s: string): (r: string)
    ensures |r| == |s|
    ensures forall i :: 0 <= i < |s| ==> r[i] == LowerChar(s[i])
  {
    if |s| == 0 then [] else [LowerChar(s[0])] + ToLower(s[1..])
  }

  predicate IsSpace(c: char) {
    c == ' ' || c == '\t' || c == '\n' || c == '\r' || c == '\U{B}' || c == '\U{C}'
  }

  /** Number of white-space characters at the start of `s`. */
  function LeadingSpace(s: string): (n: nat)
    ensures n <= |s|
    ensures forall i :: 0 <= i < n ==> IsSpace(s[i])
    ensures n < |s| ==> !IsSpace(s[n])
  {
    if |s| > 0 && IsSpace(s[0]) then 1 + LeadingSpace(s[1..]) else 0
  }

  /** Number of white-space characters at the end of `s`. */
  function TrailingSpace(s: string): (n: nat)
    ensures n <= |s|
    ensures forall i :: |s| - n <= i < |s| ==> IsSpace(s[i])
    ensures n < |s| ==> !IsSpace(s[|s| - n - 1])
  {
    if |s| > 0 && IsSpace(s[|s| - 1]) then 1 + TrailingSpace(s[..|s| - 1]) else 0
  }

  /** `s.trim()`: white space removed from both ends. */
  function Trim(s: string): (r: string)
    ensures |r| <= |s|
    ensures |r| == 0 || (!IsSpace(r[0]) && !IsSpace(r[|r| - 1]))
  {
    var t := s[LeadingSpace(s)..];
    t[..|t| - TrailingSpace(t)]
  }

  /** The key under which the word caches file a word: `word.toLowerCase().trim()`. */
  function Normalize(s: string): string {
    Trim(ToLower(s))
  }

  predicate StartsWith(s: string, p: string) {
    |p| <= |s| && s[..|p|] == p
  }

  predicate EndsWith(s: string, p: string) {
    |p| <= |s| && s[|s| - |p|..] == p
  }

  predicate OccursAt(s: string, p: string, k: int) {
    0 <= k && k + |p| <= |s| && s[k..k + |p|] == p
  }

  /** `s.includes(p)`. */
  predicate Contains(s: string, p: string) {
    exists k :: 0 <= k <= |s| && OccursAt(s, p, k)
  }

  /** Index of the first occurrence of `p` in `s` at or after `from`. */
  function FindFrom(s: string, p: string, from: nat): (r: Option<nat>)
    decreases |s| - from
    ensures r.Some? ==> from <= r.value && OccursAt(s, p, r.value)
    ensures r.Some? ==> forall k :: from <= k < r.value ==> !OccursAt(s, p, k)
    ensures r.None? ==> forall k :: from <= k ==> !OccursAt(s, p, k)
  {
    if from + |p| > |s| then None
    else if s[from..from + |p|] == p then Some(from)
    else FindFrom(s, p, from + 1)
  }

  /** `s.replace(p, q)` with a string pattern: only the first occurrence is replaced. */
  function ReplaceFirst(s: string, p: string, q: string): (r: string)
    ensures FindFrom(s, p, 0).None? ==> r == s
    ensures FindFrom(s, p, 0).Some? ==>
      var k := FindFrom(s, p, 0).value; r == s[..k] + q + s[k + |p|..]
  {
    match FindFrom(s, p, 0)
    case None => s
    case Some(k) => s[..k] + q + s[k + |p|..]
  }

  lemma {:induction false} StartsWithContains(s: string, p: string)
    requires StartsWith(s, p)
    ensures Contains(s, p)
  {
    assert OccursAt(s, p, 0);
  }

  lemma {:induction false} LowerCharIdempotent(c: char)
    ensures LowerChar(LowerChar(c)) == LowerChar(c)
  {
  }

  /** Lower-casing twice is lower-casing once. */
  lemma {:induction false} ToLowerIdempotent(s: string)
    ensures ToLower(ToLower(s)) == ToLower(s)
  {
    var a := ToLower(s);
    var b := ToLower(a);
    assert |b| == |a|;
    forall i | 0 <= i < |s| ensures b[i] == a[i] {
      LowerCharIdempotent(s[i]);
    }
  }

  predicate AllSpace(s: string) {
    forall i :: 0 <= i < |s| ==> IsSpace(s[i])
  }

  lemma {:induction false} AllSpaceConcat(a: string, b: string)
    requires AllSpace(a) && AllSpace(b)
    ensures AllSpace(a + b)
  {
    forall i | 0 <= i < |a + b| ensures IsSpace((a + b)[i]) {
      if i < |a| { assert (a + b)[i] == a[i]; } else { assert (a + b)[i] == b[i - |a|]; }
    }
  }

  /** The trimmed form of `s` with white space added on both sides. */
  lemma {:induction false} TrimOfPadded(lead: string, core: string, tail: string)
    requires AllSpace(lead) && AllSpace(tail)
    requires |core| == 0 || (!IsSpace(core[0]) && !IsSpace(core[|core| - 1]))
    ensures Trim(lead + core + tail) == core
  {
    var s := lead + core + tail;
    if |core| == 0 {
      AllSpaceConcat(lead, tail);
      assert s == lead + tail;
    } else {
      var n := LeadingSpace(s);
      assert s[|lead|] == core[0];
      assert n == |lead|;
      var t := s[n..];
      assert t == core + tail;
      var m := TrailingSpace(t);
      assert t[|core| - 1] == core[|core| - 1];
      assert m == |tail|;
      assert t[..|t| - m] == core;
    }
  }

  /** Splits `s` into leading white space, its trimmed core, and trailing white space. */
  lemma {:induction false} TrimSplit(s: string) returns (lead: string, tail: string)
    ensures AllSpace(lead) && AllSpace(tail)
    ensures s == lead + Trim(s) + tail
  {
    var t := s[LeadingSpace(s)..];
    lead := s[..LeadingSpace(s)];
    tail := t[|t| - TrailingSpace(t)..];
    LeadingIsSpace(s);
    TrailingIsSpace(t);
    SplitThree(s, LeadingSpace(s), |t| - TrailingSpace(t));
  }

  lemma {:induction false} LeadingIsSpace(s: string)
    ensures AllSpace(s[..LeadingSpace(s)])
  {
  }

  lemma {:induction false} TrailingIsSpace(s: string)
    ensures AllSpace(s[|s| - TrailingSpace(s)..])
  {
  }

  lemma {:induction false} SplitThree(s: string, n: nat, k: nat)
    requires n <= |s| && k <= |s| - n
    ensures s == s[..n] + s[n..][..k] + s[n..][k..]
  {
    assert s[n..] == s[n..][..k] + s[n..][k..];
  }

  /** Padding a word with white space on either side does not change its trimmed form. */
  lemma {:induction false} TrimPadded(pre: string, s: string, post: string)
    requires AllSpace(pre) && AllSpace(post)
    ensures Trim(pre + s + post) == Trim(s)
  {
    var lead, tail := TrimSplit(s);
    AllSpaceConcat(pre, lead);
    AllSpaceConcat(tail, post);
    assert pre + s + post == (pre + lead) + Trim(s) + (tail + post);
    TrimOfPadded(pre + lead, Trim(s), tail + post);
  }

  lemma {:induction false} ToLowerConcat(a: string, b: string)
    ensures ToLower(a + b) == ToLower(a) + ToLower(b)
  {
    var ab := a + b;
    var l := ToLower(ab);
    var la, lb := ToLower(a), ToLower(b);
    var r := la + lb;
    assert |l| == |r|;
    forall i | 0 <= i < |a| ensures l[i] == r[i] {
      assert ab[i] == a[i] && r[i] == la[i];
    }
    forall i | |a| <= i < |l| ensures l[i] == r[i] {
      assert ab[i] == b[i - |a|] && r[i] == lb[i - |a|];
    }
  }

  lemma {:induction false} ToLowerKeepsSpace(ws: string)
    requires AllSpace(ws)
    ensures ToLower(ws) == ws
  {
    forall i | 0 <= i < |ws| ensures ToLower(ws)[i] == ws[i] { }
  }

  /** Two inputs that differ only in letter case and surrounding white space
      share one cache key. */
  lemma {:induction false} NormalizeIgnoresCaseAndPadding(pre: string, s: string, post: string)
    requires AllSpace(pre) && AllSpace(post)
    ensures Normalize(pre + s + post) == Normalize(ToLower(s))
  {
    ToLowerConcat(pre + s, post);
    ToLowerConcat(pre, s);
    ToLowerKeepsSpace(pre);
    ToLowerKeepsSpace(post);
    TrimPadded(pre, ToLower(s), post);
    ToLowerIdempotent(s);
  }
}

=== FILE: wordcache.dfy ===
/** The three-tier word lookup of `getWordDetail` and the memoised index
    of `loadIndex`. The memory tier is a JavaScript `Map`: a sequence of
    key/value pairs in insertion order, with distinct keys, capped at 200 by
    evicting the earliest inserted key. The durable tier (IndexedDB) is a
    map from word to record; whether a read of it succeeds and whether a
    write lands are parameters. The origin server is an oracle. */
module WordCache {
  import opened Text
  import opened IndexSearch

  const MaxMemory: nat := 200

  /** A durable record `{ word, data, timestamp }`; `data` may be missing. */
  datatype Record<W> = Record(word: string, data: Option<W>, timestamp: int)

  /** What fetching `dictionary/<word>.json` gives: a parsed body, a non-ok
      status, or a thrown network or parse error. */
  datatype Fetch<W> = Found(body: W) | NotOk | Failed

  datatype LookupError = NotFound(word: string) | NetworkError

  /** `loadIndex` fails with one message whatever went wrong. */
  datatype IndexError = IndexUnavailable

  datatype Tiers<W> = Tiers(index: Option<Index>, memory: seq<(string, W)>, durable: map<string, Record<W>>)

  datatype DictEnv = DictEnv(now: int, durableReadable: bool, durableWritable: bool)

  predicate DistinctKeys<W>(m: seq<(string, W)>) {
    forall a, b :: 0 <= a < b < |m| ==> m[a].0 != m[b].0
  }

  predicate Valid<W>(t: Tiers<W>) {
    |t.memory| <= MaxMemory && DistinctKeys(t.memory)
  }

  /** Position of `key` in insertion order. */
  function KeyIndex<W>(m: seq<(string, W)>, key: string): (r: Option<nat>)
    ensures r.Some? ==> r.value < |m| && m[r.value].0 == key && forall j :: 0 <= j < r.value ==> m[j].0 != key
    ensures r.None? <==> forall j :: 0 <= j < |m| ==> m[j].0 != key
    decreases |m|
  {
    if |m| == 0 then None
    else if m[0].0 == key then Some(0)
    else match KeyIndex(m[1..], key)
      case None => None
      case Some(i) => Some(i + 1)
  }

  /** `Map.prototype.get`. */
  function Find<W>(m: seq<(string, W)>, key: string): (r: Option<W>)
    ensures r.Some? <==> exists k :: 0 <= k < |m| && m[k].0 == key
    ensures r.Some? ==> exists k :: 0 <= k < |m| && m[k] == (key, r.value)
  {
    match KeyIndex(m, key)
    case Some(i) => Some(m[i].1)
    case None => None
  }

  /** Where a key sits depends only on the sequence of keys. */
  lemma {:induction false} KeyIndexSameKeys<W>(m1: seq<(string, W)>, m2: seq<(string, W)>, key: string)
    requires |m1| == |m2| && forall j :: 0 <= j < |m1| ==> m1[j].0 == m2[j].0
    ensures KeyIndex(m1, key) == KeyIndex(m2, key)
  {
  }

  lemma {:induction false} FindAppend<W>(m: seq<(string, W)>, key: string, value: W, k: string)
    requires k != key
    ensures Find(m + [(key, value)], k) == Find(m, k)
  {
    var m' := m + [(key, value)];
    var a, b := KeyIndex(m', k), KeyIndex(m, k);
    assert forall j :: 0 <= j < |m| ==> m'[j] == m[j];
  }

  /** `Map.prototype.set`: an existing key keeps its place, a new key goes last. */
  function MapSet<W>(m: seq<(string, W)>, key: string, value: W): (r: seq<(string, W)>)
    requires DistinctKeys(m)
    ensures DistinctKeys(r)
    ensures Find(r, key) == Some(value)
    ensures forall k :: k != key ==> Find(r, k) == Find(m, k)
    ensures Find(m, key).None? ==> r == m + [(key, value)]
    ensures Find(m, key).Some? ==> |r| == |m| && forall j :: 0 <= j < |m| ==> r[j].0 == m[j].0
  {
    match KeyIndex(m, key)
    case Some(i) =>
      var r := m[i := (key, value)];
      forall k ensures KeyIndex(r, k) == KeyIndex(m, k) {
        KeyIndexSameKeys(r, m, k);
      }
      r
    case None =>
      var r := m + [(key, value)];
      forall k | k != key ensures Find(r, k) == Find(m, k) {
        FindAppend(m, key, value, k);
      }
      assert forall j :: 0 <= j < |m| ==> r[j] == m[j];
      assert r[|m|].0 == key;
      r
  }

  /** `set` followed by the size check: over the cap, the first key is deleted. */
  function MemoryPut<W>(m: seq<(string, W)>, key: string, value: W): (r: seq<(string, W)>)
    requires DistinctKeys(m) && |m| <= MaxMemory
    ensures DistinctKeys(r) && |r| <= MaxMemory
    ensures Find(r, key) == Some(value)
    ensures Find(m, key).None? && |m| == MaxMemory ==> r == m[1..] + [(key, value)]
    ensures Find(m, key).None? && |m| < MaxMemory ==> r == m + [(key, value)]
  {
    var s := MapSet(m, key, value);
    if |s| > MaxMemory then
      assert forall k :: 1 <= k < |s| ==> s[k] == s[1..][k - 1];
      assert s[|s| - 1] == (key, value);
      s[1..]
    else s
  }

  /** The durable store can be read and holds a record with data for `key`. */
  predicate DurableHit<W>(t: Tiers<W>, key: string, env: DictEnv) {
    env.durableReadable && key in t.durable && t.durable[key].data.Some?
  }

  /** The result and the tiers after `getWordDetail(word)`, and whether the
      origin was asked. */
  datatype Lookup<W> = Lookup(result: Result<W, LookupError>, tiers: Tiers<W>, fetched: bool)

  /** `getWordDetail(word)`: memory, then the durable store, then the origin. */
  function GetWordDetail<W>(t: Tiers<W>, word: string, env: DictEnv, origin: string -> Fetch<W>): (r: Lookup<W>)
    requires Valid(t)
    ensures Valid(r.tiers)
    ensures r.tiers.index == t.index
    ensures Find(t.memory, Normalize(word)).Some? ==>
      r == Lookup(Ok(Find(t.memory, Normalize(word)).value), t, false)
    ensures r.result.Ok? ==> Find(r.tiers.memory, Normalize(word)) == Some(r.result.value)
    ensures r.result.Err? ==> r.tiers == t
    ensures r.fetched ==> Find(t.memory, Normalize(word)).None?
    ensures Find(t.memory, Normalize(word)).None? && DurableHit(t, Normalize(word), env) ==>
      && r.result == Ok(t.durable[Normalize(word)].data.value) && !r.fetched
      && r.tiers.durable == t.durable
    ensures Find(t.memory, Normalize(word)).None? && !DurableHit(t, Normalize(word), env) ==>
      && r.fetched
      && (origin(Normalize(word)).Found? <==> r.result.Ok?)
      && (origin(Normalize(word)).Found? ==>
            var v := origin(Normalize(word)).body;
            && r.result == Ok(v)
            && r.tiers.durable == (if env.durableWritable then t.durable[Normalize(word) := Record(Normalize(word), Some(v), env.now)]
                                   else t.durable))
      && (origin(Normalize(word)).NotOk? ==> r.result == Err(NotFound(word)))
      && (origin(Normalize(word)).Failed? ==> r.result == Err(NetworkError))
    ensures Find(t.memory, Normalize(word)).None? && r.result.Ok? ==>
      r.tiers.memory == MemoryPut(t.memory, Normalize(word), r.result.value)
  {
    var key := Normalize(word);
    match Find(t.memory, key)
    case Some(v) => Lookup(Ok(v), t, false)
    case None =>
      if DurableHit(t, key, env) then
        var v := t.durable[key].data.value;
        Lookup(Ok(v), t.(memory := MemoryPut(t.memory, key, v)), false)
      else
        match origin(key)
        case Found(v) =>
          var durable := if env.durableWritable then t.durable[key := Record(key, Some(v), env.now)] else t.durable;
          Lookup(Ok(v), Tiers(t.index, MemoryPut(t.memory, key, v), durable), true)
        case NotOk => Lookup(Err(NotFound(word)), t, true)
        case Failed => Lookup(Err(NetworkError), t, true)
  }

  /** A stored durable record answers without the origin: any two origins
      give the same lookup, and neither is asked. */
  lemma {:induction false} DurableHitSkipsOrigin<W>(t: Tiers<W>, word: string, env: DictEnv,
                                                    o1: string -> Fetch<W>, o2: string -> Fetch<W>)
    requires Valid(t) && env.durableReadable && Find(t.memory, Normalize(word)).None?
    requires Normalize(word) in t.durable && t.durable[Normalize(word)].data.Some?
    ensures GetWordDetail(t, word, env, o1) == GetWordDetail(t, word, env, o2)
    ensures !GetWordDetail(t, word, env, o1).fetched
    ensures GetWordDetail(t, word, env, o1).result == Ok(t.durable[Normalize(word)].data.value)
  {
  }

  /** A word fetched from the origin while the durable store accepts writes
      outlives the memory tier: after `clearCache` the next lookup answers
      the same value from the durable store, whatever the origin would say. */
  lemma {:induction false} FetchedThenDurable<W>(t: Tiers<W>, word: string, env1: DictEnv, env2: DictEnv,
                                                 o1: string -> Fetch<W>, o2: string -> Fetch<W>)
    requires Valid(t) && env1.durableWritable && env2.durableReadable
    requires GetWordDetail(t, word, env1, o1).fetched && GetWordDetail(t, word, env1, o1).result.Ok?
    ensures var a := GetWordDetail(t, word, env1, o1);
            var b := GetWordDetail(ClearCache(a.tiers), word, env2, o2);
            b.result == a.result && !b.fetched
  {
  }

  /** Whatever was just looked up successfully is answered from memory next
      time, with the same value and no change to any tier. */
  lemma {:induction false} LookupThenHit<W>(t: Tiers<W>, word: string, env1: DictEnv, env2: DictEnv,
                                            o1: string -> Fetch<W>, o2: string -> Fetch<W>)
    requires Valid(t)
    requires GetWordDetail(t, word, env1, o1).result.Ok?
    ensures var a := GetWordDetail(t, word, env1, o1);
            GetWordDetail(a.tiers, word, env2, o2) == Lookup(a.result, a.tiers, false)
  {
  }

  /** Inputs that differ only in case and surrounding white space share an
      entry: on a hit, or whenever the lookup succeeds, both give the same
      value and the same tiers. */
  lemma {:induction false} LookupIgnoresCaseAndPadding<W>(t: Tiers<W>, pre: string, word: string, post: string,
                                                          env: DictEnv, origin: string -> Fetch<W>)
    requires Valid(t) && AllSpace(pre) && AllSpace(post)
    ensures var a := GetWordDetail(t, pre + word + post, env, origin);
            var b := GetWordDetail(t, ToLower(word), env, origin);
            a.tiers == b.tiers && a.fetched == b.fetched && a.result.Ok? == b.result.Ok?
            && (a.result.Ok? ==> a.result == b.result)
  {
    NormalizeIgnoresCaseAndPadding(pre, word, post);
    SameKeySameLookup(t, pre + word + post, ToLower(word), env, origin);
  }

  /** Only the normalised key decides a lookup; the raw word appears only in the error. */
  lemma {:induction false} SameKeySameLookup<W>(t: Tiers<W>, w1: string, w2: string, env: DictEnv, origin: string -> Fetch<W>)
    requires Valid(t) && Normalize(w1) == Normalize(w2)
    ensures var a := GetWordDetail(t, w1, env, origin);
            var b := GetWordDetail(t, w2, env, origin);
            a.tiers == b.tiers && a.fetched == b.fetched && a.result.Ok? == b.result.Ok?
            && (a.result.Ok? ==> a.result == b.result)
  {
  }

  /** A new entry evicts exactly the earliest inserted key, and only when memory is full. */
  lemma {:induction false} EvictsEarliest<W>(m: seq<(string, W)>, key: string, value: W)
    requires DistinctKeys(m) && |m| <= MaxMemory && Find(m, key).None?
    ensures var r := MemoryPut(m, key, value);
            && (|m| < MaxMemory ==> forall k :: Find(m, k).Some? ==> Find(r, k) == Find(m, k))
            && (|m| == MaxMemory ==>
                  && Find(r, m[0].0).None?
                  && forall k :: k != m[0].0 && k != key ==> Find(r, k) == Find(m, k))
  {
    var r := MemoryPut(m, key, value);
    if |m| == MaxMemory {
      assert r == m[1..] + [(key, value)];
      forall k | k != m[0].0 && k != key ensures Find(r, k) == Find(m, k) {
        FindTail(m, k);
        FindAppend(m[1..], key, value, k);
      }
      FindAppend(m[1..], key, value, m[0].0);
      assert forall j :: 1 <= j < |m| ==> m[j] == m[1..][j - 1];
    } else {
      forall k | Find(m, k).Some? ensures Find(r, k) == Find(m, k) {
        FindAppend(m, key, value, k);
      }
    }
  }

  lemma {:induction false} FindTail<W>(m: seq<(string, W)>, k: string)
    requires |m| > 0 && k != m[0].0
    ensures Find(m[1..], k) == Find(m, k)
  {
    var a, b := KeyIndex(m[1..], k), KeyIndex(m, k);
    assert forall j :: 1 <= j < |m| ==> m[j] == m[1..][j - 1];
  }

  /** Result and tiers after `loadIndex()`, and whether the index file was fetched. */
  datatype IndexLoad<W> = IndexLoad(result: Result<Index, IndexError>, tiers: Tiers<W>, fetched: bool)

  /** `loadIndex()`: the loaded index is memoised; a failed fetch leaves
      nothing memoised, so the next call fetches again. */
  function LoadIndex<W>(t: Tiers<W>, fetch: Fetch<Index>): (r: IndexLoad<W>)
    ensures t.index.Some? ==> r == IndexLoad(Ok(t.index.value), t, false)
    ensures t.index.None? ==> r.fetched
    ensures t.index.None? && fetch.Found? ==> r.result == Ok(fetch.body)
    ensures t.index.None? && !fetch.Found? ==> r.result == Err(IndexUnavailable)
    ensures r.tiers.memory == t.memory && r.tiers.durable == t.durable
    ensures r.result.Ok? ==> r.tiers.index == Some(r.result.value)
    ensures r.result.Err? ==> r.tiers.index.None?
  {
    if t.index.Some? then IndexLoad(Ok(t.index.value), t, false)
    else match fetch
      case Found(idx) => IndexLoad(Ok(idx), t.(index := Some(idx)), true)
      case _ => IndexLoad(Err(IndexUnavailable), t, true)
  }

  /** After one successful load, loading again fetches nothing, whatever
      the server would answer, and returns the same index. */
  lemma {:induction false} LoadIndexOnce<W>(t: Tiers<W>, f1: Fetch<Index>, f2: Fetch<Index>)
    requires LoadIndex(t, f1).result.Ok?
    ensures var a := LoadIndex(t, f1);
            LoadIndex(a.tiers, f2) == IndexLoad(a.result, a.tiers, false)
  {
  }

  /** `clearCache()`: the memoised index and the memory tier are emptied;
      the durable store is untouched. */
  function ClearCache<W>(t: Tiers<W>): (r: Tiers<W>)
    ensures Valid(r)
    ensures r.index.None? && r.memory == [] && r.durable == t.durable
  {
    Tiers(None, [], t.durable)
  }

  /** After `clearCache` the next `loadIndex` fetches again. */
  lemma {:induction false} ClearForcesReload<W>(t: Tiers<W>, fetch: Fetch<Index>)
    ensures LoadIndex(ClearCache(t), fetch).fetched
  {
  }
}
